=== FILE: README.md ===
# Intel 8085 simulator core, modelled in Dafny

This project models the emulation core of a Python Intel 8085 simulator as
pure functions over immutable data and proves properties of them. The core
has four parts:

- the **ALU**. It does 8-bit add, subtract, AND, OR and XOR, and computes the
  S, Z, AC, P and C flags.
- the **memory**. It has 64 KiB of bytes, with bounds-checked byte and word
  access and a program loader.
- the **CPU**. It has registers, flags, SP, PC and a halted bit. It fetches an
  opcode, looks it up in a fixed dispatch table and runs the handler.
- the **two-pass assembler**, in two variants. They share one model,
  `Assembler`. That model is parameterised by a `Dialect`: the opcode table
  and the list of two-byte immediate mnemonics. `AsmTables` instantiates it
  twice: `SRC_DIALECT` for the larger table and `SRC1_DIALECT` for the smaller.

Modules, in dependency order:

| module | what it holds |
|---|---|
| `Wrappers` | `Option` and `Result` |
| `Bits` | bit extraction, popcount and parity, and bitwise AND/OR/XOR on naturals |
| `ALU`, `AluLemmas` | the five ALU operations; the comparison, increment and decrement facts the CPU relies on |
| `Memory` | `Mem` (65536 bytes), `Read`, `Write`, `ReadWord`, `WriteWord`, `LoadProgram` |
| `State` | the register file `Cpu`, register pairs, and the state `CPU()` starts in |
| `Opcodes` | the instruction datatype `Instr`; `Decode` is the CPU's dispatch table, `Encode` the 8085 bit-field encoding |
| `CPU`, `CpuLemmas` | fetch, stack, every handler, `Step` and the fuel-bounded `Run`; the properties of each handler |
| `Text` | the parts of Python's `str` the assembler uses: `strip`, `split(sep)`, `split()` and `int(text, base)` |
| `Assembler` | pass one (`Scan`), pass two (`EmitLine`, `EmitLines`) and `AssembleAt` / `Assemble` |
| `AsmTables` | the two opcode tables and how they relate to each other and to the CPU |
| `Programs` | whole programs and single lines, from source text through both passes to a loaded, running machine |

Errors the source raises are `Err` values. The CPU's `ValueError`s carry the
machine as the Python code leaves it at the raise, because the Python code
changes state before it raises:

- PC has already advanced past an unknown opcode;
- SP has already been decremented before a failing push;
- a `write_word` that fails on its high byte has already written its low byte.

## Model

| member | source | states |
|---|---|---|
| ALU.CarryIn | Src/Core/ALU.py:12 | the carry or borrow input counts as 1 exactly when it is set |
| ALU.Add | Src/Core/ALU.py:7-20 | fails, naming both operands, exactly when an operand is outside 0..255; otherwise the result is the sum plus carry, mod 256; C is set iff the true sum exceeds 255; AC is set iff the low nibbles plus carry exceed 15; Z, S and P describe the masked result |
| ALU.Sub | Src/Core/ALU.py:23-33 | accepts any integers (no range check); the result is the difference minus borrow, mod 256, matching Python's `& 0xFF`; C is set iff the true difference is negative; AC is set iff the low nibble of `a` is below the low nibble of `b` plus borrow; Z, S and P describe the masked result |
| ALU.LogicFlags | Src/Core/ALU.py:39-45 | the logical operations clear C and set Z, S and P from their result |
| ALU.And | Src/Core/ALU.py:36-46 | AND always sets AC and clears C; Z, S and P describe the result |
| ALU.Or | Src/Core/ALU.py:49-59 | OR clears AC and C; Z, S and P describe the result |
| ALU.Xor | Src/Core/ALU.py:62-72 | XOR clears AC and C; Z, S and P describe the result |
| ALU.LogicalOpsAreBitwise | Src/Core/ALU.py:38-64 | bit i of the AND, OR and XOR results is the conjunction, disjunction or difference of bit i of the operands |
| ALU.RippleAdds | Src/Core/ALU.py:12-14 | an n-bit ripple-carry adder, an independent definition, computes the sum and carry-out exactly |
| ALU.RippleByte | Src/Core/ALU.py:12-20 | the 8-bit ripple adder gives the masked sum, and its carry-out is set iff the sum exceeds 255 |
| ALU.RippleNibble | Src/Core/ALU.py:18 | the 4-bit ripple adder's carry-out on the low nibbles is set iff they sum past 15 |
| ALU.AddIsRippleCarry | Src/Core/ALU.py:7-20 | on bytes, `add` agrees with the ripple adder: its value and C come from the 8-bit adder, its AC from the carry out of bit 3 |
| ALU.ComplementSameValue | Src/Core/ALU.py:23-33 | subtracting b with borrow gives the same byte as adding the complement of b with the inverted borrow |
| ALU.ComplementInvertsCarries | Src/Core/ALU.py:27-31 | for that complement addition, `sub`'s C and AC are the inverses of `add`'s |
| ALU.SubIsComplementAdd | Src/Core/ALU.py:7-33 | `sub(a, b, bw)` is `add(a, 0xFF - b, !bw)` with C and AC inverted: the two operations are tied by the complement rule |
| Bits.BitAndIsBitwise | Src/Core/ALU.py:38 | bit i of the arithmetic AND is set iff bit i is set in both operands |
| Bits.BitOrIsBitwise | Src/Core/ALU.py:51 | bit i of the arithmetic OR is set iff it is set in either operand |
| Bits.BitXorIsBitwise | Src/Core/ALU.py:64 | bit i of the arithmetic XOR is set iff it is set in exactly one operand |
| Bits.BitwiseStaysInWidth | Src/Core/ALU.py:38-64 | AND, OR and XOR of n-bit values stay within n bits, so the logical results of bytes are bytes |
| Bits.Bit7OfLowByte | Src/Core/ALU.py:16 | the S test `result & 0x80` is set iff the low byte of the result is at least 0x80, whatever the higher bits |
| Bits.Bit7IsBit | Src/Core/ALU.py:16 | that test reads the same bit as seven halvings and a parity test, the definition the bitwise lemmas use |
| AluLemmas.SubCompares | Src/Core/ALU.py:23-33 | `sub(a, x)` without borrow sets Z iff a == x and C iff a < x: it compares |
| AluLemmas.ByteDifferenceZero | Src/Core/ALU.py:28 | the masked difference of two bytes is 0 iff they are equal |
| AluLemmas.IncrementFlags | Src/Core/ALU.py:7-20 | adding 1 to a byte cannot fail; it wraps mod 256, and AC is set iff the low nibble was 0xF |
| AluLemmas.IncrementValue | Src/Core/ALU.py:12-20 | adding 1 to a byte gives the byte plus one, mod 256 |
| AluLemmas.IncrementHalfCarry | Src/Core/ALU.py:18 | adding 1 sets AC iff the low nibble was 0xF |
| AluLemmas.DecrementFlags | Src/Core/ALU.py:23-33 | subtracting 1 wraps mod 256, and AC is set iff the low nibble was 0 |
| AluLemmas.DecrementValue | Src/Core/ALU.py:25-33 | subtracting 1 gives the byte minus one, mod 256 |
| AluLemmas.DecrementHalfCarry | Src/Core/ALU.py:31 | subtracting 1 sets AC iff the low nibble was 0 |
| Memory.Blank | src/core/memory.py:7-8 | a fresh memory holds 0 at every one of the 65536 addresses |
| Memory.Read | src/core/memory.py:12-19 | succeeds iff the address is in 0..0xFFFF and then returns the stored byte; otherwise it fails naming the address |
| Memory.Write | src/core/memory.py:21-28 | succeeds iff the address is in range and the value is a byte; then that cell holds the value and every other cell is unchanged; on failure memory is untouched |
| Memory.ReadWord | src/core/memory.py:30-34 | succeeds iff both bytes are addressable, i.e. the address is below 0xFFFF, and is then the low byte plus 256 times the high byte; at 0xFFFF it fails on address 0x10000 |
| Memory.WriteWord | src/core/memory.py:36-39 | below 0xFFFF it stores the low byte then the high byte and touches nothing else; at 0xFFFF the low byte is already written when it fails, so it is not atomic |
| Memory.FirstBadFrom | src/core/memory.py:43-44 | finds the first program byte the loader cannot store: every earlier byte is storable and that one is not |
| Memory.LoadFrom | src/core/memory.py:43-44 | writes the program byte by byte; the bytes before the first bad one are in place, the rest of memory is untouched, and it fails on the first bad byte |
| Memory.LoadProgram | src/core/memory.py:41-44 | succeeds iff the program fits from the start address and every item is a byte; then `mem[start + i] = program[i]` and nothing else changes; on failure the bytes before the first bad one are already written and the error names that byte |
| Memory.ReadAfterWrite | src/core/memory.py:12-28 | reading after a successful write returns the written value at that address and the old contents elsewhere |
| Memory.LittleEndianSplit | src/core/memory.py:38-39 | the two bytes `write_word` stores recombine to the value mod 65536 |
| Memory.WordRoundTrip | src/core/memory.py:30-39 | below 0xFFFF, `write_word` then `read_word` gives back the value mod 65536 |
| State.Cpu.Set | Src/Core/CPU.py:15-20 | writing a register changes that register and nothing else in the CPU |
| State.Cpu.SetPair | Src/Core/CPU.py:47-50 | writing a pair puts bits 8-15 in the high register and bits 0-7 in the low one, and changes nothing else |
| State.Init | Src/Core/CPU.py:9-37 | every register is 0, PC is 0x8000, SP is 0xFFFF, every flag is clear, and the CPU is neither halted nor taking interrupts |
| State.PairRoundTrip | Src/Core/CPU.py:43-50 | `set_register_pair` then `get_register_pair` gives back the value mod 65536, and writing a pair's own value changes nothing |
| Opcodes.DecodeEncode | Src/Core/CPU.py:101-312 | every instruction the dispatch table implements sits at its standard 8085 opcode |
| Opcodes.DecodeEncodeMov | Src/Core/CPU.py:106-180 | every MOV except M,M is in the table at its standard opcode |
| Opcodes.DecodeEncodeFixed | Src/Core/CPU.py:199-310 | LDA, STA, LHLD, SHLD, ADI, CALL, RET, CPI, HLT and NOP are in the table at their standard opcodes |
| Opcodes.EncodeDecode | Src/Core/CPU.py:101-312 | every opcode in the table holds an implemented instruction whose standard encoding is that opcode |
| Opcodes.DecodeIsInverseOfEncode | Src/Core/CPU.py:101-312 | the table maps an opcode to an instruction iff the instruction is implemented and encodes to that opcode |
| CpuLemmas.AdvanceAdds | Src/Core/CPU.py:67-83 | moving PC by a and then by b is moving it by a + b, wrapping at 0x10000, so successive fetches compose |
| CPU.FetchByte | Src/Core/CPU.py:73-77 | reads the byte at PC and advances PC by one |
| CPU.FetchWord | Src/Core/CPU.py:79-83 | reads the little-endian word at PC and advances PC by two; it fails exactly when PC is 0xFFFF |
| CPU.PushStack | Src/Core/CPU.py:56-59 | lowers SP by 2 without masking and writes the value's low 16 bits there, changing no other memory; it fails exactly when SP is outside 2..0x10000, leaving SP already lowered |
| CPU.PopStack | Src/Core/CPU.py:61-65 | reads the word at SP and raises SP by 2 without masking; it fails exactly when SP is outside 0..0xFFFE, with the machine unchanged |
| CPU.Load | Src/Core/CPU.py:315-358 | a register operand reads the register; M reads the byte HL points at |
| CPU.Store | Src/Core/CPU.py:783-906 | a register operand writes the register only; M writes the byte at HL and leaves the registers alone |
| CPU.SetWide | Src/Core/CPU.py:362-365 | LXI and INX/DCX write their pair or SP and nothing else |
| CPU.FlagBits | Src/Core/CPU.py:737-744 | the PSW flag byte is a byte |
| CPU.Transfer | Src/Core/CPU.py:315-360 | MOV and MVI leave the flags, SP and the halted bit alone |
| CPU.LoadStore | Src/Core/CPU.py:362-381 | LXI, LDA, STA, LHLD and SHLD leave the flags and the halted bit alone when they succeed |
| CPU.Arithmetic | Src/Core/CPU.py:383-595 | the ALU instructions leave memory and SP alone |
| CPU.Counting | Src/Core/CPU.py:597-843 | INR, DCR, INX and DCX keep C and PC |
| CPU.Branch | Src/Core/CPU.py:697-726 | jumps, CALL and RET leave the flags alone when they succeed |
| CPU.Stack | Src/Core/CPU.py:728-762 | PUSH and POP leave PC alone when they succeed |
| CPU.Execute | Src/Core/CPU.py:101-906 | only instructions that touch memory, the stack or an operand word can fail; a handler sets the halted bit only for HLT |
| CPU.Step | Src/Core/CPU.py:85-99 | a halted CPU reports that it stopped and changes nothing; an opcode not in the table raises naming the opcode and PC minus one after the advance, which is -1 when the opcode is at 0xFFFF; any opcode in the table runs |
| CPU.Iterate | Src/Interface/SimulatorGUI.py:296-297 | repeats a step function under a fuel bound; it stops only in a state the step reports halted |
| CPU.Run | Src/Interface/SimulatorGUI.py:296-297 | running a halted machine stops at once; a run that stops ends in a halted machine |
| CpuLemmas.StepRunsHandler | Src/Core/CPU.py:91-96 | for a non-halted machine with an implemented opcode at PC, a step is that instruction's handler run after PC has moved past the opcode |
| CpuLemmas.HaltedIsFinal | Src/Core/CPU.py:87-89 | once halted, a step reports halted and a run with any fuel stops at the same machine |
| CpuLemmas.HltAndNop | Src/Core/CPU.py:777-781 | HLT only advances PC and sets the halted bit; NOP only advances PC |
| CpuLemmas.MovCopies | Src/Core/CPU.py:315-350 | MOV puts the source's value in the destination and changes no other register, the flags, SP or PC; a register destination leaves memory alone |
| CpuLemmas.MviLoadsOperand | Src/Core/CPU.py:351-360 | MVI puts the operand byte in the destination, keeps the flags and SP, changes no other register and steps PC past the operand |
| CpuLemmas.InxWraps | Src/Core/CPU.py:789-815 | INX adds 1 to its pair or SP mod 0x10000 and keeps the flags |
| CpuLemmas.DcxWraps | Src/Core/CPU.py:817-843 | DCX subtracts 1 from its pair or SP mod 0x10000 and keeps the flags |
| CpuLemmas.InrFlags | Src/Core/CPU.py:597-645 | INR adds 1 mod 256 to a register or to M; Z, S and P describe the new value; AC is set iff the low nibble was 0xF; C is kept |
| CpuLemmas.DcrFlags | Src/Core/CPU.py:647-695 | DCR subtracts 1 mod 256 from a register or from M; Z, S and P describe the new value; AC is set iff the low nibble was 0; C is kept |
| CpuLemmas.CmpComparesWithA | Src/Core/CPU.py:764-770 | CMP sets the flags `sub(A, x)` would, so Z means equal and C means below, and changes nothing but the flags |
| CpuLemmas.CpiComparesWithA | Src/Core/CPU.py:772-775 | CPI compares A with its operand byte the same way and otherwise only advances PC |
| CpuLemmas.AddAccumulates | Src/Core/CPU.py:383-425 | ADD runs A and the operand (a register or the byte at HL) through the adder with no carry-in and writes back only A and the flags; A becomes the sum mod 256 and C is set iff the sum exceeds 255 |
| CpuLemmas.AddsThroughAlu | Src/Core/CPU.py:383-472 | writing an `add` result back leaves A holding the low byte of the sum with carry-in and C saying whether that sum overflowed |
| CpuLemmas.AdiAddsOperand | Src/Core/CPU.py:427-431 | ADI adds the byte after the opcode the same way, with no carry-in, and moves PC past that byte; nothing else changes |
| CpuLemmas.AdiSums | Src/Core/CPU.py:427-431 | after ADI, A is A plus the operand byte mod 256, and C is set iff the sum exceeds 255 |
| CpuLemmas.AdcAddsCarry | Src/Core/CPU.py:433-472 | ADC passes the current C as carry-in: A becomes A + x + C mod 256, C is set iff that exceeds 255, all flags come from the ALU, and nothing else changes |
| CpuLemmas.SubSubtracts | Src/Core/CPU.py:474-513 | SUB writes `sub(A, x)` back with no borrow: A becomes A - x mod 256, Z is set iff A equalled x, C iff A was below x; nothing else changes |
| CpuLemmas.AnaAnds | Src/Core/CPU.py:515-554 | ANA writes `logical_and(A, x)` back: each bit of the new A is the AND of that bit of A and of x; AC is set and C cleared; nothing else changes |
| CpuLemmas.OraOrs | Src/Core/CPU.py:556-595 | ORA writes `logical_or(A, x)` back: each bit of the new A is the OR of that bit of A and of x; AC and C are cleared; nothing else changes |
| CpuLemmas.LoadStoreAtEnd | Src/Core/CPU.py:79-83 | with PC at 0xFFFF, LXI, LDA, STA, LHLD and SHLD all raise on the operand fetch, naming address 0x10000, before anything changes |
| CpuLemmas.LxiLoadsWord | Src/Core/CPU.py:362-365 | LXI puts the little-endian operand word in its pair or SP; A, the flags, memory and every other pair keep their values; PC moves past the operand |
| CpuLemmas.LxiSetsWide | Src/Core/CPU.py:362-365 | LXI's handler is one fetch of the operand word followed by one write of it to the pair or SP |
| CpuLemmas.SetWideKeepsOthers | Src/Core/CPU.py:47-50 | `set_register_pair` on one pair (or an assignment to SP) leaves A and every other pair alone |
| CpuLemmas.LdaLoads | Src/Core/CPU.py:367-369 | LDA sets A to the byte at the operand address; everything else is as after the operand fetch |
| CpuLemmas.StaStores | Src/Core/CPU.py:371-373 | STA is one write of A to the operand address: that cell changes and no other; the processor only moves PC |
| CpuLemmas.LhldLoadsHL | Src/Core/CPU.py:375-377 | LHLD succeeds iff the operand address is below 0xFFFF; it then sets HL to the word there and changes nothing else but PC; otherwise it raises on address 0x10000 with PC already past the operand |
| CpuLemmas.LhldReads | Src/Core/CPU.py:375-377 | LHLD's handler is one operand fetch and one `read_word`, whose failure becomes the instruction's |
| CpuLemmas.LhldLittleEndian | Src/Core/CPU.py:375-377 | LHLD takes L from the operand address and H from the byte after it |
| CpuLemmas.ShldStoresHL | Src/Core/CPU.py:379-381 | SHLD succeeds iff the operand address is below 0xFFFF; it then stores HL there as a word, changes no other cell, and only moves PC; at 0xFFFF it raises with L already written to 0xFFFF |
| CpuLemmas.ShldWrites | Src/Core/CPU.py:379-381 | SHLD's handler is one operand fetch and one `write_word` of HL, whose partly written memory survives a failure |
| CpuLemmas.ShldLittleEndian | Src/Core/CPU.py:379-381 | SHLD stores L at the operand address and H at the byte after it |
| CpuLemmas.JumpTakesTargetIffCondition | Src/Core/CPU.py:697-718 | a jump always consumes its two operand bytes; PC becomes the target iff the condition holds on the flags, and otherwise points after the operand; nothing else changes; at PC 0xFFFF the operand fetch fails |
| CpuLemmas.PushPopRoundTrip | Src/Core/CPU.py:56-65 | a pop after a successful push returns the pushed value mod 65536 and restores SP |
| CpuLemmas.PushPopCopiesPair | Src/Core/CPU.py:728-753 | PUSH rp then POP rp' copies the pair into rp' and otherwise restores the CPU, SP included |
| CpuLemmas.FlagBitsRoundTrip | Src/Core/CPU.py:737-762 | the PSW flag byte decodes back to the same five flags |
| CpuLemmas.PswHighByteIgnored | Src/Core/CPU.py:755-762 | POP PSW takes A from the high byte, and the high byte does not disturb the flags |
| CpuLemmas.PswRoundTrip | Src/Core/CPU.py:737-762 | the PSW word of a CPU decodes back to its A and its flags |
| CpuLemmas.PushPopPsw | Src/Core/CPU.py:737-762 | PUSH PSW then POP PSW restores A, all five flags and SP |
| CpuLemmas.CallThenRet | Src/Core/CPU.py:720-726 | CALL jumps to its operand and pushes the address after the operand; a RET right after it restores PC to that address and restores SP |
| CpuLemmas.StackLimits | Src/Core/CPU.py:56-65 | with SP below 2 a push fails; with SP at 0xFFFF or above, or negative, a pop fails; from the initial state RET fails |
| CpuLemmas.MissingOpcodes | Src/Core/CPU.py:101-312 | 0xD6, 0x37, 0x98-0x9F, 0xA8-0xAF and 0xB9-0xBE have no handler |
| CpuLemmas.UnknownOpcodeAfterFetch | Src/Core/CPU.py:91-99 | an opcode without a handler raises after PC has advanced, naming the opcode and PC minus one |
| CpuLemmas.IterateComposes | Src/Interface/SimulatorGUI.py:296-297 | running a+b steps is running a steps and then b more from where they ended |
| CpuLemmas.RunComposes | Src/Interface/SimulatorGUI.py:296-297 | the same for the CPU's own step |
| CpuLemmas.RunExtends | Src/Interface/SimulatorGUI.py:296-297 | once a run has stopped or failed, more fuel does not change its outcome |
| Text.Visible | Src/Core/Assembler.py:151 | the visible characters of a string contain no whitespace |
| Text.VisibleAppend | Src/Core/Assembler.py:151 | the visible characters of a concatenation are those of each part, in order |
| Text.VisibleOfNoSpace | Src/Core/Assembler.py:151 | a string without whitespace is all visible |
| Text.BlankIsInvisible | Src/Core/Assembler.py:137-140 | a whitespace-only string has no visible character |
| Text.TrimLeft | Src/Core/Assembler.py:137 | `lstrip()` drops only leading whitespace and leaves a string that is empty or starts with a non-space |
| Text.TrimRight | Src/Core/Assembler.py:137 | `rstrip()` drops only trailing whitespace and leaves a string that is empty or ends with a non-space |
| Text.Strip | Src/Core/Assembler.py:137 | `strip()` gives a string that is empty or has non-space ends, with the same visible characters |
| Text.StripBlank | Src/Core/Assembler.py:137-140 | a whitespace-only line strips to nothing, so it is skipped |
| Text.StripTrimmed | Src/Core/Assembler.py:137 | a string with non-space ends is its own `strip()` |
| Text.StripIdempotent | Src/Core/Assembler.py:137 | stripping twice is stripping once |
| Text.StripSplits | Src/Core/Assembler.py:137 | `strip()` keeps one contiguous piece of the string: what it cuts off in front and behind is whitespace only, and the three parts rebuild the string |
| Text.TrimLeftBlank | Src/Core/Assembler.py:137 | `lstrip()` removes exactly a whitespace prefix standing in front of text that does not start with whitespace |
| Text.TrimRightBlank | Src/Core/Assembler.py:137 | `rstrip()` removes exactly a whitespace suffix standing behind text that does not end with whitespace |
| Text.StripUnique | Src/Core/Assembler.py:137 | conversely, whatever whitespace surrounds a piece with non-space ends, `strip()` returns exactly that piece, so the split of `StripSplits` is the only one |
| Text.IndexOf | Src/Core/Assembler.py:136 | the first occurrence of a character: it is there, and not before |
| Text.Split | Src/Core/Assembler.py:126 | `split(sep)` gives pieces free of `sep` that join back to the string, and one piece exactly when `sep` is absent |
| Text.SplitJoin | Src/Core/Assembler.py:126 | splitting joined pieces that do not contain the separator gives the pieces back |
| Text.Before | Src/Core/Assembler.py:136 | `s.split(sep)[0]` is the longest prefix without `sep`, and the whole string when `sep` is absent |
| Text.After | Src/Core/Assembler.py:146 | `s.split(sep, 1)[1]` is what follows the first `sep`: the prefix, `sep` and it rebuild the string |
| Text.Word | Src/Core/Assembler.py:151 | a maximal prefix without whitespace |
| Text.WordUnique | Src/Core/Assembler.py:151 | that prefix is the only one so characterised |
| Text.Fields | Src/Core/Assembler.py:151 | `split()` gives nonempty fields free of whitespace |
| Text.FieldsVisible | Src/Core/Assembler.py:151 | the fields of `split()` concatenate to the visible characters of the string, so nothing visible is lost |
| Text.FieldsJoin | Src/Core/Assembler.py:151 | words joined by single spaces split back into the same words |
| Text.FieldsOfVisible | Src/Core/Assembler.py:151-152 | a string with a visible character has at least one field |
| Text.Gaps | Src/Core/Assembler.py:151 | the whitespace gaps around and between the fields of `split()`, glued back in between the fields in order, rebuild the string; every gap is whitespace and every gap between two fields is non-empty |
| Text.InterleaveWiderFirstGap | Src/Core/Assembler.py:151 | widening the first gap puts the extra text in front of the rebuilt string |
| Text.SpaceJoinsFirstGap | Src/Core/Assembler.py:151 | whitespace added to the first gap keeps the gaps valid separators |
| Text.InterleaveAfterWord | Src/Core/Assembler.py:151 | a field behind an empty first gap comes first in the rebuilt string |
| Text.FieldsSkipBlank | Src/Core/Assembler.py:151 | whitespace in front of a string does not change its fields |
| Text.FieldsTakeWord | Src/Core/Assembler.py:151 | a non-empty run without whitespace, followed by the end or by whitespace, is the first field |
| Text.FieldsOfInterleave | Src/Core/Assembler.py:151 | conversely, however non-empty whitespace-free words are laid out between whitespace gaps (non-empty between words), `split()` returns exactly those words, so the fields are the maximal runs |
| Text.DigitValue | Src/Core/Assembler.py:186-188 | a character's digit value is a hexadecimal digit value, or -1 for a non-digit |
| Text.DigitChar | Src/Core/Assembler.py:186-188 | the digit character for a value reads back as that value |
| Text.ShowNat | Src/Core/Assembler.py:186-188 | a natural number written out in base 10 or 16 is nonempty, all digits, and reads back as the number |
| Text.DigitIsPlain | Src/Core/Assembler.py:186-188 | a digit is not whitespace, a sign or the letter x, so it is not mistaken for a base prefix |
| Text.ParseShow | Src/Core/Assembler.py:186-188 | `int()` reads back any integer written out in base 10 or 16, sign included |
| Text.NumeralShow | Src/Core/Assembler.py:186-188 | the numeral reader without stripping reads back the same written-out integers |
| Assembler.KeptHasFields | Src/Core/Assembler.py:148-151 | a line pass one keeps has at least one field, and its first field is its first word |
| Assembler.Mnemonic | Src/Core/Assembler.py:151-152 | `parts[0]` is a nonempty prefix of the line without whitespace |
| Assembler.Estimate | Src/Core/Assembler.py:150-157 | pass one sizes every kept line at 1, 2 or 3 bytes |
| Assembler.Uncomment | Src/Core/Assembler.py:133-140 | a line with its comment cut and its whitespace stripped has no `;` and is either empty or kept |
| Assembler.CommentIgnored | Src/Core/Assembler.py:135-136 | everything from the first `;` on is ignored: the line scans as its text before the `;` |
| Assembler.BlankLineSkipped | Src/Core/Assembler.py:137-140 | a whitespace-only line leaves labels, address and kept lines unchanged |
| Assembler.Bind | Src/Core/Assembler.py:143-145 | a label binds to the running address, overwriting an earlier binding of the same name, and every other label keeps its address |
| Assembler.SizePrefix | Src/Core/Assembler.py:148-157 | the estimated size of the lines grows by the estimate of each line appended |
| Assembler.BindConsistent | Src/Core/Assembler.py:143-145 | binding a label keeps every label pointing at the estimated start of a kept line |
| Assembler.KeepConsistent | Src/Core/Assembler.py:148-157 | keeping a line keeps the address equal to the origin plus the estimated size, and the labels still mark line starts |
| Assembler.ScanLineConsistent | Src/Core/Assembler.py:133-157 | one line of pass one keeps that invariant and only appends to the kept lines |
| Assembler.Scan | Src/Core/Assembler.py:126-157 | after pass one the running address is the origin plus the estimated size of the kept lines, and every label marks the estimated start of a kept line |
| Assembler.Number | Src/Core/Assembler.py:194-197 | an operand `int()` cannot read fails as a bad number naming the text |
| Assembler.LittleEndian | Src/Core/Assembler.py:211-212 | a 16-bit operand becomes two bytes, low first, that recombine to the value mod 65536 |
| Assembler.EmitWithRegister | Src/Core/Assembler.py:179-213 | `MVI r,v` and `LXI rp,v` fail with a missing value exactly when the operand has no comma; with a comma, an unknown register emits nothing, and with a known register an unreadable value fails as a bad number naming the text after the comma; whatever they emit starts with the opcode of `mnemonic register` |
| Assembler.EmitLine | Src/Core/Assembler.py:162-233 | pass two emits at most three bytes for a line, and a line can fail only when it has exactly two fields |
| Assembler.EmitOperand | Src/Core/Assembler.py:173-233 | a mnemonic with one operand emits at most three bytes |
| Assembler.EmitImmediate | Src/Core/Assembler.py:177-199 | an immediate emits at most two bytes |
| Assembler.EmitAddress | Src/Core/Assembler.py:215-226 | an address form emits exactly three bytes, and succeeds exactly when the mnemonic is in the table and the operand is a known label or a number `int()` reads; the first byte is the mnemonic's opcode and the other two, low byte first, give the label's address when the operand is a label and otherwise the number, mod 65536; a missing mnemonic raises a key error naming it, an unreadable operand a bad number naming it |
| Assembler.EmitLineOpcode | Src/Core/Assembler.py:168-233 | every line pass two emits starts with a byte taken from the opcode table |
| Assembler.EstimateMatches | Src/Core/Assembler.py:150-233 | for a line pass two recognises, the estimate of pass one is the number of bytes pass two emits |
| Assembler.EmitLinesSized | Src/Core/Assembler.py:150-233 | when every line is sized right, pass two succeeds and emits exactly the estimated total |
| Assembler.EmitLinesPrefix | Src/Core/Assembler.py:162-233 | the code for the first j lines is a prefix of the code for all of them |
| Assembler.ListingLabelsMarkInstructions | Src/Core/Assembler.py:143-233 | when every line is sized right, the code is as long as pass one counted, and each label's address, less the origin, is where an instruction's bytes start |
| Assembler.LabelsMarkInstructions | Src/Core/Assembler.py:122-236 | the same for a whole source text through both passes |
| Assembler.NumberReadsDecimal | Src/Core/Assembler.py:196-197 | an operand without `#` reads as decimal: any integer written in decimal reads back |
| Assembler.DecimalIsNotHex | Src/Core/Assembler.py:194 | a decimal numeral never starts with `#` |
| Assembler.NumberReadsHex | Src/Core/Assembler.py:194-195 | an operand with `#` reads the rest as hexadecimal: `#` and any integer written in hex reads back |
| Assembler.AddressOperand | Src/Core/Assembler.py:215-226 | a jump, call or memory-address line whose operand is a known label emits the opcode and the label's address, low byte first, without parsing the operand |
| AsmTables.Src1IsSubTable | Src1/Core/Assembler.py:9-68 | every key of the smaller table is in the larger table with the same opcode, and the CPU has a handler for that opcode |
| AsmTables.UnwiredEntries | Src/Core/Assembler.py:9-120 | the larger table assembles SUI, SBB B, XRA A, CMP C and STC to opcodes the CPU has no handler for |
| Programs.OneSourceLine | Src/Core/Assembler.py:126 | a one-line program without surrounding whitespace is its only source line |
| Programs.LabelSplit | Src/Core/Assembler.py:143-146 | `name:body` splits into the label before the first colon and the body after it |
| Programs.ScanLabelledLine | Src/Core/Assembler.py:133-157 | pass one on `name:body` binds the name to the origin and keeps the body, sized by its estimate |
| Programs.JumpLine | Src/Core/Assembler.py:215-226 | `JMP name` with a known label emits the opcode and the label's address |
| Programs.NumericAddressLine | Src/Core/Assembler.py:215-226 | a jump, CALL, LDA, STA, LHLD or SHLD whose operand is no label emits the opcode and the number `int()` reads, low byte first, or raises a bad number naming the operand |
| Programs.HexIsWord | Src/Core/Assembler.py:219-220 | `#` and an integer in hexadecimal form one field |
| Programs.HexAddressLine | Src/Core/Assembler.py:215-226 | `m #h` for any integer n written in hexadecimal as h emits the opcode and n, low byte first, unless a label is named `#h` |
| Programs.DecimalAddressLine | Src/Core/Assembler.py:215-226 | `m n` for any integer n written in decimal emits the opcode and n, low byte first, unless a label is named like the numeral |
| Programs.LdaKey | Src/Core/Assembler.py:36 | LDA is one word, an address mnemonic and not an immediate, with opcode 0x3A in the larger table |
| Programs.LdaHexLine | Src/Core/Assembler.py:215-226 | `LDA #2050` assembles to 3A 50 20 |
| Programs.SelfJump | Src/Core/Assembler.py:122-236 | `name:JMP name`, alone in a program, assembles to a jump whose operand is the origin |
| Programs.SelfJumpScan | Src/Core/Assembler.py:126-157 | pass one on the program `name:body` binds the name to the origin and keeps only the body |
| Programs.EmitOneLine | Src/Core/Assembler.py:162-233 | pass two over one line is that line's code |
| Programs.LoopAssembles | Src/Core/Assembler.py:122-236 | the one-line endless loop assembles to JMP (0xC3) and the origin, low byte first |
| Programs.LoadedThree | src/core/memory.py:41-44 | three bytes load at 0x8000 onto a fresh CPU |
| Programs.JumpFromLoadAddress | Src/Core/CPU.py:697-699 | a JMP at 0x8000 sends PC to the address in the two bytes after it |
| Programs.LoadedJump | Src/Interface/SimulatorGUI.py:272-275 | a loaded JMP runs first and sends PC to its operand mod 0x10000 |
| Programs.LoopLeavesProgram | Src/Core/Assembler.py:130 | as written, the loop assembles to a jump to 0x0000; loaded at 0x8000, its first step leaves the program |
| Programs.LoadAddressBytes | src/core/memory.py:41 | the load address 0x8000 as a JMP operand is the bytes 0x00 0x80 |
| Programs.LoopStaysInPlace | Src/Core/Assembler.py:130 | with labels counted from the load address, the loop jumps back to its own JMP at 0x8000 |
| Programs.TwoFields | Src/Core/Assembler.py:165-175 | a mnemonic and an operand separated by a space are the line's two fields |
| Programs.ThreeFieldsDropped | Src/Core/Assembler.py:165-173 | a line of three fields, such as `MVI A, #05`, emits nothing, whatever its estimate |
| Programs.Src1DropsSui | Src1/Core/Assembler.py:98-105 | the smaller variant sizes `SUI n` at one byte and emits nothing for it |
| Programs.Src1HasNoSui | Src1/Core/Assembler.py:9-68 | no key of the smaller table starts with SUI |
| Programs.RegisterOperand | Src/Core/Assembler.py:180-181 | `reg,value` splits at its comma into the register and the value, which strip to themselves |
| Programs.OperandLine | Src/Core/Assembler.py:173-175 | a two-field line is handled by the operand cases of pass two |
| Programs.MviLine | Src/Core/Assembler.py:179-190 | `MVI r,v` with a known register and readable value emits the opcode of `MVI r` and then the value |
| Programs.LxiLine | Src/Core/Assembler.py:201-213 | `LXI rp,v` emits the opcode of `LXI rp` and then the value, low byte first |
| Programs.WithRegister | Src/Core/Assembler.py:179-213 | the register forms emit the entry's opcode and the value, as one byte or as two bytes low first |
| Programs.RegisterLine | Src/Core/Assembler.py:228-233 | any other mnemonic and operand emit the opcode of `mnemonic operand`, or nothing when the table lacks that key |
| Programs.Src1MovTargets | Src1/Core/Assembler.py:11-16 | the smaller table has MOV only into A, B and C |
| Programs.Src1MovOnlyToABC | Src1/Core/Assembler.py:176-181 | in the smaller variant, a MOV into any register after C, such as `MOV D,A`, emits nothing |
| Programs.Src1HasNoPairCounting | Src1/Core/Assembler.py:9-68 | the smaller table has no INX or DCX key |
| Programs.Src1DropsPairCounting | Src1/Core/Assembler.py:176-181 | in the smaller variant `INX rp` and `DCX rp` emit nothing |
| Programs.BareLine | Src/Core/Assembler.py:165-172 | a line of one word emits that word's opcode, or nothing when the table lacks it, even for a mnemonic such as JMP that pass one sizes at three bytes |
| Programs.HltKey | Src/Core/Assembler.py:81 | HLT is one word, with opcode 0x76 in the larger table |
| Programs.HltLine | Src/Core/Assembler.py:165-172 | the line `HLT` assembles to the single byte 0x76 |
| Programs.ImmediateLine | Src/Core/Assembler.py:192-198 | `ADI n`, `CPI n` or `SUI n` emits the table's opcode and the number as read, unmasked; a mnemonic missing from the table or an unreadable number raises |
| Programs.AdiKey | Src/Core/Assembler.py:41 | ADI is one word, with opcode 0xC6 in the larger table |
| Programs.DecimalIsWord | Src/Core/Assembler.py:194-197 | an integer written in decimal is a single field, so it stays the operand of its line |
| Programs.AdiUnmasked | Src/Core/Assembler.py:192-198 | `ADI n` with n outside 0..255 assembles to 0xC6 followed by n itself, and the program cannot be loaded, because memory refuses the value |

## Left out

- Logging is left out. None of the `logger` calls in the core changes state.
- The graphical interface, its threads and file dialogs, and the text-generation utilities are left out. None of them holds emulation logic. `CPU.Run` stands in for the GUI's run loop. `Programs.Loaded` is the first assembly after start-up: blank memory, the power-on CPU state, then `load_program` at 0x8000. The GUI's assemble action (Src/Interface/SimulatorGUI.py:267-275) loads into the memory it already has and resets nothing. Its reset button (Src/Interface/SimulatorGUI.py:339-343) only builds a new CPU on the same memory, so the earlier program and anything it wrote stay in place. Loading into arbitrary memory is `Memory.LoadProgram` with any starting memory.
- Memory breakpoints are left out: they are never used.
- The CPU imports `Src.Core.Memory`, which is not part of this model. `src/core/memory.py` stands in for it.
- Python's `int()` is modelled for an optional sign, an optional `0x` prefix in base 16, and surrounding whitespace. Underscores between digits and non-ASCII digits are left out.
- ALU.Xor: modelled and proved, but no CPU handler calls it. The dispatch table has no XRA entry, so the CPU does not use XOR.
- CPU.Run: a fuel bound replaces the unbounded `while` loop. A program that never halts only ever gives `OutOfFuel`.
- CPU.Execute: its ensures only says which instructions can fail and that the halted bit changes only on HLT. The effect of each kind of instruction is stated by lemmas in `CpuLemmas`: `HltAndNop`, `MovCopies`, `MviLoadsOperand`, `LxiLoadsWord`, `LdaLoads`, `StaStores`, `LhldLoadsHL`/`LhldLittleEndian`, `ShldStoresHL`/`ShldLittleEndian`, `AddAccumulates`, `AdiAddsOperand`/`AdiSums`, `AdcAddsCarry`, `SubSubtracts`, `AnaAnds`, `OraOrs`, `InrFlags`, `DcrFlags`, `InxWraps`, `DcxWraps`, `JumpTakesTargetIffCondition`, `CallThenRet`, `PushPopCopiesPair`, `PushPopPsw`, `CmpComparesWithA` and `CpiComparesWithA`.
- CPU.Iterate: its ensures says nothing about machines that run out of fuel or fail. `CpuLemmas.IterateComposes` relates different fuel amounts.
- Assembler.Estimate: its ensures only bounds the estimate. `Assembler.EstimateMatches` ties it to what pass two emits.
- Assembler.EstimateMatches: it holds for lines pass two emits something for, and for which pass two takes the same branch as pass one. A line that emits nothing is left out, such as `SUI n` in the smaller variant or an unknown register. A bare immediate or three-byte mnemonic with no operand is left out too: pass one counts such a line at 2 or 3 bytes, but pass two emits only its one-byte opcode, if any.
- Assembler.Number: its ensures only names the failure. `Assembler.NumberReadsDecimal` and `Assembler.NumberReadsHex` state what it reads.
- Assembler.EmitLine: its ensures bounds the output and says when the line can fail. The exact bytes for each kind of line are stated by `Programs.BareLine` (one field), `Programs.ImmediateLine` (ADI, CPI, SUI), `Programs.MviLine`, `Programs.LxiLine`, `Programs.JumpLine` (jumps, CALL and the direct-address loads and stores with a label), `Programs.NumericAddressLine`, `Programs.HexAddressLine` and `Programs.DecimalAddressLine` (the same with a number), `Programs.RegisterLine` (every other mnemonic with an operand) and `Programs.ThreeFieldsDropped` (three or more fields); `Programs.HltLine`, `Programs.LdaHexLine` and `Programs.AdiUnmasked` apply them to concrete lines.
- AsmTables.UnwiredEntries: it names five entries of the larger table that have no CPU handler. That table has more such entries, and they are not listed one by one.
- The opcode tables are modelled as lookup functions, so nothing is said about dictionary ordering. Python dictionaries have one value per key, and so do these functions.

## Findings

| source | as written | input that shows it | evidently intended | confidence | as-written member | corrected member |
|---|---|---|---|---|---|---|
| Src/Core/Assembler.py:130 | pass one counts label addresses from 0, but the program is loaded at 0x8000 and PC starts there (src/core/memory.py:41, Src/Core/CPU.py:23) | the program `LOOP:JMP LOOP` assembles to C3 00 00; loaded at 0x8000, its first step jumps to 0x0000 instead of back to 0x8000 | labels count from the load address 0x8000, so `LOOP:JMP LOOP` assembles to C3 00 80 and loops in place | not executed | Programs.LoopLeavesProgram | Programs.LoopStaysInPlace |

=== FILE: alu.dfy ===
/** The 8085 arithmetic logic unit: pure 8-bit add, subtract, and, or and
    exclusive-or, each returning a result byte and the five status flags. */
module ALU {
  import opened Bits
  import opened Wrappers

  /** Sign, Zero, Auxiliary carry, Parity and Carry. */
  datatype Flags = Flags(s: bool, z: bool, ac: bool, p: bool, cy: bool)

  /** What every ALU operation returns: the result byte and the flags. */
  datatype AluOut = AluOut(value: byte, flags: Flags)

  /** `add` refuses an operand outside [0, 255] (a ValueError). */
  datatype AluError = InvalidOperands(a: int, b: int)

  /** A carry or borrow flag used as the extra addend or subtrahend. */
  function CarryIn(c: bool): (r: int)
    ensures 0 <= r <= 1 && (r == 1 <==> c)
  {
    if c then 1 else 0
  }

  /** Z, S and P describe the (masked) result byte: zero, bit 7, even
      number of one bits. */
  predicate DescribesResult(o: AluOut)
  {
    && (o.flags.z <==> o.value == 0)
    && (o.flags.s <==> o.value >= 0x80)
    && (o.flags.p <==> EvenParity(o.value))
  }

  /** `ALU.add`: checks both operands, adds with the carry-in and masks to
      eight bits; C comes from the unmasked sum, AC from the low nibbles. */
  function Add(a: int, b: int, carry: bool): (r: Result<AluOut, AluError>)
    ensures r.Ok? <==> IsByte(a) && IsByte(b)
    ensures r.Err? ==> r.error == InvalidOperands(a, b)
    ensures r.Ok? ==> r.value.value == (a + b + CarryIn(carry)) % 0x100
    ensures r.Ok? ==> (r.value.flags.cy <==> a + b + CarryIn(carry) > 0xFF)
    ensures r.Ok? ==> (r.value.flags.ac <==> a % 0x10 + b % 0x10 + CarryIn(carry) > 0xF)
    ensures r.Ok? ==> DescribesResult(r.value)
  {
    if !(0 <= a <= 0xFF && 0 <= b <= 0xFF) then
      Err(InvalidOperands(a, b))
    else
      var raw := a + b + CarryIn(carry);
      Bit7OfLowByte(raw);
      Ok(AluOut(raw % 0x100, Flags(
        s := Bit7(raw),
        z := raw % 0x100 == 0,
        ac := a % 0x10 + b % 0x10 + CarryIn(carry) > 0xF,
        p := EvenParity(raw % 0x100),
        cy := raw > 0xFF)))
  }

  /** `ALU.sub`: no operand check at all; the difference is masked the way
      Python's `& 0xFF` masks a negative integer, C is the borrow out of
      bit 7 and AC the borrow out of bit 3. */
  function Sub(a: int, b: int, borrow: bool): (r: AluOut)
    ensures r.value == (a - b - CarryIn(borrow)) % 0x100
    ensures r.flags.cy <==> a - b - CarryIn(borrow) < 0
    ensures r.flags.ac <==> a % 0x10 < b % 0x10 + CarryIn(borrow)
    ensures DescribesResult(r)
  {
    var raw := a - b - CarryIn(borrow);
    Bit7OfLowByte(raw);
    AluOut(raw % 0x100, Flags(
      s := Bit7(raw),
      z := raw % 0x100 == 0,
      ac := a % 0x10 < b % 0x10 + CarryIn(borrow),
      p := EvenParity(raw % 0x100),
      cy := raw < 0))
  }

  /** Flags of a logical operation's result; `ac` is the operation's own
      fixed auxiliary-carry value and C is always cleared. */
  function LogicFlags(result: byte, ac: bool): (f: Flags)
    ensures !f.cy && f.ac == ac
    ensures DescribesResult(AluOut(result, f))
  {
    Bit7OfLowByte(result);
    Flags(s := Bit7(result), z := result == 0, ac := ac, p := EvenParity(result), cy := false)
  }

  /** `ALU.logical_and`: AC is always set (the 8085 quirk), C cleared. */
  function And(a: byte, b: byte): (r: AluOut)
    ensures r.flags.ac && !r.flags.cy
    ensures DescribesResult(r)
  {
    BitwiseStaysInWidth(a, b, 8);
    AluOut(BitAnd(a, b), LogicFlags(BitAnd(a, b), true))
  }

  /** `ALU.logical_or`: AC and C cleared. */
  function Or(a: byte, b: byte): (r: AluOut)
    ensures !r.flags.ac && !r.flags.cy
    ensures DescribesResult(r)
  {
    BitwiseStaysInWidth(a, b, 8);
    AluOut(BitOr(a, b), LogicFlags(BitOr(a, b), false))
  }

  /** `ALU.logical_xor`: AC and C cleared. */
  function Xor(a: byte, b: byte): (r: AluOut)
    ensures !r.flags.ac && !r.flags.cy
    ensures DescribesResult(r)
  {
    BitwiseStaysInWidth(a, b, 8);
    AluOut(BitXor(a, b), LogicFlags(BitXor(a, b), false))
  }

  /** The results of the logical operations are the bitwise combinations of
      their operands, bit by bit. */
  lemma LogicalOpsAreBitwise(a: byte, b: byte, i: nat)
    ensures Bit(And(a, b).value, i) <==> Bit(a, i) && Bit(b, i)
    ensures Bit(Or(a, b).value, i) <==> Bit(a, i) || Bit(b, i)
    ensures Bit(Xor(a, b).value, i) <==> Bit(a, i) != Bit(b, i)
  {
    BitAndIsBitwise(a, b, i);
    BitOrIsBitwise(a, b, i);
    BitXorIsBitwise(a, b, i);
  }

  /** A ripple-carry adder of `n` full adders, the hardware reference for
      `Add`: the `n`-bit sum and the carry out of the top stage. */
  function Ripple(a: nat, b: nat, c: bool, n: nat): (nat, bool)
  {
    if n == 0 then (0, c)
    else
      var s := a % 2 + b % 2 + CarryIn(c);
      var upper := Ripple(a / 2, b / 2, s >= 2, n - 1);
      (2 * upper.0 + s % 2, upper.1)
  }

  /** The ripple-carry adder adds: for `n`-bit operands its sum and carry
      out together are the exact sum of the operands and the carry in. */
  lemma {:induction false} RippleAdds(a: nat, b: nat, c: bool, n: nat)
    requires a < Pow2(n) && b < Pow2(n)
    ensures Ripple(a, b, c, n).0 < Pow2(n)
    ensures Ripple(a, b, c, n).0 + (if Ripple(a, b, c, n).1 then Pow2(n) else 0)
         == a + b + CarryIn(c)
  {
    if n > 0 {
      var s := a % 2 + b % 2 + CarryIn(c);
      var p := Pow2(n - 1);
      assert Pow2(n) == 2 * p;
      assert a / 2 < p && b / 2 < p;
      RippleAdds(a / 2, b / 2, s >= 2, n - 1);
      var upper := Ripple(a / 2, b / 2, s >= 2, n - 1);
      var hi, co := upper.0, upper.1;
      assert Ripple(a, b, c, n) == (2 * hi + s % 2, co);
      assert hi < p;
      var extra := if co then p else 0;
      assert hi + extra == a / 2 + b / 2 + s / 2;
      assert (if co then Pow2(n) else 0) == 2 * extra;
      assert a == 2 * (a / 2) + a % 2 && b == 2 * (b / 2) + b % 2;
      assert s == 2 * (s / 2) + s % 2;
      assert 2 * hi + s % 2 + 2 * extra == a + b + CarryIn(c);
    }
  }

  lemma RippleByte(a: byte, b: byte, c: bool)
    ensures Ripple(a, b, c, 8).0 == (a + b + CarryIn(c)) % 0x100
    ensures Ripple(a, b, c, 8).1 <==> a + b + CarryIn(c) > 0xFF
  {
    assert Pow2(8) == 0x100;
    RippleAdds(a, b, c, 8);
  }

  lemma RippleNibble(a: byte, b: byte, c: bool)
    ensures Ripple(a % 0x10, b % 0x10, c, 4).1 <==> a % 0x10 + b % 0x10 + CarryIn(c) > 0xF
  {
    assert Pow2(4) == 0x10;
    RippleAdds(a % 0x10, b % 0x10, c, 4);
  }

  /** `Add` on bytes computes what chained full adders compute: the result
      is the sum of an eight-stage adder, C its carry out of bit 7, and AC
      the carry out of a four-stage adder over the low nibbles. */
  lemma AddIsRippleCarry(a: byte, b: byte, c: bool)
    ensures Add(a, b, c).Ok?
    ensures Add(a, b, c).value.value == Ripple(a, b, c, 8).0
    ensures Add(a, b, c).value.flags.cy == Ripple(a, b, c, 8).1
    ensures Add(a, b, c).value.flags.ac == Ripple(a % 0x10, b % 0x10, c, 4).1
  {
    RippleByte(a, b, c);
    RippleNibble(a, b, c);
  }

  lemma ComplementSameValue(a: byte, b: byte, borrow: bool)
    ensures Sub(a, b, borrow).value == Add(a, 0xFF - b, !borrow).value.value
  {
    var x := a - b - CarryIn(borrow);
    assert a + (0xFF - b) + CarryIn(!borrow) == x + 0x100;
    assert (x + 0x100) % 0x100 == x % 0x100;
  }

  lemma ComplementInvertsCarries(a: byte, b: byte, borrow: bool)
    ensures Sub(a, b, borrow).flags.cy == !Add(a, 0xFF - b, !borrow).value.flags.cy
    ensures Sub(a, b, borrow).flags.ac == !Add(a, 0xFF - b, !borrow).value.flags.ac
  {
    assert (0xFF - b) % 0x10 == 0xF - b % 0x10;
  }

  /** Subtraction is addition of the one's complement with the inverted
      borrow: same result byte and Z, S, P, with C and AC inverted. */
  lemma SubIsComplementAdd(a: byte, b: byte, borrow: bool)
    ensures Add(a, 0xFF - b, !borrow).Ok?
    ensures var o := Add(a, 0xFF - b, !borrow).value;
      Sub(a, b, borrow) == AluOut(o.value, o.flags.(cy := !o.flags.cy, ac := !o.flags.ac))
  {
    ComplementSameValue(a, b, borrow);
    ComplementInvertsCarries(a, b, borrow);
  }
}

=== FILE: alu_lemmas.dfy ===
/** Facts about the ALU that the processor's instructions rely on: a
    subtraction without borrow is a comparison, and adding or subtracting 1
    is an increment or decrement with a predictable auxiliary carry. */
module AluLemmas {
  import opened Bits
  import ALU

  /** The flags of a comparison of `a` with `x`: Z says they are equal, C
      that `a` is below `x`, and S, P describe the difference modulo 256. */
  predicate ComparedFlags(f: ALU.Flags, a: byte, x: byte)
  {
    && (f.z <==> a == x)
    && (f.cy <==> a < x)
    && (f.ac <==> a % 0x10 < x % 0x10)
    && (f.s <==> (a - x) % 0x100 >= 0x80)
    && (f.p <==> EvenParity((a - x) % 0x100))
  }

  /** Subtracting `x` from `a` without borrow is a comparison. */
  lemma SubCompares(a: byte, x: byte)
    ensures ComparedFlags(ALU.Sub(a, x, false).flags, a, x)
  {
    assert ALU.CarryIn(false) == 0;
    ByteDifferenceZero(a, x);
  }

  /** Two bytes differ by a multiple of 256 only when they are equal. */
  lemma ByteDifferenceZero(a: byte, x: byte)
    ensures (a - x) % 0x100 == 0 <==> a == x
  {
    if a >= x {
      assert (a - x) % 0x100 == a - x;
    } else {
      assert (a - x) % 0x100 == a - x + 0x100;
    }
  }

  /** Adding 1 increments modulo 256, and AC is set exactly when the low
      nibble was 0xF. */
  lemma IncrementFlags(v: byte)
    ensures ALU.Add(v, 1, false).Ok?
    ensures ALU.Add(v, 1, false).value.value == (v + 1) % 0x100
    ensures ALU.Add(v, 1, false).value.flags.ac <==> v % 0x10 == 0xF
  {
    IncrementValue(v);
    IncrementHalfCarry(v);
  }

  lemma IncrementValue(v: byte)
    ensures ALU.Add(v, 1, false).Ok? && ALU.Add(v, 1, false).value.value == (v + 1) % 0x100
  {
  }

  lemma IncrementHalfCarry(v: byte)
    ensures ALU.Add(v, 1, false).Ok? && (ALU.Add(v, 1, false).value.flags.ac <==> v % 0x10 == 0xF)
  {
    assert ALU.CarryIn(false) == 0 && 1 % 0x10 == 1;
  }

  /** Subtracting 1 decrements modulo 256, and AC is set exactly when the
      low nibble was 0. */
  lemma DecrementFlags(v: byte)
    ensures ALU.Sub(v, 1, false).value == (v - 1) % 0x100
    ensures ALU.Sub(v, 1, false).flags.ac <==> v % 0x10 == 0
  {
    DecrementValue(v);
    DecrementHalfCarry(v);
  }

  lemma DecrementValue(v: byte)
    ensures ALU.Sub(v, 1, false).value == (v - 1) % 0x100
  {
  }

  lemma DecrementHalfCarry(v: byte)
    ensures ALU.Sub(v, 1, false).flags.ac <==> v % 0x10 == 0
  {
    assert ALU.CarryIn(false) == 0 && 1 % 0x10 == 1;
  }
}

=== FILE: assembler.dfy ===
/** The two-pass assembler: pass one strips comments, binds labels to a
    running size estimate and keeps the instruction lines; pass two turns
    each kept line into bytes. Both variants of the assembler in the
    repository are this one model, given their opcode table and the list
    of mnemonics they treat as taking an immediate byte. */
module Assembler {
  import opened Wrappers
  import opened Text

  /** What `assemble` can raise: an IndexError when `MVI` or `LXI` has no
      comma, a KeyError when an immediate or address mnemonic is missing
      from the table, a ValueError when `int()` refuses a number. */
  datatype AsmError =
    | MissingValue(operand: string)
    | UnknownMnemonic(mnemonic: string)
    | BadNumber(text: string)

  /** One variant of the assembler: its opcode table, as the lookup the
      dictionary performs (`None` for a missing key), and its list of
      two-byte immediate mnemonics. */
  datatype Dialect = Dialect(opcodes: string -> Option<int>, immediates: seq<string>)

  /** The mnemonics whose operand is a 16-bit address or a label. */
  const ADDRESS_MNEMONICS: seq<string> :=
    ["JMP", "JZ", "JNZ", "JC", "JNC", "CALL", "LDA", "STA", "LHLD", "SHLD"]

  /** The mnemonics pass one sizes at three bytes. */
  const THREE_BYTE: seq<string> :=
    ["LXI", "LDA", "STA", "LHLD", "SHLD", "JMP", "JZ", "JNZ", "JC", "JNC", "CALL"]

  /** A line pass one keeps: non-empty, and (being stripped) not starting
      with whitespace. */
  predicate Kept(line: string)
  {
    line != [] && !IsSpace(line[0])
  }

  lemma KeptHasFields(line: string)
    requires Kept(line)
    ensures |Fields(line)| >= 1 && Fields(line)[0] == Word(line)
  {
  }

  /** The first whitespace-separated field of a kept line. */
  function Mnemonic(line: string): (m: string)
    requires Kept(line)
    ensures IsWord(m) && |m| <= |line| && m == line[..|m|]
  {
    KeptHasFields(line);
    Fields(line)[0]
  }

  /** Pass one's size guess, from the mnemonic alone. */
  function Estimate(d: Dialect, line: string): (n: int)
    requires Kept(line)
    ensures 1 <= n <= 3
  {
    var m := Mnemonic(line);
    if m in d.immediates then 2 else if m in THREE_BYTE then 3 else 1
  }

  predicate AllKept(lines: seq<string>)
  {
    forall i :: 0 <= i < |lines| ==> Kept(lines[i])
  }

  /** Sum of the estimates of the kept lines. */
  function Size(d: Dialect, lines: seq<string>): int
    requires AllKept(lines)
  {
    if lines == [] then 0
    else Size(d, lines[..|lines| - 1]) + Estimate(d, lines[|lines| - 1])
  }

  /** Pass one's state: the labels seen so far, the running address and
      the kept lines. */
  datatype Listing = Listing(labels: map<string, int>, address: int, lines: seq<string>)

  /** Pass one's invariant: the lines are kept lines, the address is the
      origin plus their estimated size, and every label holds the origin
      plus the estimated size of the lines kept before it. */
  predicate Consistent(d: Dialect, p: Listing, origin: int)
  {
    && AllKept(p.lines)
    && p.address == origin + Size(d, p.lines)
    && (forall l :: l in p.labels ==>
          exists j :: 0 <= j <= |p.lines| && p.labels[l] == origin + Size(d, p.lines[..j]))
  }

  /** The text of a line that pass one looks at: before the first `;`,
      stripped. */
  function Uncomment(raw: string): (line: string)
    ensures line == [] || Kept(line)
    ensures ';' !in line
  {
    Strip(Before(raw, ';'))
  }

  /** Pass one on one source line. A `:` makes the stripped text before it
      a label bound to the current address (a later binding of the same
      name wins); the rest of the line, if any, is kept and advances the
      address by its estimate. */
  function ScanLine(d: Dialect, p: Listing, raw: string): Listing
  {
    var line := Uncomment(raw);
    if line == [] then p
    else
      var bound := if ':' in line then Bind(p, Strip(Before(line, ':'))) else p;
      var body := if ':' in line then Strip(After(line, ':')) else line;
      if body == [] then bound else Keep(d, bound, body)
  }

  /** Everything from the first `;` on is a comment: a line scans exactly
      like its text before the `;`. */
  lemma CommentIgnored(d: Dialect, p: Listing, code: string, comment: string)
    requires ';' !in code
    ensures ScanLine(d, p, code + ";" + comment) == ScanLine(d, p, code)
  {
    var raw := code + ";" + comment;
    var r := Before(raw, ';');
    assert raw[|code|] == ';';
    assert r == code;
  }

  /** A blank line, or one of nothing but whitespace, changes nothing. */
  lemma BlankLineSkipped(d: Dialect, p: Listing, raw: string)
    requires forall k :: 0 <= k < |raw| ==> IsSpace(raw[k])
    ensures ScanLine(d, p, raw) == p
  {
    assert !IsSpace(';');
    assert Before(raw, ';') == raw;
    StripBlank(raw);
  }

  /** `labels[label] = address`. */
  function Bind(p: Listing, name: string): (q: Listing)
    ensures q.lines == p.lines && q.address == p.address
    ensures name in q.labels && q.labels[name] == p.address
    ensures forall l :: l in p.labels && l != name ==> l in q.labels && q.labels[l] == p.labels[l]
  {
    p.(labels := p.labels[name := p.address])
  }

  /** `processed_lines.append(line)` and the address moves on by the
      line's estimate. */
  function Keep(d: Dialect, p: Listing, body: string): (q: Listing)
    requires Kept(body)
    ensures q.labels == p.labels && q.lines == p.lines + [body]
    ensures q.address == p.address + Estimate(d, body)
  {
    Listing(p.labels, p.address + Estimate(d, body), p.lines + [body])
  }

  lemma SizePrefix(d: Dialect, lines: seq<string>, line: string, j: nat)
    requires AllKept(lines) && Kept(line) && j <= |lines|
    ensures AllKept(lines + [line])
    ensures (lines + [line])[..j] == lines[..j]
    ensures Size(d, lines + [line]) == Size(d, lines) + Estimate(d, line)
  {
    assert (lines + [line])[..|lines|] == lines;
  }

  /** Binding a label keeps pass one's invariant: the new label marks the
      end of the lines kept so far. */
  lemma BindConsistent(d: Dialect, p: Listing, name: string, origin: int)
    requires Consistent(d, p, origin)
    ensures Consistent(d, Bind(p, name), origin)
  {
    var q := Bind(p, name);
    assert p.lines[..|p.lines|] == p.lines;
    forall l | l in q.labels
      ensures exists j :: 0 <= j <= |q.lines| && q.labels[l] == origin + Size(d, q.lines[..j])
    {
      if l == name {
        assert q.labels[l] == origin + Size(d, q.lines[..|q.lines|]);
      } else {
        assert l in p.labels;
      }
    }
  }

  /** Keeping a line keeps pass one's invariant. */
  lemma KeepConsistent(d: Dialect, p: Listing, body: string, origin: int)
    requires Consistent(d, p, origin) && Kept(body)
    ensures Consistent(d, Keep(d, p, body), origin)
  {
    var q := Keep(d, p, body);
    SizePrefix(d, p.lines, body, 0);
    forall l | l in q.labels
      ensures exists j :: 0 <= j <= |q.lines| && q.labels[l] == origin + Size(d, q.lines[..j])
    {
      var j :| 0 <= j <= |p.lines| && p.labels[l] == origin + Size(d, p.lines[..j]);
      SizePrefix(d, p.lines, body, j);
      assert q.labels[l] == origin + Size(d, q.lines[..j]);
    }
  }

  /** One line of pass one keeps the invariant and only ever appends. */
  lemma ScanLineConsistent(d: Dialect, p: Listing, raw: string, origin: int)
    requires Consistent(d, p, origin)
    ensures Consistent(d, ScanLine(d, p, raw), origin)
    ensures p.lines <= ScanLine(d, p, raw).lines
  {
    var line := Uncomment(raw);
    if line != [] {
      var bound := if ':' in line then Bind(p, Strip(Before(line, ':'))) else p;
      if ':' in line {
        BindConsistent(d, p, Strip(Before(line, ':')), origin);
      }
      var body := if ':' in line then Strip(After(line, ':')) else line;
      if body != [] {
        KeepConsistent(d, bound, body, origin);
      }
    }
  }

  /** Pass one over the source lines, starting at `origin` (the source
      starts at 0). */
  function Scan(d: Dialect, raws: seq<string>, origin: int): (p: Listing)
    ensures Consistent(d, p, origin)
  {
    if raws == [] then
      Listing(map[], origin, [])
    else
      var p := Scan(d, raws[..|raws| - 1], origin);
      ScanLineConsistent(d, p, raws[|raws| - 1], origin);
      ScanLine(d, p, raws[|raws| - 1])
  }

  /** A numeric operand: `#` and hexadecimal digits, otherwise decimal;
      `int()`'s ValueError becomes BadNumber. */
  function Number(text: string): (r: Result<int, AsmError>)
    ensures r.Err? ==> r.error == BadNumber(text)
  {
    var v := if |text| > 0 && text[0] == '#' then ParseInt(text[1..], 16) else ParseInt(text, 10);
    if v.Some? then Ok(v.value) else Err(BadNumber(text))
  }

  /** A 16-bit operand as the two bytes `value & 0xFF` and
      `(value >> 8) & 0xFF`, low byte first. */
  function LittleEndian(value: int): (b: seq<int>)
    ensures |b| == 2 && 0 <= b[0] < 0x100 && 0 <= b[1] < 0x100
    ensures b[0] + 0x100 * b[1] == value % 0x1_0000
  {
    [value % 0x100, (value / 0x100) % 0x100]
  }

  /** The table entry `MVI r` or `LXI rp`, named by the mnemonic and the
      register before the first comma of the operand. */
  function RegisterKey(mnemonic: string, operand: string): string
  {
    mnemonic + " " + Strip(Split(operand, ',')[0])
  }

  /** `MVI r,value` and `LXI rp,value`: the text before the first comma
      names the table entry, the text after it (up to a second comma) is
      the value. A missing comma raises before the table is consulted; an
      unknown register emits nothing. */
  function EmitWithRegister(d: Dialect, mnemonic: string, operand: string, wide: bool): (r: Result<seq<int>, AsmError>)
    ensures (r.Err? && r.error == MissingValue(operand)) <==> ',' !in operand
    ensures r.Ok? && r.value != [] ==> d.opcodes(RegisterKey(mnemonic, operand)) == Some(r.value[0])
    ensures ',' in operand && d.opcodes(RegisterKey(mnemonic, operand)).None? ==> r == Ok([])
    ensures ',' in operand && d.opcodes(RegisterKey(mnemonic, operand)).Some?
      ==> (r.Err? <==> Number(Strip(Split(operand, ',')[1])).Err?)
    ensures r.Err? && ',' in operand ==> r.error == BadNumber(Strip(Split(operand, ',')[1]))
  {
    var pieces := Split(operand, ',');
    if |pieces| < 2 then Err(MissingValue(operand))
    else
      var key := RegisterKey(mnemonic, operand);
      if d.opcodes(key).None? then Ok([])
      else match Number(Strip(pieces[1]))
        case Err(e) => Err(e)
        case Ok(v) => Ok([d.opcodes(key).value] + (if wide then LittleEndian(v) else [v]))
  }

  /** Pass two on one kept line. One field is a whole mnemonic; two fields
      are a mnemonic and an operand; any other shape emits nothing. */
  function EmitLine(d: Dialect, labels: map<string, int>, line: string): (r: Result<seq<int>, AsmError>)
    requires Kept(line)
    ensures r.Ok? ==> |r.value| <= 3
    ensures r.Err? ==> |Fields(line)| == 2
  {
    var parts := Fields(line);
    var mnemonic := Mnemonic(line);
    if |parts| == 1 then
      Ok(if d.opcodes(mnemonic).Some? then [d.opcodes(mnemonic).value] else [])
    else if |parts| != 2 then
      Ok([])
    else
      EmitOperand(d, labels, mnemonic, parts[1])
  }

  /** Pass two on a mnemonic with one operand: the immediates, LXI, the
      jumps and calls, and otherwise the entry `mnemonic operand`. */
  function EmitOperand(d: Dialect, labels: map<string, int>, mnemonic: string, operand: string): (r: Result<seq<int>, AsmError>)
    ensures r.Ok? ==> |r.value| <= 3
  {
    if mnemonic in d.immediates then
      EmitImmediate(d, mnemonic, operand)
    else if mnemonic == "LXI" then
      EmitWithRegister(d, mnemonic, operand, true)
    else if mnemonic in ADDRESS_MNEMONICS then
      EmitAddress(d, labels, mnemonic, operand)
    else
      var key := mnemonic + " " + operand;
      Ok(if d.opcodes(key).Some? then [d.opcodes(key).value] else [])
  }

  /** An immediate: MVI names its register, the others take the value
      alone. */
  function EmitImmediate(d: Dialect, mnemonic: string, operand: string): (r: Result<seq<int>, AsmError>)
    ensures r.Ok? ==> |r.value| <= 2
  {
    if mnemonic == "MVI" then EmitWithRegister(d, mnemonic, operand, false)
    else if d.opcodes(mnemonic).None? then Err(UnknownMnemonic(mnemonic))
    else match Number(operand)
      case Err(e) => Err(e)
      case Ok(v) => Ok([d.opcodes(mnemonic).value, v])
  }

  /** The address an address operand stands for: a known label's, or else
      the number `int()` reads from it. */
  function Target(labels: map<string, int>, operand: string): Result<int, AsmError>
  {
    if operand in labels then Ok(labels[operand]) else Number(operand)
  }

  /** A jump or call: a known label gives its address, anything else is
      read as a number. */
  function EmitAddress(d: Dialect, labels: map<string, int>, mnemonic: string, operand: string): (r: Result<seq<int>, AsmError>)
    ensures r.Ok? ==> |r.value| == 3
    ensures r.Ok? <==> d.opcodes(mnemonic).Some? && Target(labels, operand).Ok?
    ensures r.Ok? ==> Some(r.value[0]) == d.opcodes(mnemonic)
    ensures r.Ok? ==> r.value[1] + 0x100 * r.value[2] == Target(labels, operand).value % 0x1_0000
    ensures r.Err? ==> r.error == (if d.opcodes(mnemonic).None? then UnknownMnemonic(mnemonic) else BadNumber(operand))
  {
    if d.opcodes(mnemonic).None? then Err(UnknownMnemonic(mnemonic))
    else
      var target := Target(labels, operand);
      match target
      case Err(e) => Err(e)
      case Ok(a) => Ok([d.opcodes(mnemonic).value] + LittleEndian(a))
  }

  /** Every instruction pass two emits starts with an opcode taken from the
      table. */
  lemma EmitLineOpcode(d: Dialect, labels: map<string, int>, line: string)
    requires Kept(line)
    requires EmitLine(d, labels, line).Ok? && EmitLine(d, labels, line).value != []
    ensures exists k :: d.opcodes(k) == Some(EmitLine(d, labels, line).value[0])
  {
    var parts := Fields(line);
    var mnemonic := Mnemonic(line);
    var first := EmitLine(d, labels, line).value[0];
    if |parts| == 1 {
      assert d.opcodes(mnemonic) == Some(first);
    } else if mnemonic in d.immediates && mnemonic == "MVI" {
      assert d.opcodes(RegisterKey(mnemonic, parts[1])) == Some(first);
    } else if mnemonic in d.immediates {
      assert d.opcodes(mnemonic) == Some(first);
    } else if mnemonic == "LXI" {
      assert d.opcodes(RegisterKey(mnemonic, parts[1])) == Some(first);
    } else if mnemonic in ADDRESS_MNEMONICS {
      assert d.opcodes(mnemonic) == Some(first);
    } else {
      var key := mnemonic + " " + parts[1];
      assert d.opcodes(key) == Some(first);
    }
  }

  /** Pass two over the kept lines; the first line that raises decides the
      error. */
  function EmitLines(d: Dialect, labels: map<string, int>, lines: seq<string>): (r: Result<seq<int>, AsmError>)
    requires AllKept(lines)
  {
    if lines == [] then Ok([])
    else
      match EmitLines(d, labels, lines[..|lines| - 1])
      case Err(e) => Err(e)
      case Ok(code) =>
        match EmitLine(d, labels, lines[|lines| - 1])
        case Err(e) => Err(e)
        case Ok(bytes) => Ok(code + bytes)
  }

  /** `assembly_code.strip().split('\n')`. */
  function SourceLines(text: string): seq<string>
  {
    Split(Strip(text), '\n')
  }

  /** Both passes, with labels counted from `origin`. */
  function AssembleAt(d: Dialect, text: string, origin: int): Result<seq<int>, AsmError>
  {
    var p := Scan(d, SourceLines(text), origin);
    EmitLines(d, p.labels, p.lines)
  }

  /** `Assembler.assemble` as written: labels count from 0. */
  function Assemble(d: Dialect, text: string): Result<seq<int>, AsmError>
  {
    AssembleAt(d, text, 0)
  }

  /** Pass two emitted exactly the bytes pass one reserved for the line. */
  predicate Sized(d: Dialect, labels: map<string, int>, line: string)
    requires Kept(line)
  {
    EmitLine(d, labels, line).Ok? && |EmitLine(d, labels, line).value| == Estimate(d, line)
  }

  /** Pass one's estimate is right for every line that emits something,
      except a lone mnemonic that pass one sizes for an operand it does not
      have. */
  lemma EstimateMatches(d: Dialect, labels: map<string, int>, line: string)
    requires Kept(line)
    requires EmitLine(d, labels, line).Ok? && EmitLine(d, labels, line).value != []
    requires |Fields(line)| == 2 || (Mnemonic(line) !in d.immediates && Mnemonic(line) !in THREE_BYTE)
    ensures Sized(d, labels, line)
  {
  }

  /** When every line is sized, pass two succeeds and emits as many bytes
      as pass one counted. */
  lemma {:induction false} EmitLinesSized(d: Dialect, labels: map<string, int>, lines: seq<string>)
    requires AllKept(lines)
    requires forall i :: 0 <= i < |lines| ==> Sized(d, labels, lines[i])
    ensures EmitLines(d, labels, lines).Ok?
    ensures |EmitLines(d, labels, lines).value| == Size(d, lines)
    decreases |lines|
  {
    if lines != [] {
      EmitLinesSized(d, labels, lines[..|lines| - 1]);
    }
  }

  /** The code of a prefix of the lines is a prefix of the code. */
  lemma {:induction false} EmitLinesPrefix(d: Dialect, labels: map<string, int>, lines: seq<string>, j: nat)
    requires AllKept(lines) && j <= |lines|
    requires EmitLines(d, labels, lines).Ok?
    ensures EmitLines(d, labels, lines[..j]).Ok?
    ensures EmitLines(d, labels, lines[..j]).value <= EmitLines(d, labels, lines).value
    decreases |lines|
  {
    if j < |lines| {
      var init := lines[..|lines| - 1];
      EmitLinesPrefix(d, labels, init, j);
      assert init[..j] == lines[..j];
    } else {
      assert lines[..j] == lines;
    }
  }

  /** `addr` is `origin` plus the offset of an instruction boundary in
      `code`: the bytes before it are the code of the first `j` lines. */
  predicate MarksBoundary(d: Dialect, labels: map<string, int>, lines: seq<string>, code: seq<int>, origin: int, addr: int)
    requires AllKept(lines)
  {
    exists j :: 0 <= j <= |lines| && Prefix(d, labels, lines, j, code) && addr == origin + |EmitLines(d, labels, lines[..j]).value|
  }

  predicate Prefix(d: Dialect, labels: map<string, int>, lines: seq<string>, j: nat, code: seq<int>)
    requires AllKept(lines) && j <= |lines|
  {
    EmitLines(d, labels, lines[..j]).Ok? && EmitLines(d, labels, lines[..j]).value <= code
  }

  /** Pass two over a consistent listing whose every line is sized: the
      code is as long as pass one counted, and every label marks an
      instruction boundary. */
  lemma ListingLabelsMarkInstructions(d: Dialect, p: Listing, origin: int)
    requires Consistent(d, p, origin)
    requires forall i :: 0 <= i < |p.lines| ==> Sized(d, p.labels, p.lines[i])
    ensures EmitLines(d, p.labels, p.lines).Ok?
    ensures |EmitLines(d, p.labels, p.lines).value| == p.address - origin
    ensures forall l :: l in p.labels ==>
      MarksBoundary(d, p.labels, p.lines, EmitLines(d, p.labels, p.lines).value, origin, p.labels[l])
  {
    EmitLinesSized(d, p.labels, p.lines);
    var code := EmitLines(d, p.labels, p.lines).value;
    forall l | l in p.labels
      ensures MarksBoundary(d, p.labels, p.lines, code, origin, p.labels[l])
    {
      var j :| 0 <= j <= |p.lines| && p.labels[l] == origin + Size(d, p.lines[..j]);
      EmitLinesPrefix(d, p.labels, p.lines, j);
      EmitLinesSized(d, p.labels, p.lines[..j]);
      assert Prefix(d, p.labels, p.lines, j, code);
    }
  }

  /** When every kept line assembles to exactly the bytes pass one reserved
      for it, the program assembles to as many bytes as pass one counted,
      and every label is the origin plus the offset of an instruction
      boundary: the bytes before it are the code of the lines kept before
      the label. `p` is pass one's result. */
  lemma LabelsMarkInstructions(d: Dialect, text: string, origin: int, p: Listing)
    requires p == Scan(d, SourceLines(text), origin)
    requires AllKept(p.lines) && forall i :: 0 <= i < |p.lines| ==> Sized(d, p.labels, p.lines[i])
    ensures AssembleAt(d, text, origin).Ok?
    ensures |AssembleAt(d, text, origin).value| == p.address - origin
    ensures forall l :: l in p.labels ==>
      MarksBoundary(d, p.labels, p.lines, AssembleAt(d, text, origin).value, origin, p.labels[l])
  {
    ListingLabelsMarkInstructions(d, p, origin);
    assert AssembleAt(d, text, origin) == EmitLines(d, p.labels, p.lines);
  }

  /** A number printed in decimal reads back as itself. */
  lemma NumberReadsDecimal(n: int)
    ensures Number(ShowInt(n, 10)) == Ok(n)
  {
    ParseShow(n, 10);
    DecimalIsNotHex(n);
  }

  lemma DecimalIsNotHex(n: int)
    ensures |ShowInt(n, 10)| > 0 && ShowInt(n, 10)[0] != '#'
  {
    var s := ShowInt(n, 10);
    if n >= 0 {
      assert DigitValue(s[0]) >= 0;
    }
  }

  /** A number printed in hexadecimal after `#` reads back as itself. */
  lemma NumberReadsHex(n: int)
    ensures Number("#" + ShowInt(n, 16)) == Ok(n)
  {
    var s := "#" + ShowInt(n, 16);
    ParseShow(n, 16);
    assert s[0] == '#' && s[1..] == ShowInt(n, 16);
  }

  /** A jump, call or direct-address load or store whose operand is a
      label assembles to the opcode and the label's address, low byte
      first, which the processor reads back as that address modulo
      0x10000. */
  lemma AddressOperand(d: Dialect, labels: map<string, int>, line: string)
    requires Kept(line) && |Fields(line)| == 2
    requires Mnemonic(line) in ADDRESS_MNEMONICS && d.opcodes(Mnemonic(line)).Some?
    requires Mnemonic(line) !in d.immediates && Fields(line)[1] in labels
    ensures var b := EmitLine(d, labels, line);
      && b == Ok([d.opcodes(Mnemonic(line)).value] + LittleEndian(labels[Fields(line)[1]]))
      && b.value[1] + 0x100 * b.value[2] == labels[Fields(line)[1]] % 0x1_0000
  {
    assert Mnemonic(line) != "LXI";
  }
}

=== FILE: bits.dfy ===
/** Machine integers and the bit-level operations the emulator relies on,
    defined on unbounded integers the way Python's `&`, `|`, `^`, `>>` and
    `bin(x).count('1')` behave on them. */
module Bits {

  /** A value that fits an 8-bit register or memory cell. */
  type byte = x: int | 0 <= x < 0x100

  /** A value that fits a 16-bit address or register pair. */
  type u16 = x: int | 0 <= x < 0x1_0000

  predicate IsByte(x: int) { 0 <= x < 0x100 }

  function Pow2(n: nat): (r: nat)
    ensures r >= 1
  {
    if n == 0 then 1 else 2 * Pow2(n - 1)
  }

  /** Bit `i` of `x` in two's complement: Python's `(x >> i) & 1 == 1`.
      Dafny's `/` rounds towards minus infinity for a positive divisor,
      which is exactly an arithmetic right shift. */
  predicate Bit(x: int, i: nat)
    decreases i
  {
    if i == 0 then x % 2 == 1 else Bit(x / 2, i - 1)
  }

  /** Number of one bits of a non-negative integer: `bin(x).count('1')`. */
  function Popcount(x: nat): nat
  {
    if x == 0 then 0 else x % 2 + Popcount(x / 2)
  }

  /** The parity flag's condition: an even number of one bits. */
  predicate EvenParity(x: nat)
  {
    Popcount(x) % 2 == 0
  }

  /** Python's `a & b` on non-negative integers, one bit at a time. */
  function BitAnd(a: nat, b: nat): nat
  {
    if a == 0 || b == 0 then 0
    else 2 * BitAnd(a / 2, b / 2) + (if a % 2 == 1 && b % 2 == 1 then 1 else 0)
  }

  /** Python's `a | b` on non-negative integers. */
  function BitOr(a: nat, b: nat): nat
  {
    if a == 0 then b
    else if b == 0 then a
    else 2 * BitOr(a / 2, b / 2) + (if a % 2 == 1 || b % 2 == 1 then 1 else 0)
  }

  /** Python's `a ^ b` on non-negative integers. */
  function BitXor(a: nat, b: nat): nat
  {
    if a == 0 then b
    else if b == 0 then a
    else 2 * BitXor(a / 2, b / 2) + (if a % 2 != b % 2 then 1 else 0)
  }

  lemma {:induction false} ZeroHasNoBits(i: nat)
    ensures !Bit(0, i)
  {
    if i > 0 {
      ZeroHasNoBits(i - 1);
    }
  }

  /** Each bit of `a & b` is the conjunction of the operands' bits. */
  lemma {:induction false} BitAndIsBitwise(a: nat, b: nat, i: nat)
    ensures Bit(BitAnd(a, b), i) <==> Bit(a, i) && Bit(b, i)
  {
    if a == 0 || b == 0 {
      ZeroHasNoBits(i);
    } else if i > 0 {
      BitAndIsBitwise(a / 2, b / 2, i - 1);
    }
  }

  /** Each bit of `a | b` is the disjunction of the operands' bits. */
  lemma {:induction false} BitOrIsBitwise(a: nat, b: nat, i: nat)
    ensures Bit(BitOr(a, b), i) <==> Bit(a, i) || Bit(b, i)
  {
    if a == 0 {
      ZeroHasNoBits(i);
    } else if b == 0 {
      ZeroHasNoBits(i);
    } else if i > 0 {
      BitOrIsBitwise(a / 2, b / 2, i - 1);
    }
  }

  /** Each bit of `a ^ b` is set iff exactly one operand has it set. */
  lemma {:induction false} BitXorIsBitwise(a: nat, b: nat, i: nat)
    ensures Bit(BitXor(a, b), i) <==> Bit(a, i) != Bit(b, i)
  {
    if a == 0 {
      ZeroHasNoBits(i);
    } else if b == 0 {
      ZeroHasNoBits(i);
    } else if i > 0 {
      BitXorIsBitwise(a / 2, b / 2, i - 1);
    }
  }

  /** Bitwise operations on `n`-bit operands stay within `n` bits. */
  lemma {:induction false} BitwiseStaysInWidth(a: nat, b: nat, n: nat)
    requires a < Pow2(n) && b < Pow2(n)
    ensures BitAnd(a, b) < Pow2(n)
    ensures BitOr(a, b) < Pow2(n)
    ensures BitXor(a, b) < Pow2(n)
  {
    if n > 0 && a != 0 && b != 0 {
      BitwiseStaysInWidth(a / 2, b / 2, n - 1);
    }
  }

  /** Python's `(x & 0x80) != 0`: bit 7 of `x` in two's complement, read
      in one step. */
  predicate Bit7(x: int)
  {
    (x / 0x80) % 2 == 1
  }

  /** Adding a multiple of `d` shifts the quotient by `d` and leaves the
      remainder alone. */
  lemma DivAddMultiple(m: int, r: int, d: int)
    requires d > 0
    ensures (m * d + r) / d == m + r / d
    ensures (m * d + r) % d == r % d
  {
    var n, q := m * d + r, m + r / d;
    assert n == q * d + r % d;
    var e := n / d - q;
    assert e * d == r % d - n % d;
  }

  /** Bit 7 of any integer is set iff its low byte is at least 0x80:
      Python's `(x & 0x80) != 0` depends only on `x & 0xFF`. */
  lemma Bit7OfLowByte(x: int)
    ensures Bit7(x) <==> x % 0x100 >= 0x80
  {
    assert x / 0x80 == 2 * (x / 0x100) + (x % 0x100) / 0x80;
  }

  /** The one-step test reads the same bit `Bit` reaches by seven
      halvings. */
  lemma Bit7IsBit(x: int)
    ensures Bit7(x) == Bit(x, 7)
  {
    var x1, x2, x3 := x / 2, x / 4, x / 8;
    var x4, x5, x6, x7 := x / 16, x / 32, x / 64, x / 128;
    assert x1 / 2 == x2 && x2 / 2 == x3 && x3 / 2 == x4;
    assert x4 / 2 == x5 && x5 / 2 == x6 && x6 / 2 == x7;
    assert Bit(x, 7) == Bit(x1, 6) == Bit(x2, 5) == Bit(x3, 4);
    assert Bit(x3, 4) == Bit(x4, 3) == Bit(x5, 2) == Bit(x6, 1) == Bit(x7, 0);
  }
}

=== FILE: cpu.dfy ===
/** The instruction cycle of `CPU.execute_instruction`: fetch the opcode at
    PC, look it up in the dispatch table and run its handler against the
    registers, the flags, the stack and memory. Python's handlers mutate the
    processor in place and may raise half-way; here a step returns the next
    machine, or the fault together with the machine exactly as the failure
    left it. */
module CPU {
  import opened Bits
  import opened Wrappers
  import opened Memory
  import opened State
  import opened Opcodes
  import ALU

  /** What `execute_instruction` or a handler raises. */
  datatype CpuError =
    | UnknownOpcode(op: byte, at: int)
    | MemoryError(cause: MemError)

  /** A raised error and the machine as the failing instruction left it. */
  datatype Fault = Fault(error: CpuError, machine: Machine)

  /** One call of `execute_instruction`: it returns False without touching
      anything on a halted processor, returns True after a handler ran, or
      raises. */
  datatype StepResult = Halted | Continue(next: Machine) | Raised(fault: Fault)

  /** The machine with PC moved on by `n` bytes, wrapping at 0x10000. */
  function Advance(s: Machine, n: nat): (t: Machine)
    ensures t.mem == s.mem && t.cpu == s.cpu.(pc := (s.cpu.pc + n) % 0x1_0000)
  {
    s.(cpu := s.cpu.(pc := (s.cpu.pc + n) % 0x1_0000))
  }

  /** `fetch_instruction` and `fetch_byte`: the byte at PC, then PC + 1.
      PC is always a 16-bit address, so the read cannot fail. */
  function FetchByte(s: Machine): (r: (byte, Machine))
    ensures Read(s.mem, s.cpu.pc) == Ok(r.0)
    ensures r.1 == Advance(s, 1)
  {
    (s.mem[s.cpu.pc], Advance(s, 1))
  }

  /** `fetch_word`: the little-endian word at PC, then PC + 2. At PC 0xFFFF
      the second read is out of range and nothing moves. */
  function FetchWord(s: Machine): (r: Result<(u16, Machine), Fault>)
    ensures r.Ok? <==> s.cpu.pc != 0xFFFF
    ensures r.Ok? ==> ReadWord(s.mem, s.cpu.pc) == Ok(r.value.0) && r.value.1 == Advance(s, 2)
    ensures r.Err? ==> r.error == Fault(MemoryError(InvalidAddress(0x1_0000)), s)
  {
    match ReadWord(s.mem, s.cpu.pc)
    case Err(e) => Err(Fault(MemoryError(e), s))
    case Ok(w) => Ok((w, Advance(s, 2)))
  }

  /** `push_stack`: SP drops by two before the word is written at the new
      SP, and SP is never masked, so a push below address 0 fails with SP
      already moved. */
  function PushStack(s: Machine, value: int): (r: Result<Machine, Fault>)
    ensures r.Ok? <==> 2 <= s.cpu.sp <= 0x1_0000
    ensures r.Ok? ==> r.value.cpu == s.cpu.(sp := s.cpu.sp - 2)
    ensures r.Ok? ==> ReadWord(r.value.mem, s.cpu.sp - 2) == Ok(value % 0x1_0000)
    ensures r.Ok? ==> forall b :: 0 <= b < SIZE && b != s.cpu.sp - 2 && b != s.cpu.sp - 1 ==>
      r.value.mem[b] == s.mem[b]
    ensures r.Err? ==> r.error.machine.cpu == s.cpu.(sp := s.cpu.sp - 2)
    ensures r.Err? ==> r.error.error.MemoryError?
  {
    var c := s.cpu.(sp := s.cpu.sp - 2);
    match WriteWord(s.mem, c.sp, value)
    case Err(f) => Err(Fault(MemoryError(f.error), Machine(c, f.mem)))
    case Ok(m) =>
      WordRoundTrip(s.mem, c.sp, value);
      Ok(Machine(c, m))
  }

  /** `pop_stack`: the word at SP, then SP + 2; the read happens first, so
      a failing pop leaves SP where it was. */
  function PopStack(s: Machine): (r: Result<(u16, Machine), Fault>)
    ensures r.Ok? <==> 0 <= s.cpu.sp <= 0xFFFE
    ensures r.Ok? ==> ReadWord(s.mem, s.cpu.sp) == Ok(r.value.0)
    ensures r.Ok? ==> r.value.1 == s.(cpu := s.cpu.(sp := s.cpu.sp + 2))
    ensures r.Err? ==> r.error.machine == s
  {
    match ReadWord(s.mem, s.cpu.sp)
    case Err(e) => Err(Fault(MemoryError(e), s))
    case Ok(w) => Ok((w, s.(cpu := s.cpu.(sp := s.cpu.sp + 2))))
  }

  /** The value of a register operand, or of the byte HL points at. */
  function Load(s: Machine, o: Operand): (v: byte)
    ensures o.R? ==> v == s.cpu.Get(o.r)
    ensures o.M? ==> Read(s.mem, s.cpu.GetPair(HL)) == Ok(v)
  {
    match o
    case R(r) => s.cpu.Get(r)
    case M => s.mem[s.cpu.GetPair(HL)]
  }

  /** Stores into a register operand, or into the byte HL points at (a
      write that cannot fail: HL is a 16-bit address and `v` a byte). */
  function Store(s: Machine, o: Operand, v: byte): (t: Machine)
    ensures o.R? ==> t.cpu == s.cpu.Set(o.r, v) && t.mem == s.mem
    ensures o.M? ==> t.cpu == s.cpu && Write(s.mem, s.cpu.GetPair(HL), v) == Ok(t.mem)
  {
    match o
    case R(r) => s.(cpu := s.cpu.Set(r, v))
    case M => s.(mem := s.mem[s.cpu.GetPair(HL) := v])
  }

  /** A register pair, or SP. */
  function GetWide(s: Machine, w: Wide): int
  {
    match w
    case W(p) => s.cpu.GetPair(p)
    case StackPointer => s.cpu.sp
  }

  /** `set_register_pair`, or a plain assignment to SP. */
  function SetWide(s: Machine, w: Wide, v: u16): (t: Machine)
    ensures GetWide(t, w) == v
    ensures t.mem == s.mem && t.cpu.pc == s.cpu.pc && t.cpu.flags == s.cpu.flags
    ensures t.cpu.halted == s.cpu.halted && t.cpu.interruptEnabled == s.cpu.interruptEnabled
  {
    match w
    case W(p) =>
      PairRoundTrip(s.cpu, p, v);
      s.(cpu := s.cpu.SetPair(p, v))
    case StackPointer => s.(cpu := s.cpu.(sp := v))
  }

  /** An arithmetic or logic result written back to A with its flags. */
  function Accumulate(s: Machine, o: ALU.AluOut): (t: Machine)
    ensures t.mem == s.mem && t.cpu == s.cpu.(a := o.value, flags := o.flags)
  {
    s.(cpu := s.cpu.(a := o.value, flags := o.flags))
  }

  /** Whether a jump's condition holds on the current flags. */
  predicate Holds(cond: Cond, f: ALU.Flags)
  {
    match cond
    case Always => true
    case IfZ => f.z
    case IfNZ => !f.z
    case IfC => f.cy
    case IfNC => !f.cy
  }

  /** The low byte of `_push_psw`'s word: S at 0x80, Z at 0x40, AC at
      0x10, P at 0x04 and C at 0x01; bits 5, 3 and 1 stay clear. */
  function FlagBits(f: ALU.Flags): (lo: nat)
    ensures lo < 0x100
  {
    (if f.s then 0x80 else 0) + (if f.z then 0x40 else 0) + (if f.ac then 0x10 else 0)
      + (if f.p then 0x04 else 0) + (if f.cy then 0x01 else 0)
  }

  /** `_push_psw`: A in the high byte, the flags in the low byte. */
  function PswWord(c: Cpu): (w: u16)
  {
    c.a * 0x100 + FlagBits(c.flags)
  }

  /** `_pop_psw`'s flags: each one is one bit of the popped word. */
  function PswFlags(w: int): ALU.Flags
  {
    ALU.Flags(s := (w / 0x80) % 2 == 1, z := (w / 0x40) % 2 == 1,
              ac := (w / 0x10) % 2 == 1, p := (w / 0x04) % 2 == 1, cy := w % 2 == 1)
  }

  /** The instructions whose handler can raise: those that fetch a word
      operand (PC 0xFFFF) or touch the stack (SP out of range), and LHLD and
      SHLD, whose word access fails at address 0xFFFF. */
  predicate MayFault(i: Instr)
  {
    i.Lxi? || i.Lda? || i.Sta? || i.Lhld? || i.Shld? || i.Jump? || i.Call? || i.Ret?
    || i.Push? || i.Pop?
  }

  /** MOV and MVI: a byte copied between registers and the byte at HL,
      or the immediate operand stored there. */
  function Transfer(i: Instr, s: Machine): (n: Machine)
    requires i.Mov? || i.Mvi?
    requires Implemented(i)
    ensures n.cpu.flags == s.cpu.flags && n.cpu.sp == s.cpu.sp
    ensures n.cpu.halted == s.cpu.halted && n.cpu.interruptEnabled == s.cpu.interruptEnabled
  {
    match i
    case Mov(dst, src) => Store(s, dst, Load(s, src))
    case Mvi(dst) =>
      var (v, t) := FetchByte(s);
      Store(t, dst, v)
  }

  /** LXI, LDA, STA, LHLD and SHLD: each fetches a word operand first, so
      each raises with PC at 0xFFFF; LHLD and SHLD then raise again on a
      word access at address 0xFFFF (SHLD after storing the low byte). */
  function LoadStore(i: Instr, s: Machine): (r: Result<Machine, Fault>)
    requires i.Lxi? || i.Lda? || i.Sta? || i.Lhld? || i.Shld?
    ensures r.Ok? ==> r.value.cpu.halted == s.cpu.halted && r.value.cpu.interruptEnabled == s.cpu.interruptEnabled
    ensures r.Ok? ==> r.value.cpu.flags == s.cpu.flags
  {
    match FetchWord(s)
    case Err(f) => Err(f)
    case Ok((v, t)) =>
      match i
      case Lxi(w) => Ok(SetWide(t, w, v))
      case Lda => Ok(t.(cpu := t.cpu.Set(A, t.mem[v])))
      case Sta => Ok(t.(mem := t.mem[v := t.cpu.a]))
      case Lhld =>
        (match ReadWord(t.mem, v)
         case Err(e) => Err(Fault(MemoryError(e), t))
         case Ok(w) => Ok(t.(cpu := t.cpu.SetPair(HL, w))))
      case Shld =>
        match WriteWord(t.mem, v, t.cpu.GetPair(HL))
        case Err(f) => Err(Fault(MemoryError(f.error), t.(mem := f.mem)))
        case Ok(m) => Ok(t.(mem := m))
  }

  /** ADD, ADI, ADC, SUB, ANA and ORA put the ALU's result in A and take
      all five flags from it; CMP and CPI take only the flags of A minus
      the operand. */
  function Arithmetic(i: Instr, s: Machine): (n: Machine)
    requires i.Add? || i.Adi? || i.Adc? || i.Sub? || i.Ana? || i.Ora? || i.Cmp? || i.Cpi?
    ensures n.mem == s.mem && n.cpu.sp == s.cpu.sp
    ensures n.cpu.halted == s.cpu.halted && n.cpu.interruptEnabled == s.cpu.interruptEnabled
  {
    match i
    case Add(src) => Accumulate(s, ALU.Add(s.cpu.a, Load(s, src), false).value)
    case Adi =>
      var (v, t) := FetchByte(s);
      Accumulate(t, ALU.Add(t.cpu.a, v, false).value)
    case Adc(src) => Accumulate(s, ALU.Add(s.cpu.a, Load(s, src), s.cpu.flags.cy).value)
    case Sub(src) => Accumulate(s, ALU.Sub(s.cpu.a, Load(s, src), false))
    case Ana(src) => Accumulate(s, ALU.And(s.cpu.a, Load(s, src)))
    case Ora(src) => Accumulate(s, ALU.Or(s.cpu.a, Load(s, src)))
    case Cmp(src) => s.(cpu := s.cpu.(flags := ALU.Sub(s.cpu.a, Load(s, src), false).flags))
    case Cpi =>
      var (v, t) := FetchByte(s);
      t.(cpu := t.cpu.(flags := ALU.Sub(t.cpu.a, v, false).flags))
  }

  /** INR and DCR run the operand through the ALU with 1 but put the old
      carry back; INX and DCX step a pair or SP modulo 0x10000 without
      touching any flag. */
  function Counting(i: Instr, s: Machine): (n: Machine)
    requires i.Inr? || i.Dcr? || i.Inx? || i.Dcx?
    ensures n.cpu.flags.cy == s.cpu.flags.cy && n.cpu.pc == s.cpu.pc
    ensures n.cpu.halted == s.cpu.halted && n.cpu.interruptEnabled == s.cpu.interruptEnabled
  {
    match i
    case Inr(dst) =>
      var o := ALU.Add(Load(s, dst), 1, false).value;
      var t := Store(s, dst, o.value);
      t.(cpu := t.cpu.(flags := o.flags.(cy := s.cpu.flags.cy)))
    case Dcr(dst) =>
      var o := ALU.Sub(Load(s, dst), 1, false);
      var t := Store(s, dst, o.value);
      t.(cpu := t.cpu.(flags := o.flags.(cy := s.cpu.flags.cy)))
    case Inx(w) => SetWide(s, w, (GetWide(s, w) + 1) % 0x1_0000)
    case Dcx(w) => SetWide(s, w, (GetWide(s, w) - 1) % 0x1_0000)
  }

  /** JMP and the conditional jumps, CALL and RET. */
  function Branch(i: Instr, s: Machine): (r: Result<Machine, Fault>)
    requires i.Jump? || i.Call? || i.Ret?
    ensures r.Ok? ==> r.value.cpu.flags == s.cpu.flags
    ensures r.Ok? ==> r.value.cpu.halted == s.cpu.halted && r.value.cpu.interruptEnabled == s.cpu.interruptEnabled
  {
    match i
    case Jump(cond) =>
      (match FetchWord(s)
       case Err(f) => Err(f)
       case Ok((addr, t)) => Ok(if Holds(cond, t.cpu.flags) then t.(cpu := t.cpu.(pc := addr)) else t))
    case Call =>
      (match FetchWord(s)
       case Err(f) => Err(f)
       case Ok((addr, t)) =>
         match PushStack(t, t.cpu.pc)
         case Err(f) => Err(f)
         case Ok(u) => Ok(u.(cpu := u.cpu.(pc := addr))))
    case Ret =>
      match PopStack(s)
      case Err(f) => Err(f)
      case Ok((v, t)) => Ok(t.(cpu := t.cpu.(pc := v)))
  }

  /** PUSH and POP of a register pair or of PSW. */
  function Stack(i: Instr, s: Machine): (r: Result<Machine, Fault>)
    requires i.Push? || i.Pop?
    ensures r.Ok? ==> r.value.cpu.pc == s.cpu.pc
    ensures r.Ok? ==> r.value.cpu.halted == s.cpu.halted && r.value.cpu.interruptEnabled == s.cpu.interruptEnabled
  {
    match i
    case Push(sw) =>
      (match sw
       case Regs(p) => PushStack(s, s.cpu.GetPair(p))
       case PSW => PushStack(s, PswWord(s.cpu)))
    case Pop(sw) =>
      match PopStack(s)
      case Err(f) => Err(f)
      case Ok((v, t)) =>
        match sw
        case Regs(p) => Ok(t.(cpu := t.cpu.SetPair(p, v)))
        case PSW => Ok(t.(cpu := t.cpu.(a := (v / 0x100) % 0x100, flags := PswFlags(v))))
  }

  /** The handler of an implemented instruction, run after its opcode byte
      was fetched (so PC already points past the opcode). Only handlers that
      fetch a word operand or touch the stack can raise. */
  function Execute(i: Instr, s: Machine): (r: Result<Machine, Fault>)
    requires Implemented(i)
    ensures r.Err? ==> MayFault(i)
    ensures r.Ok? ==> (r.value.cpu.halted <==> s.cpu.halted || i == Hlt)
    ensures r.Ok? ==> r.value.cpu.interruptEnabled == s.cpu.interruptEnabled
  {
    if i.Mov? || i.Mvi? then Ok(Transfer(i, s))
    else if i.Lxi? || i.Lda? || i.Sta? || i.Lhld? || i.Shld? then LoadStore(i, s)
    else if i.Add? || i.Adi? || i.Adc? || i.Sub? || i.Ana? || i.Ora? || i.Cmp? || i.Cpi? then Ok(Arithmetic(i, s))
    else if i.Inr? || i.Dcr? || i.Inx? || i.Dcx? then Ok(Counting(i, s))
    else if i.Jump? || i.Call? || i.Ret? then Branch(i, s)
    else if i.Push? || i.Pop? then Stack(i, s)
    else if i.Hlt? then Ok(s.(cpu := s.cpu.(halted := true)))
    else Ok(s)
  }

  /** `execute_instruction`: nothing happens on a halted processor;
      otherwise the opcode is fetched (PC moves on first) and either its
      handler runs or, for a byte the table does not list, an unknown-opcode
      error names the byte and PC - 1, computed after PC wrapped. */
  function Step(s: Machine): (r: StepResult)
    ensures r.Halted? <==> s.cpu.halted
    ensures !s.cpu.halted && Decode(s.mem[s.cpu.pc]).None? ==>
      r == Raised(Fault(UnknownOpcode(s.mem[s.cpu.pc], (s.cpu.pc + 1) % 0x1_0000 - 1), Advance(s, 1)))
    ensures !s.cpu.halted && Decode(s.mem[s.cpu.pc]).Some? ==> r != Halted
  {
    if s.cpu.halted then Halted
    else
      var (op, t) := FetchByte(s);
      match Decode(op)
      case None => Raised(Fault(UnknownOpcode(op, t.cpu.pc - 1), t))
      case Some(i) =>
        EncodeDecode(op);
        match Execute(i, t)
        case Ok(n) => Continue(n)
        case Err(f) => Raised(f)
  }

  /** How a bounded run ends: the processor halted, the step budget ran
      out, or an instruction raised. */
  datatype Outcome = Stopped(final: Machine) | OutOfFuel(last: Machine) | Failed(fault: Fault)

  /** The run loop (`while not halted: execute_instruction()`) for any
      step function, with at most `fuel` steps taken. */
  function Iterate(step: Machine -> StepResult, s: Machine, fuel: nat): (r: Outcome)
    ensures fuel > 0 && step(s).Halted? ==> r == Stopped(s)
    ensures r.Stopped? ==> step(r.final).Halted?
    decreases fuel
  {
    if fuel == 0 then OutOfFuel(s)
    else
      match step(s)
      case Halted => Stopped(s)
      case Continue(n) => Iterate(step, n, fuel - 1)
      case Raised(f) => Failed(f)
  }

  /** The processor's run: `execute_instruction` repeated until it returns
      False (halted) or raises, with at most `fuel` instructions. */
  function Run(s: Machine, fuel: nat): (r: Outcome)
    ensures s.cpu.halted ==> r == (if fuel == 0 then OutOfFuel(s) else Stopped(s))
    ensures r.Stopped? ==> r.final.cpu.halted
  {
    Iterate(Step, s, fuel)
  }
}

=== FILE: cpu_lemmas.dfy ===
/** Properties of single instructions and of the run loop, stated against
    the 8085's encoding of each instruction rather than the dispatch
    table's internals. */
module CpuLemmas {
  import opened Bits
  import opened Wrappers
  import opened Memory
  import opened State
  import opened Opcodes
  import opened CPU
  import ALU
  import AluLemmas

  /** The processor is running and the byte at PC encodes `i`. */
  predicate At(s: Machine, i: Instr)
  {
    !s.cpu.halted && s.mem[s.cpu.pc] == Encode(i)
  }

  /** The byte `k` places after PC, wrapping at 0x10000: an instruction's
      operand bytes as its handler sees them. */
  function OperandByte(s: Machine, k: nat): byte
  {
    s.mem[(s.cpu.pc + k) % 0x1_0000]
  }

  /** Moving PC by `a` and then by `b` is moving it by `a + b`: operand
      fetches compose, wrapping at 0x10000 at most once per step. */
  lemma AdvanceAdds(s: Machine, a: nat, b: nat)
    ensures Advance(Advance(s, a), b) == Advance(s, a + b)
  {
  }

  /** An opcode is dispatched to its own handler, run on the machine with
      PC already past the opcode. */
  lemma StepRunsHandler(s: Machine, i: Instr)
    requires At(s, i) && Implemented(i)
    ensures Step(s) == match Execute(i, Advance(s, 1))
      case Ok(n) => Continue(n)
      case Err(f) => Raised(f)
  {
    DecodeEncode(i);
  }

  /** A halted processor stays put: every run ends at once, unchanged. */
  lemma HaltedIsFinal(s: Machine, fuel: nat)
    requires s.cpu.halted
    ensures Step(s) == Halted
    ensures fuel > 0 ==> Run(s, fuel) == Stopped(s)
  {
  }

  /** HLT changes nothing but PC and the halted bit; NOP only PC. */
  lemma HltAndNop(s: Machine)
    ensures At(s, Hlt) ==> Step(s) == Continue(Machine(s.cpu.(pc := (s.cpu.pc + 1) % 0x1_0000, halted := true), s.mem))
    ensures At(s, Nop) ==> Step(s) == Continue(Advance(s, 1))
  {
    if At(s, Hlt) {
      StepRunsHandler(s, Hlt);
    }
    if At(s, Nop) {
      StepRunsHandler(s, Nop);
    }
  }

  /** MOV copies its source into its destination and touches nothing
      else: not the flags, not the other registers, not SP or PC. */
  lemma MovCopies(s: Machine, dst: Operand, src: Operand)
    requires !(dst == M && src == M)
    ensures var n := Transfer(Mov(dst, src), s);
      && Load(n, dst) == Load(s, src)
      && n.cpu.flags == s.cpu.flags && n.cpu.sp == s.cpu.sp && n.cpu.pc == s.cpu.pc
      && (forall r :: R(r) != dst ==> n.cpu.Get(r) == s.cpu.Get(r))
      && (dst.R? ==> n.mem == s.mem)
  {
  }

  /** MVI stores its operand byte and moves PC past it, leaving the flags
      alone. */
  lemma MviLoadsOperand(s: Machine, dst: Operand)
    ensures var n := Transfer(Mvi(dst), s);
      && Load(n, dst) == OperandByte(s, 0)
      && n.cpu.flags == s.cpu.flags && n.cpu.sp == s.cpu.sp
      && n.cpu.pc == (s.cpu.pc + 1) % 0x1_0000
      && (forall r :: R(r) != dst ==> n.cpu.Get(r) == s.cpu.Get(r))
  {
  }

  /** INX moves a pair (or SP) up by one modulo 0x10000 and keeps the
      flags. */
  lemma InxWraps(s: Machine, w: Wide)
    ensures var n := Counting(Inx(w), s);
      GetWide(n, w) == (GetWide(s, w) + 1) % 0x1_0000 && n.cpu.flags == s.cpu.flags
  {
  }

  /** DCX moves a pair (or SP) down by one modulo 0x10000 and keeps the
      flags. */
  lemma DcxWraps(s: Machine, w: Wide)
    ensures var n := Counting(Dcx(w), s);
      GetWide(n, w) == (GetWide(s, w) - 1) % 0x1_0000 && n.cpu.flags == s.cpu.flags
  {
  }

  /** INR increments its operand modulo 256; Z, S and P describe the new
      value, AC is the carry out of the low nibble, and C is kept. */
  lemma InrFlags(s: Machine, dst: Operand)
    ensures var n := Counting(Inr(dst), s); var v := Load(s, dst);
      && Load(n, dst) == (v + 1) % 0x100
      && ALU.DescribesResult(ALU.AluOut(Load(n, dst), n.cpu.flags))
      && (n.cpu.flags.ac <==> v % 0x10 == 0xF)
      && n.cpu.flags.cy == s.cpu.flags.cy
  {
    AluLemmas.IncrementFlags(Load(s, dst));
  }

  /** DCR decrements its operand modulo 256; Z, S and P describe the new
      value, AC is the borrow out of the low nibble, and C is kept. */
  lemma DcrFlags(s: Machine, dst: Operand)
    ensures var n := Counting(Dcr(dst), s); var v := Load(s, dst);
      && Load(n, dst) == (v - 1) % 0x100
      && ALU.DescribesResult(ALU.AluOut(Load(n, dst), n.cpu.flags))
      && (n.cpu.flags.ac <==> v % 0x10 == 0)
      && n.cpu.flags.cy == s.cpu.flags.cy
  {
    AluLemmas.DecrementFlags(Load(s, dst));
  }

  /** CMP sets the flags of A - src and changes nothing else. */
  lemma CmpComparesWithA(s: Machine, src: Operand)
    requires src == R(A) || src == R(B)
    ensures var n := Arithmetic(Cmp(src), s);
      && AluLemmas.ComparedFlags(n.cpu.flags, s.cpu.a, Load(s, src))
      && n == s.(cpu := s.cpu.(flags := n.cpu.flags))
  {
    AluLemmas.SubCompares(s.cpu.a, Load(s, src));
  }

  /** CPI compares A with its operand byte the same way, and moves PC past
      the operand. */
  lemma CpiComparesWithA(s: Machine)
    ensures var n := Arithmetic(Cpi, s);
      && AluLemmas.ComparedFlags(n.cpu.flags, s.cpu.a, OperandByte(s, 0))
      && n == Advance(s, 1).(cpu := Advance(s, 1).cpu.(flags := n.cpu.flags))
  {
    var v := OperandByte(s, 0);
    assert v == s.mem[s.cpu.pc];
    AluLemmas.SubCompares(s.cpu.a, v);
    assert Arithmetic(Cpi, s) == Advance(s, 1).(cpu := Advance(s, 1).cpu.(flags := ALU.Sub(s.cpu.a, v, false).flags));
  }

  /** The machine `s` with A and all five flags replaced by an ALU result,
      and nothing else changed: how every accumulating instruction ends. */
  predicate WritesBack(n: Machine, s: Machine, o: ALU.AluOut)
  {
    n.mem == s.mem && n.cpu == s.cpu.(a := o.value, flags := o.flags)
  }

  /** A holds the low byte of `sum` and C says whether it overflowed. */
  predicate SumInA(n: Machine, sum: int)
  {
    n.cpu.a == sum % 0x100 && (n.cpu.flags.cy <==> sum > 0xFF)
  }

  /** ADD routes A and its operand through the ALU's adder with no
      carry-in, and only A and the flags change: A becomes the sum mod 256
      and C records the overflow. */
  lemma AddAccumulates(s: Machine, src: Operand)
    ensures var x := Load(s, src); var n := Arithmetic(Add(src), s);
      && WritesBack(n, s, ALU.Add(s.cpu.a, x, false).value)
      && SumInA(n, s.cpu.a + x)
  {
    AddClearCarry(s, src, false);
  }

  /** ADD with the carry-in held in a variable that is known to be clear. */
  lemma AddClearCarry(s: Machine, src: Operand, c: bool)
    requires !c
    ensures var x := Load(s, src); var n := Arithmetic(Add(src), s);
      && WritesBack(n, s, ALU.Add(s.cpu.a, x, c).value)
      && SumInA(n, s.cpu.a + x)
  {
    AddRunsAdder(s, src, c);
    AddsThroughAlu(s, s.cpu.a, Load(s, src), c);
  }

  /** ADD and ADI hand the ALU's adder a clear carry-in. */
  lemma AddRunsAdder(s: Machine, src: Operand, c: bool)
    requires !c
    ensures Arithmetic(Add(src), s) == Accumulate(s, ALU.Add(s.cpu.a, Load(s, src), c).value)
    ensures Arithmetic(Adi, s) == Accumulate(Advance(s, 1), ALU.Add(s.cpu.a, s.mem[s.cpu.pc], c).value)
  {
  }

  /** ADC is ADD with the carry flag as carry-in. */
  lemma AdcAddsCarry(s: Machine, src: Operand)
    ensures var x := Load(s, src); var c := ALU.CarryIn(s.cpu.flags.cy); var n := Arithmetic(Adc(src), s);
      && WritesBack(n, s, ALU.Add(s.cpu.a, x, s.cpu.flags.cy).value)
      && SumInA(n, s.cpu.a + x + c)
  {
    var x := Load(s, src);
    assert Arithmetic(Adc(src), s) == Accumulate(s, ALU.Add(s.cpu.a, x, s.cpu.flags.cy).value);
    AddsThroughAlu(s, s.cpu.a, x, s.cpu.flags.cy);
  }

  /** ADI adds the byte after the opcode the same way and moves PC past
      it. */
  lemma AdiAddsOperand(s: Machine)
    ensures var x := s.mem[s.cpu.pc]; var n := Arithmetic(Adi, s);
      WritesBack(n, Advance(s, 1), ALU.Add(s.cpu.a, x, false).value)
  {
    AddRunsAdder(s, R(A), false);
  }

  /** After ADI, A is the sum of A and the operand byte mod 256 and C
      records the overflow. */
  lemma AdiSums(s: Machine)
    ensures SumInA(Arithmetic(Adi, s), s.cpu.a + s.mem[s.cpu.pc])
  {
    AddsThroughAlu(Advance(s, 1), s.cpu.a, s.mem[s.cpu.pc], false);
  }

  /** A sum written back to A: the byte sum with carry-in, and C set iff
      it overflowed. */
  lemma AddsThroughAlu(s: Machine, a: byte, x: byte, c: bool)
    ensures var o := ALU.Add(a, x, c).value; var n := Accumulate(s, o);
      WritesBack(n, s, o) && SumInA(n, a + x + ALU.CarryIn(c))
  {
  }

  /** SUB routes A and its operand through the ALU's subtractor with no
      borrow: A becomes the difference mod 256, C is the borrow (A below the
      operand) and Z says they were equal. */
  lemma SubSubtracts(s: Machine, src: Operand)
    ensures var x := Load(s, src); var n := Arithmetic(Sub(src), s);
      && WritesBack(n, s, ALU.Sub(s.cpu.a, x, false))
      && n.cpu.a == (s.cpu.a - x) % 0x100
      && AluLemmas.ComparedFlags(n.cpu.flags, s.cpu.a, x)
  {
    AluLemmas.SubCompares(s.cpu.a, Load(s, src));
    assert Arithmetic(Sub(src), s) == Accumulate(s, ALU.Sub(s.cpu.a, Load(s, src), false));
  }

  /** ANA puts the bitwise AND of A and its operand in A, sets AC and
      clears C. */
  lemma AnaAnds(s: Machine, src: Operand)
    ensures var x := Load(s, src); var n := Arithmetic(Ana(src), s);
      && WritesBack(n, s, ALU.And(s.cpu.a, x))
      && (forall i :: 0 <= i < 8 ==> (Bit(n.cpu.a, i) <==> Bit(s.cpu.a, i) && Bit(x, i)))
      && n.cpu.flags.ac && !n.cpu.flags.cy
  {
    forall i | 0 <= i < 8 {
      ALU.LogicalOpsAreBitwise(s.cpu.a, Load(s, src), i);
    }
  }

  /** ORA puts the bitwise OR of A and its operand in A and clears AC and
      C. */
  lemma OraOrs(s: Machine, src: Operand)
    ensures var x := Load(s, src); var n := Arithmetic(Ora(src), s);
      && WritesBack(n, s, ALU.Or(s.cpu.a, x))
      && (forall i :: 0 <= i < 8 ==> (Bit(n.cpu.a, i) <==> Bit(s.cpu.a, i) || Bit(x, i)))
      && !n.cpu.flags.ac && !n.cpu.flags.cy
  {
    forall i | 0 <= i < 8 {
      ALU.LogicalOpsAreBitwise(s.cpu.a, Load(s, src), i);
    }
  }

  /** The little-endian word in the two bytes after PC: the operand of
      LXI, LDA, STA, LHLD, SHLD, the jumps and CALL. */
  function OperandWord(s: Machine): (w: int)
    requires s.cpu.pc != 0xFFFF
    ensures 0 <= w < 0x1_0000
  {
    s.mem[s.cpu.pc] as int + 0x100 * s.mem[s.cpu.pc + 1] as int
  }

  /** Every instruction with a word operand raises when PC is 0xFFFF,
      before anything changes. */
  lemma LoadStoreAtEnd(i: Instr, s: Machine)
    requires i.Lxi? || i.Lda? || i.Sta? || i.Lhld? || i.Shld?
    requires s.cpu.pc == 0xFFFF
    ensures LoadStore(i, s) == Err(Fault(MemoryError(InvalidAddress(0x1_0000)), s))
  {
  }

  /** LXI puts its operand word in its pair or SP; A, the other pairs,
      the flags and memory are untouched, and PC moves past the operand. */
  lemma LxiLoadsWord(s: Machine, w: Wide)
    requires s.cpu.pc != 0xFFFF
    ensures LoadStore(Lxi(w), s).Ok?
    ensures var n := LoadStore(Lxi(w), s).value;
      && GetWide(n, w) == OperandWord(s)
      && (forall v :: v != w ==> GetWide(n, v) == GetWide(s, v))
      && n.cpu.a == s.cpu.a && n.cpu.flags == s.cpu.flags
      && n.cpu.pc == (s.cpu.pc + 2) % 0x1_0000 && n.mem == s.mem
  {
    LxiSetsWide(s, w);
    SetWideKeepsOthers(Advance(s, 2), w, OperandWord(s));
  }

  /** LXI's handler after its operand fetch: one write of the word. */
  lemma LxiSetsWide(s: Machine, w: Wide)
    requires s.cpu.pc != 0xFFFF
    ensures LoadStore(Lxi(w), s) == Ok(SetWide(Advance(s, 2), w, OperandWord(s)))
  {
    assert FetchWord(s) == Ok((OperandWord(s), Advance(s, 2)));
  }

  /** Writing one pair (or SP) leaves A and every other pair alone. */
  lemma SetWideKeepsOthers(t: Machine, w: Wide, val: u16)
    ensures SetWide(t, w, val).cpu.a == t.cpu.a
    ensures forall v :: v != w ==> GetWide(SetWide(t, w, val), v) == GetWide(t, v)
  {
    var n := SetWide(t, w, val);
    forall v | v != w
      ensures GetWide(n, v) == GetWide(t, v)
    {
      if v.W? && w.W? {
        assert High(v.p) != High(w.p) && High(v.p) != Low(w.p);
        assert Low(v.p) != High(w.p) && Low(v.p) != Low(w.p);
      }
    }
  }

  /** LDA loads A from the operand address and changes nothing else but
      PC. */
  lemma LdaLoads(s: Machine)
    requires s.cpu.pc != 0xFFFF
    ensures LoadStore(Lda, s).Ok?
    ensures var n := LoadStore(Lda, s).value;
      && Read(s.mem, OperandWord(s)) == Ok(n.cpu.a)
      && n == Advance(s, 2).(cpu := Advance(s, 2).cpu.(a := n.cpu.a))
  {
  }

  /** STA is a write of A to the operand address: that cell changes, no
      other cell does, and the processor only moves PC. */
  lemma StaStores(s: Machine)
    requires s.cpu.pc != 0xFFFF
    ensures LoadStore(Sta, s).Ok?
    ensures var n := LoadStore(Sta, s).value;
      && Write(s.mem, OperandWord(s), s.cpu.a) == Ok(n.mem)
      && n.cpu == Advance(s, 2).cpu
  {
  }

  /** LHLD loads HL from the little-endian word at the operand address; it
      raises when that word runs past 0xFFFF, with PC already past the
      operand. */
  lemma LhldLoadsHL(s: Machine)
    requires s.cpu.pc != 0xFFFF
    ensures var r := LoadStore(Lhld, s);
      && (r.Ok? <==> OperandWord(s) != 0xFFFF)
      && (r.Ok? ==> && ReadWord(s.mem, OperandWord(s)) == Ok(r.value.cpu.GetPair(HL))
                    && r.value.cpu == Advance(s, 2).cpu.SetPair(HL, r.value.cpu.GetPair(HL))
                    && r.value.mem == s.mem)
      && (r.Err? ==> r.error == Fault(MemoryError(InvalidAddress(0x1_0000)), Advance(s, 2)))
  {
    var t := Advance(s, 2);
    LhldReads(s);
    if OperandWord(s) != 0xFFFF {
      var w := ReadWord(s.mem, OperandWord(s)).value;
      PairRoundTrip(t.cpu, HL, w);
      assert w % 0x1_0000 == w;
    }
  }

  /** LHLD's handler after its operand fetch: one `read_word`. */
  lemma LhldReads(s: Machine)
    requires s.cpu.pc != 0xFFFF
    ensures LoadStore(Lhld, s) == match ReadWord(s.mem, OperandWord(s))
      case Err(e) => Err(Fault(MemoryError(e), Advance(s, 2)))
      case Ok(w) => Ok(Advance(s, 2).(cpu := Advance(s, 2).cpu.SetPair(HL, w)))
  {
    assert FetchWord(s) == Ok((OperandWord(s), Advance(s, 2)));
  }

  /** SHLD stores HL little-endian at the operand address and changes no
      other cell. Like `write_word` it is not atomic: at address 0xFFFF it
      raises with L already stored there. */
  lemma ShldStoresHL(s: Machine)
    requires s.cpu.pc != 0xFFFF
    ensures var r := LoadStore(Shld, s); var addr := OperandWord(s);
      && (r.Ok? <==> addr != 0xFFFF)
      && (r.Ok? ==> && ReadWord(r.value.mem, addr) == Ok(s.cpu.GetPair(HL))
                    && (forall b :: 0 <= b < SIZE && b != addr && b != addr + 1 ==> r.value.mem[b] == s.mem[b])
                    && r.value.cpu == Advance(s, 2).cpu)
      && (r.Err? ==> r.error.machine == Machine(Advance(s, 2).cpu, s.mem[0xFFFF := s.cpu.l]))
  {
    var addr := OperandWord(s);
    var hl := s.cpu.GetPair(HL);
    ShldWrites(s);
    if addr == 0xFFFF {
      assert hl % 0x100 == s.cpu.l;
    } else {
      WordRoundTrip(s.mem, addr, hl);
    }
  }

  /** SHLD's handler after its operand fetch: one `write_word` of HL. */
  lemma ShldWrites(s: Machine)
    requires s.cpu.pc != 0xFFFF
    ensures LoadStore(Shld, s) == match WriteWord(s.mem, OperandWord(s), s.cpu.GetPair(HL))
      case Err(f) => Err(Fault(MemoryError(f.error), Machine(Advance(s, 2).cpu, f.mem)))
      case Ok(m) => Ok(Machine(Advance(s, 2).cpu, m))
  {
    assert FetchWord(s) == Ok((OperandWord(s), Advance(s, 2)));
  }

  /** LHLD is little-endian: L comes from the operand address and H from
      the byte after it. */
  lemma LhldLittleEndian(s: Machine)
    requires s.cpu.pc != 0xFFFF && OperandWord(s) != 0xFFFF
    ensures LoadStore(Lhld, s).Ok?
    ensures var n := LoadStore(Lhld, s).value;
      n.cpu.l == s.mem[OperandWord(s)] && n.cpu.h == s.mem[OperandWord(s) + 1]
  {
    var addr := OperandWord(s);
    LhldLoadsHL(s);
    var n := LoadStore(Lhld, s).value;
    DivAddMultiple(n.cpu.h, n.cpu.l, 0x100);
    DivAddMultiple(s.mem[addr + 1], s.mem[addr], 0x100);
  }

  /** SHLD is little-endian: L goes to the operand address and H to the
      byte after it. */
  lemma ShldLittleEndian(s: Machine)
    requires s.cpu.pc != 0xFFFF && OperandWord(s) != 0xFFFF
    ensures LoadStore(Shld, s).Ok?
    ensures var n := LoadStore(Shld, s).value;
      n.mem[OperandWord(s)] == s.cpu.l && n.mem[OperandWord(s) + 1] == s.cpu.h
  {
    ShldWrites(s);
    DivAddMultiple(s.cpu.h, s.cpu.l, 0x100);
  }

  /** A jump always consumes its two operand bytes and lands on the
      little-endian target exactly when its condition holds; nothing else
      changes. With PC at 0xFFFF the operand runs off the end of memory and
      the jump raises. */
  lemma JumpTakesTargetIffCondition(s: Machine, cond: Cond)
    ensures s.cpu.pc != 0xFFFF ==>
      && Branch(Jump(cond), s).Ok?
      && var n := Branch(Jump(cond), s).value;
      && n.mem == s.mem
      && n.cpu == s.cpu.(pc := n.cpu.pc)
      && n.cpu.pc == (if Holds(cond, s.cpu.flags) then OperandByte(s, 0) as int + 0x100 * OperandByte(s, 1) as int
                      else (s.cpu.pc + 2) % 0x1_0000)
    ensures s.cpu.pc == 0xFFFF ==> Branch(Jump(cond), s).Err?
  {
  }

  /** A pushed word is what the next pop returns, and the pop puts SP back
      where it was before the push. */
  lemma PushPopRoundTrip(s: Machine, value: int)
    requires PushStack(s, value).Ok?
    ensures var t := PushStack(s, value).value;
      PopStack(t) == Ok((value % 0x1_0000, t.(cpu := s.cpu)))
  {
  }

  /** PUSH of one pair followed by POP into another copies the pair and
      restores SP; PC, flags and the remaining registers are untouched. */
  lemma PushPopCopiesPair(s: Machine, p: Pair, q: Pair)
    requires 2 <= s.cpu.sp <= 0x1_0000
    ensures Stack(Push(Regs(p)), s).Ok?
    ensures var t := Stack(Push(Regs(p)), s).value;
      && Stack(Pop(Regs(q)), t).Ok?
      && var n := Stack(Pop(Regs(q)), t).value;
      && n.cpu == s.cpu.SetPair(q, s.cpu.GetPair(p))
      && n.cpu.GetPair(q) == s.cpu.GetPair(p)
  {
    var v := s.cpu.GetPair(p);
    PushPairWord(s, p);
    var t := PushStack(s, v).value;
    PushPopRoundTrip(s, v);
    PopPairWord(t, v, t.(cpu := s.cpu), q);
    PairRoundTrip(s.cpu, q, v);
  }

  lemma PushPairWord(s: Machine, p: Pair)
    requires 2 <= s.cpu.sp <= 0x1_0000
    ensures Stack(Push(Regs(p)), s) == PushStack(s, s.cpu.GetPair(p)) && PushStack(s, s.cpu.GetPair(p)).Ok?
    ensures s.cpu.GetPair(p) % 0x1_0000 == s.cpu.GetPair(p)
  {
  }

  lemma PopPairWord(t: Machine, v: int, u: Machine, q: Pair)
    requires PopStack(t) == Ok((v, u))
    ensures Stack(Pop(Regs(q)), t) == Ok(u.(cpu := u.cpu.SetPair(q, v)))
  {
  }

  /** Reading the five flags back out of their bits gives the flags. */
  lemma FlagBitsRoundTrip(f: ALU.Flags)
    ensures PswFlags(FlagBits(f)) == f
  {
    var lo := FlagBits(f);
    var s, z, ac, p, cy := (if f.s then 1 else 0), (if f.z then 1 else 0),
      (if f.ac then 1 else 0), (if f.p then 1 else 0), (if f.cy then 1 else 0);
    assert lo == 0x80 * s + 0x40 * z + 0x10 * ac + 0x04 * p + cy;
    assert lo / 0x80 == s;
    assert lo / 0x40 == 2 * s + z;
    assert lo / 0x10 == 8 * s + 4 * z + ac;
    assert lo / 0x04 == 32 * s + 16 * z + 4 * ac + p;
  }

  /** The flag bits are read from the low byte only: A in the high byte
      does not disturb them, and comes back out of bits 15..8. */
  lemma PswHighByteIgnored(a: byte, lo: nat)
    requires lo < 0x100
    ensures PswFlags(a * 0x100 + lo) == PswFlags(lo)
    ensures ((a * 0x100 + lo) / 0x100) % 0x100 == a
  {
    HighByteShifts(a, lo);
    var w := a * 0x100 + lo;
    assert PswFlags(w).s == PswFlags(lo).s && PswFlags(w).z == PswFlags(lo).z;
    assert PswFlags(w).ac == PswFlags(lo).ac && PswFlags(w).p == PswFlags(lo).p;
  }

  /** Bits 7, 6, 4, 2 and 0 of `a * 0x100 + lo` are those of `lo`, and
      bits 15..8 are `a`. */
  lemma HighByteShifts(a: byte, lo: nat)
    requires lo < 0x100
    ensures var w := a * 0x100 + lo;
      && (w / 0x80) % 2 == (lo / 0x80) % 2 && (w / 0x40) % 2 == (lo / 0x40) % 2
      && (w / 0x10) % 2 == (lo / 0x10) % 2 && (w / 0x04) % 2 == (lo / 0x04) % 2
      && w / 0x100 == a && w % 2 == lo % 2
  {
    DivAddMultiple(2 * a, lo, 0x80);
    DivAddMultiple(a, lo / 0x80, 2);
    DivAddMultiple(4 * a, lo, 0x40);
    DivAddMultiple(2 * a, lo / 0x40, 2);
    DivAddMultiple(16 * a, lo, 0x10);
    DivAddMultiple(8 * a, lo / 0x10, 2);
    DivAddMultiple(64 * a, lo, 0x04);
    DivAddMultiple(32 * a, lo / 0x04, 2);
    DivAddMultiple(a, lo, 0x100);
    DivAddMultiple(0x80 * a, lo, 2);
  }

  /** The PSW word holds exactly the five flags at their bit positions,
      and A in its high byte. */
  lemma PswRoundTrip(c: Cpu)
    ensures PswFlags(PswWord(c)) == c.flags
    ensures (PswWord(c) / 0x100) % 0x100 == c.a
  {
    FlagBitsRoundTrip(c.flags);
    PswHighByteIgnored(c.a, FlagBits(c.flags));
  }

  /** PUSH PSW followed by POP PSW restores A, all five flags and SP. */
  lemma PushPopPsw(s: Machine)
    requires 2 <= s.cpu.sp <= 0x1_0000
    ensures Stack(Push(PSW), s).Ok?
    ensures var t := Stack(Push(PSW), s).value;
      && Stack(Pop(PSW), t).Ok?
      && Stack(Pop(PSW), t).value.cpu == s.cpu
  {
    var v := PswWord(s.cpu);
    PushPswWord(s);
    var t := PushStack(s, v).value;
    PushPopRoundTrip(s, v);
    PopPswWord(t, v, t.(cpu := s.cpu));
    PswRoundTrip(s.cpu);
  }

  lemma PushPswWord(s: Machine)
    requires 2 <= s.cpu.sp <= 0x1_0000
    ensures Stack(Push(PSW), s) == PushStack(s, PswWord(s.cpu)) && PushStack(s, PswWord(s.cpu)).Ok?
    ensures PswWord(s.cpu) % 0x1_0000 == PswWord(s.cpu)
  {
  }

  lemma PopPswWord(t: Machine, v: int, u: Machine)
    requires PopStack(t) == Ok((v, u))
    ensures Stack(Pop(PSW), t) == Ok(u.(cpu := u.cpu.(a := (v / 0x100) % 0x100, flags := PswFlags(v))))
  {
  }

  /** CALL pushes the address after its operand and jumps; the RET that
      follows returns to that address with SP back where it started. */
  lemma CallThenRet(s: Machine)
    requires s.cpu.pc != 0xFFFF && 2 <= s.cpu.sp <= 0x1_0000
    ensures Branch(Call, s).Ok?
    ensures var t := Branch(Call, s).value;
      && t.cpu.pc == s.mem[s.cpu.pc] as int + 0x100 * s.mem[s.cpu.pc + 1] as int
      && t.cpu.sp == s.cpu.sp - 2
      && Branch(Ret, t).Ok?
      && Branch(Ret, t).value.cpu == s.cpu.(pc := (s.cpu.pc + 2) % 0x1_0000)
  {
    var target := s.mem[s.cpu.pc] as int + 0x100 * s.mem[s.cpu.pc + 1] as int;
    assert FetchWord(s) == Ok((target, Advance(s, 2)));
    var u := Advance(s, 2);
    var ret := u.cpu.pc;
    PushPopRoundTrip(u, ret);
    var pushed := PushStack(u, ret).value;
    var t := pushed.(cpu := pushed.cpu.(pc := target));
    assert Branch(Call, s) == Ok(t);
    assert PopStack(t) == Ok((ret, t.(cpu := t.cpu.(sp := s.cpu.sp))));
    assert Branch(Ret, t) == Ok(t.(cpu := t.cpu.(sp := s.cpu.sp, pc := ret)));
  }

  /** The stack is bounded by memory, not by a masked SP: a push needs
      SP >= 2 and a pop needs SP <= 0xFFFE, so the initial SP 0xFFFF makes
      an immediate POP or RET fail. */
  lemma StackLimits(s: Machine)
    ensures s.cpu.sp < 2 ==> Stack(Push(Regs(BC)), s).Err? && Stack(Push(PSW), s).Err?
    ensures (s.cpu.sp >= 0xFFFF || s.cpu.sp < 0) ==> Branch(Ret, s).Err? && Stack(Pop(PSW), s).Err?
    ensures s.cpu == Init() ==> Branch(Ret, s).Err?
  {
  }

  /** Bytes with no handler: SUI's 0xD6, the SBB, XRA and most CMP rows,
      and STC's 0x37. */
  lemma MissingOpcodes(op: byte)
    requires op == 0xD6 || op == 0x37 || 0x98 <= op <= 0x9F || 0xA8 <= op <= 0xAF || 0xB9 <= op <= 0xBE
    ensures Decode(op) == None
  {
  }

  /** An unknown opcode raises only after PC has moved past it, and the
      error reports the opcode's address as PC - 1 (which is -1 when the
      opcode sat at 0xFFFF and PC wrapped to 0). */
  lemma UnknownOpcodeAfterFetch(s: Machine)
    requires !s.cpu.halted && Decode(s.mem[s.cpu.pc]) == None
    ensures Step(s).Raised? && Step(s).fault.machine.cpu.pc == (s.cpu.pc + 1) % 0x1_0000
    ensures Step(s).fault.error == UnknownOpcode(s.mem[s.cpu.pc], if s.cpu.pc == 0xFFFF then -1 else s.cpu.pc)
  {
  }

  /** Runs compose: spending `a` steps and then `b` more is a run of
      `a + b` steps, whatever the step function. */
  lemma {:induction false} IterateComposes(step: Machine -> StepResult, s: Machine, a: nat, b: nat)
    ensures Iterate(step, s, a + b) == match Iterate(step, s, a)
      case OutOfFuel(t) => Iterate(step, t, b)
      case other => other
    decreases a
  {
    if a > 0 {
      match step(s)
      case Halted =>
      case Raised(f) =>
      case Continue(n) =>
        IterateComposes(step, n, a - 1, b);
        assert Iterate(step, s, a + b) == Iterate(step, n, a - 1 + b);
    }
  }

  /** The processor's runs compose the same way. */
  lemma RunComposes(s: Machine, a: nat, b: nat)
    ensures Run(s, a + b) == match Run(s, a)
      case OutOfFuel(t) => Run(t, b)
      case other => other
  {
    IterateComposes(Step, s, a, b);
  }

  /** A run that ended (halted or failed) ends the same way with any
      larger budget. */
  lemma RunExtends(s: Machine, a: nat, b: nat)
    requires !Run(s, a).OutOfFuel?
    ensures Run(s, a + b) == Run(s, a)
  {
    RunComposes(s, a, b);
  }
}

=== FILE: memory.dfy ===
/** The 64 KiB byte-addressable store with bounds-checked byte access,
    little-endian word access and sequential program loading. */
module Memory {
  import opened Bits
  import opened Wrappers

  const SIZE: int := 0x1_0000

  /** Where `load_program` puts a program unless told otherwise. */
  const DEFAULT_LOAD_ADDRESS: int := 0x8000

  /** The whole address space: one byte per address 0x0000..0xFFFF. */
  type Mem = m: seq<byte> | |m| == 0x1_0000 witness seq(0x1_0000, _ => 0)

  /** The ValueError each accessor raises, with the offending operands. */
  datatype MemError =
    | InvalidAddress(addr: int)
    | InvalidWrite(addr: int, value: int)

  /** A failed write: the error and the memory as the failure left it (a
      multi-byte operation may already have written part of its data). */
  datatype MemFault = MemFault(error: MemError, mem: Mem)

  predicate InRange(addr: int) { 0 <= addr <= 0xFFFF }

  /** `Memory.__init__`: every cell holds zero. */
  function Blank(): (m: Mem)
    ensures forall a :: 0 <= a < SIZE ==> m[a] == 0
  {
    seq(0x1_0000, _ => 0)
  }

  /** `Memory.read`: the stored byte, or an error for an address outside
      [0, 0xFFFF]. */
  function Read(m: Mem, addr: int): (r: Result<byte, MemError>)
    ensures r.Ok? <==> InRange(addr)
    ensures r.Ok? ==> r.value == m[addr]
    ensures r.Err? ==> r.error == InvalidAddress(addr)
  {
    if 0 <= addr <= 0xFFFF then Ok(m[addr]) else Err(InvalidAddress(addr))
  }

  /** `Memory.write`: stores one byte; refuses a bad address or a value
      outside [0, 255] and then leaves the memory as it was. */
  function Write(m: Mem, addr: int, value: int): (r: Result<Mem, MemFault>)
    ensures r.Ok? <==> InRange(addr) && IsByte(value)
    ensures r.Ok? ==> r.value[addr] == value
    ensures r.Ok? ==> forall b :: 0 <= b < SIZE && b != addr ==> r.value[b] == m[b]
    ensures r.Err? ==> r.error == MemFault(InvalidWrite(addr, value), m)
  {
    if 0 <= addr <= 0xFFFF && 0 <= value <= 0xFF then Ok(m[addr := value])
    else Err(MemFault(InvalidWrite(addr, value), m))
  }

  /** `Memory.read_word`: low byte at `addr`, high byte at `addr + 1`; the
      first of the two reads that is out of range is the one reported. */
  function ReadWord(m: Mem, addr: int): (r: Result<u16, MemError>)
    ensures r.Ok? <==> 0 <= addr <= 0xFFFE
    ensures r.Ok? ==> r.value == m[addr] as int + 0x100 * m[addr + 1] as int
    ensures r.Err? ==> r.error == InvalidAddress(if addr == 0xFFFF then 0x1_0000 else addr)
  {
    match Read(m, addr)
    case Err(e) => Err(e)
    case Ok(low) =>
      match Read(m, addr + 1)
      case Err(e) => Err(e)
      case Ok(high) => Ok(high * 0x100 + low)
  }

  /** `Memory.write_word`: writes the low byte, then the high byte. The two
      writes are not undone together: at 0xFFFF the low byte is already
      stored when the high byte's write fails. */
  function WriteWord(m: Mem, addr: int, value: int): (r: Result<Mem, MemFault>)
    ensures r.Ok? <==> 0 <= addr <= 0xFFFE
    ensures r.Ok? ==> r.value[addr] == value % 0x100 && r.value[addr + 1] == (value / 0x100) % 0x100
    ensures r.Ok? ==> forall b :: 0 <= b < SIZE && b != addr && b != addr + 1 ==> r.value[b] == m[b]
    ensures r.Err? && addr == 0xFFFF ==>
      r.error == MemFault(InvalidWrite(0x1_0000, (value / 0x100) % 0x100), m[0xFFFF := value % 0x100])
    ensures r.Err? && addr != 0xFFFF ==> r.error == MemFault(InvalidWrite(addr, value % 0x100), m)
  {
    match Write(m, addr, value % 0x100)
    case Err(f) => Err(f)
    case Ok(m1) => Write(m1, addr + 1, (value / 0x100) % 0x100)
  }

  /** Byte `j` of `program` can be stored at `start + j`. */
  predicate Storable(program: seq<int>, start: int, j: int)
    requires 0 <= j < |program|
  {
    InRange(start + j) && IsByte(program[j])
  }

  /** Index, from `i` on, of the first byte of `program` that cannot be
      stored at `start + index` (the length if there is none). */
  function FirstBadFrom(program: seq<int>, start: int, i: nat): (k: nat)
    requires i <= |program|
    ensures i <= k <= |program|
    ensures k > i ==> InRange(start + i) && InRange(start + k - 1)
    ensures forall j :: i <= j < k ==> Storable(program, start, j)
    ensures k < |program| ==> !Storable(program, start, k)
    decreases |program| - i
  {
    if i == |program| then i
    else if !Storable(program, start, i) then i
    else FirstBadFrom(program, start, i + 1)
  }

  /** The loop of `load_program` from index `i` on: stores `program[j]` at
      `start + j` in order, and a failing write stops the loop with every
      earlier byte in place. */
  function LoadFrom(m: Mem, program: seq<int>, start: int, i: nat): (r: Result<Mem, MemFault>)
    requires i <= |program|
    ensures var k := FirstBadFrom(program, start, i);
      var out := if r.Ok? then r.value else r.error.mem;
      && (r.Ok? <==> k == |program|)
      && (forall j :: i <= j < k ==> program[j] == out[start + j])
      && (forall b :: 0 <= b < SIZE && !(start + i <= b < start + k) ==> out[b] == m[b])
      && (r.Err? ==> r.error.error == InvalidWrite(start + k, program[k]))
    decreases |program| - i
  {
    if i == |program| then Ok(m)
    else
      match Write(m, start + i, program[i])
      case Err(f) => Err(f)
      case Ok(m1) => LoadFrom(m1, program, start, i + 1)
  }

  /** `Memory.load_program`: every byte of the program lands at its address
      when all of them fit; otherwise the load stops at the first byte that
      does not, with the earlier ones already written. */
  function LoadProgram(m: Mem, program: seq<int>, start: int): (r: Result<Mem, MemFault>)
    ensures r.Ok? <==>
      && (|program| == 0 || (0 <= start && start + |program| <= SIZE))
      && forall i :: 0 <= i < |program| ==> IsByte(program[i])
    ensures r.Ok? ==> forall i :: 0 <= i < |program| ==> program[i] == r.value[start + i]
    ensures r.Ok? ==> forall b :: 0 <= b < SIZE && !(start <= b < start + |program|) ==> r.value[b] == m[b]
    ensures r.Err? ==> var k := FirstBadFrom(program, start, 0);
      && k < |program|
      && r.error.error == InvalidWrite(start + k, program[k])
      && (forall j :: 0 <= j < k ==> program[j] == r.error.mem[start + j])
      && (forall b :: 0 <= b < SIZE && !(start <= b < start + k) ==> r.error.mem[b] == m[b])
  {
    LoadFrom(m, program, start, 0)
  }

  /** A write changes only the cell written: reading it back gives the
      value, reading any other address gives what was there before. */
  lemma ReadAfterWrite(m: Mem, addr: int, value: int, other: int)
    requires Write(m, addr, value).Ok?
    ensures Read(Write(m, addr, value).value, other) ==
      (if other == addr then Ok(value) else Read(m, other))
  {
  }

  lemma LittleEndianSplit(value: int)
    ensures value % 0x100 + 0x100 * ((value / 0x100) % 0x100) == value % 0x1_0000
  {
    var q := value / 0x1_0000;
    var r := value % 0x1_0000;
    assert value == 0x1_0000 * q + r;
    assert r / 0x100 < 0x100;
    assert value / 0x100 == 0x100 * q + r / 0x100;
    assert (value / 0x100) % 0x100 == r / 0x100;
    assert value % 0x100 == r % 0x100;
  }

  /** Word round trip: reading back a word written at any address up to
      0xFFFE gives the value's low sixteen bits. */
  lemma WordRoundTrip(m: Mem, addr: int, value: int)
    requires 0 <= addr <= 0xFFFE
    ensures WriteWord(m, addr, value).Ok?
    ensures ReadWord(WriteWord(m, addr, value).value, addr) == Ok(value % 0x1_0000)
  {
    LittleEndianSplit(value);
  }
}

=== FILE: opcodes.dfy ===
/** The instruction table: which opcode byte runs which handler. The
    decoder is the table itself; the encoder is the 8085's bit-field layout
    of the same instructions, an independent description it is checked
    against. */
module Opcodes {
  import opened Bits
  import opened Wrappers
  import opened State

  /** A one-byte operand: a register, or M, the memory cell HL points at. */
  datatype Operand = R(r: Reg) | M

  /** The operand of LXI, INX and DCX: a register pair or SP. */
  datatype Wide = W(p: Pair) | StackPointer

  /** The operand of PUSH and POP: a register pair or PSW (A and flags). */
  datatype StackWord = Regs(p: Pair) | PSW

  /** When a jump is taken. */
  datatype Cond = Always | IfZ | IfNZ | IfC | IfNC

  /** One handler of the table; immediate operands are fetched by the
      handler, so they are not part of the instruction. */
  datatype Instr =
    | Mov(dst: Operand, src: Operand)
    | Mvi(dst: Operand)
    | Lxi(w: Wide)
    | Lda | Sta | Lhld | Shld
    | Add(src: Operand) | Adi | Adc(src: Operand) | Sub(src: Operand)
    | Ana(src: Operand) | Ora(src: Operand)
    | Inr(dst: Operand) | Dcr(dst: Operand)
    | Inx(w: Wide) | Dcx(w: Wide)
    | Jump(cond: Cond) | Call | Ret
    | Push(sw: StackWord) | Pop(sw: StackWord)
    | Cmp(src: Operand) | Cpi
    | Hlt | Nop

  /** The opcode-to-handler table built by `_build_instruction_set`, entry
      for entry; every other byte is an unknown opcode. The entries are
      grouped by the opcode's top two bits, which is how the 8085 lays out
      its instruction set. */
  function Decode(op: byte): Option<Instr>
  {
    if op < 0x40 then Block0(op)
    else if op < 0x80 then Block1(op)
    else if op < 0xC0 then Block2(op)
    else Block3(op)
  }

  /** Table entries 0x00-0x3F: NOP, LXI, INX, DCX, INR, DCR, MVI and the direct-address loads and stores. */
  function Block0(op: byte): Option<Instr>
  {
    match op
    case 0x3E => Some(Mvi(R(A)))
    case 0x06 => Some(Mvi(R(B)))
    case 0x0E => Some(Mvi(R(C)))
    case 0x16 => Some(Mvi(R(D)))
    case 0x1E => Some(Mvi(R(E)))
    case 0x26 => Some(Mvi(R(H)))
    case 0x2E => Some(Mvi(R(L)))
    case 0x36 => Some(Mvi(M))
    case 0x01 => Some(Lxi(W(BC)))
    case 0x11 => Some(Lxi(W(DE)))
    case 0x21 => Some(Lxi(W(HL)))
    case 0x31 => Some(Lxi(StackPointer))
    case 0x3A => Some(Lda)
    case 0x32 => Some(Sta)
    case 0x2A => Some(Lhld)
    case 0x22 => Some(Shld)
    case 0x3C => Some(Inr(R(A)))
    case 0x04 => Some(Inr(R(B)))
    case 0x0C => Some(Inr(R(C)))
    case 0x14 => Some(Inr(R(D)))
    case 0x1C => Some(Inr(R(E)))
    case 0x24 => Some(Inr(R(H)))
    case 0x2C => Some(Inr(R(L)))
    case 0x34 => Some(Inr(M))
    case 0x03 => Some(Inx(W(BC)))
    case 0x13 => Some(Inx(W(DE)))
    case 0x23 => Some(Inx(W(HL)))
    case 0x33 => Some(Inx(StackPointer))
    case 0x3D => Some(Dcr(R(A)))
    case 0x05 => Some(Dcr(R(B)))
    case 0x0D => Some(Dcr(R(C)))
    case 0x15 => Some(Dcr(R(D)))
    case 0x1D => Some(Dcr(R(E)))
    case 0x25 => Some(Dcr(R(H)))
    case 0x2D => Some(Dcr(R(L)))
    case 0x35 => Some(Dcr(M))
    case 0x0B => Some(Dcx(W(BC)))
    case 0x1B => Some(Dcx(W(DE)))
    case 0x2B => Some(Dcx(W(HL)))
    case 0x3B => Some(Dcx(StackPointer))
    case 0x00 => Some(Nop)
    case _ => None
  }

  /** Table entries 0x40-0x7F: MOV and HLT. */
  function Block1(op: byte): Option<Instr>
  {
    match op
    case 0x7F => Some(Mov(R(A), R(A)))
    case 0x78 => Some(Mov(R(A), R(B)))
    case 0x79 => Some(Mov(R(A), R(C)))
    case 0x7A => Some(Mov(R(A), R(D)))
    case 0x7B => Some(Mov(R(A), R(E)))
    case 0x7C => Some(Mov(R(A), R(H)))
    case 0x7D => Some(Mov(R(A), R(L)))
    case 0x7E => Some(Mov(R(A), M))
    case 0x47 => Some(Mov(R(B), R(A)))
    case 0x40 => Some(Mov(R(B), R(B)))
    case 0x41 => Some(Mov(R(B), R(C)))
    case 0x42 => Some(Mov(R(B), R(D)))
    case 0x43 => Some(Mov(R(B), R(E)))
    case 0x44 => Some(Mov(R(B), R(H)))
    case 0x45 => Some(Mov(R(B), R(L)))
    case 0x46 => Some(Mov(R(B), M))
    case 0x4F => Some(Mov(R(C), R(A)))
    case 0x48 => Some(Mov(R(C), R(B)))
    case 0x49 => Some(Mov(R(C), R(C)))
    case 0x4A => Some(Mov(R(C), R(D)))
    case 0x4B => Some(Mov(R(C), R(E)))
    case 0x4C => Some(Mov(R(C), R(H)))
    case 0x4D => Some(Mov(R(C), R(L)))
    case 0x4E => Some(Mov(R(C), M))
    case 0x57 => Some(Mov(R(D), R(A)))
    case 0x50 => Some(Mov(R(D), R(B)))
    case 0x51 => Some(Mov(R(D), R(C)))
    case 0x52 => Some(Mov(R(D), R(D)))
    case 0x53 => Some(Mov(R(D), R(E)))
    case 0x54 => Some(Mov(R(D), R(H)))
    case 0x55 => Some(Mov(R(D), R(L)))
    case 0x56 => Some(Mov(R(D), M))
    case 0x5F => Some(Mov(R(E), R(A)))
    case 0x58 => Some(Mov(R(E), R(B)))
    case 0x59 => Some(Mov(R(E), R(C)))
    case 0x5A => Some(Mov(R(E), R(D)))
    case 0x5B => Some(Mov(R(E), R(E)))
    case 0x5C => Some(Mov(R(E), R(H)))
    case 0x5D => Some(Mov(R(E), R(L)))
    case 0x5E => Some(Mov(R(E), M))
    case 0x67 => Some(Mov(R(H), R(A)))
    case 0x60 => Some(Mov(R(H), R(B)))
    case 0x61 => Some(Mov(R(H), R(C)))
    case 0x62 => Some(Mov(R(H), R(D)))
    case 0x63 => Some(Mov(R(H), R(E)))
    case 0x64 => Some(Mov(R(H), R(H)))
    case 0x65 => Some(Mov(R(H), R(L)))
    case 0x66 => Some(Mov(R(H), M))
    case 0x6F => Some(Mov(R(L), R(A)))
    case 0x68 => Some(Mov(R(L), R(B)))
    case 0x69 => Some(Mov(R(L), R(C)))
    case 0x6A => Some(Mov(R(L), R(D)))
    case 0x6B => Some(Mov(R(L), R(E)))
    case 0x6C => Some(Mov(R(L), R(H)))
    case 0x6D => Some(Mov(R(L), R(L)))
    case 0x6E => Some(Mov(R(L), M))
    case 0x77 => Some(Mov(M, R(A)))
    case 0x70 => Some(Mov(M, R(B)))
    case 0x71 => Some(Mov(M, R(C)))
    case 0x72 => Some(Mov(M, R(D)))
    case 0x73 => Some(Mov(M, R(E)))
    case 0x74 => Some(Mov(M, R(H)))
    case 0x75 => Some(Mov(M, R(L)))
    case 0x76 => Some(Hlt)
    case _ => None
  }

  /** Table entries 0x80-0xBF: register arithmetic and logic. */
  function Block2(op: byte): Option<Instr>
  {
    match op
    case 0x87 => Some(Add(R(A)))
    case 0x80 => Some(Add(R(B)))
    case 0x81 => Some(Add(R(C)))
    case 0x82 => Some(Add(R(D)))
    case 0x83 => Some(Add(R(E)))
    case 0x84 => Some(Add(R(H)))
    case 0x85 => Some(Add(R(L)))
    case 0x86 => Some(Add(M))
    case 0x8F => Some(Adc(R(A)))
    case 0x88 => Some(Adc(R(B)))
    case 0x89 => Some(Adc(R(C)))
    case 0x8A => Some(Adc(R(D)))
    case 0x8B => Some(Adc(R(E)))
    case 0x8C => Some(Adc(R(H)))
    case 0x8D => Some(Adc(R(L)))
    case 0x8E => Some(Adc(M))
    case 0x97 => Some(Sub(R(A)))
    case 0x90 => Some(Sub(R(B)))
    case 0x91 => Some(Sub(R(C)))
    case 0x92 => Some(Sub(R(D)))
    case 0x93 => Some(Sub(R(E)))
    case 0x94 => Some(Sub(R(H)))
    case 0x95 => Some(Sub(R(L)))
    case 0x96 => Some(Sub(M))
    case 0xA7 => Some(Ana(R(A)))
    case 0xA0 => Some(Ana(R(B)))
    case 0xA1 => Some(Ana(R(C)))
    case 0xA2 => Some(Ana(R(D)))
    case 0xA3 => Some(Ana(R(E)))
    case 0xA4 => Some(Ana(R(H)))
    case 0xA5 => Some(Ana(R(L)))
    case 0xA6 => Some(Ana(M))
    case 0xB7 => Some(Ora(R(A)))
    case 0xB0 => Some(Ora(R(B)))
    case 0xB1 => Some(Ora(R(C)))
    case 0xB2 => Some(Ora(R(D)))
    case 0xB3 => Some(Ora(R(E)))
    case 0xB4 => Some(Ora(R(H)))
    case 0xB5 => Some(Ora(R(L)))
    case 0xB6 => Some(Ora(M))
    case 0xBF => Some(Cmp(R(A)))
    case 0xB8 => Some(Cmp(R(B)))
    case _ => None
  }

  /** Table entries 0xC0-0xFF: jumps, calls, returns, stack and immediates. */
  function Block3(op: byte): Option<Instr>
  {
    match op
    case 0xC6 => Some(Adi)
    case 0xC3 => Some(Jump(Always))
    case 0xCA => Some(Jump(IfZ))
    case 0xC2 => Some(Jump(IfNZ))
    case 0xDA => Some(Jump(IfC))
    case 0xD2 => Some(Jump(IfNC))
    case 0xCD => Some(Call)
    case 0xC9 => Some(Ret)
    case 0xC5 => Some(Push(Regs(BC)))
    case 0xD5 => Some(Push(Regs(DE)))
    case 0xE5 => Some(Push(Regs(HL)))
    case 0xF5 => Some(Push(PSW))
    case 0xC1 => Some(Pop(Regs(BC)))
    case 0xD1 => Some(Pop(Regs(DE)))
    case 0xE1 => Some(Pop(Regs(HL)))
    case 0xF1 => Some(Pop(PSW))
    case 0xFE => Some(Cpi)
    case _ => None
  }

  /** The instructions the table has a handler for: every form of every
      listed mnemonic, except that MOV M,M does not exist (its encoding is
      HLT) and CMP exists only for A and B. */
  predicate Implemented(i: Instr)
  {
    match i
    case Mov(dst, src) => !(dst == M && src == M)
    case Cmp(src) => src == R(A) || src == R(B)
    case _ => true
  }

  /** The 8085's three-bit operand field: B C D E H L M A. */
  function Code(o: Operand): (n: nat)
    ensures n < 8
  {
    match o
    case R(r) => (match r case B => 0 case C => 1 case D => 2 case E => 3 case H => 4 case L => 5 case A => 7)
    case M => 6
  }

  /** The 8085's two-bit register-pair field: BC DE HL SP. */
  function WideCode(w: Wide): (n: nat)
    ensures n < 4
  {
    match w
    case W(p) => (match p case BC => 0 case DE => 1 case HL => 2)
    case StackPointer => 3
  }

  /** The two-bit field of PUSH and POP: BC DE HL PSW. */
  function StackCode(s: StackWord): (n: nat)
    ensures n < 4
  {
    match s
    case Regs(p) => (match p case BC => 0 case DE => 1 case HL => 2)
    case PSW => 3
  }

  /** The opcode of an instruction by the 8085's encoding rules. */
  function Encode(i: Instr): (op: byte)
  {
    match i
    case Mov(dst, src) => 0x40 + 8 * Code(dst) + Code(src)
    case Mvi(dst) => 0x06 + 8 * Code(dst)
    case Lxi(w) => 0x01 + 0x10 * WideCode(w)
    case Lda => 0x3A
    case Sta => 0x32
    case Lhld => 0x2A
    case Shld => 0x22
    case Add(src) => 0x80 + Code(src)
    case Adi => 0xC6
    case Adc(src) => 0x88 + Code(src)
    case Sub(src) => 0x90 + Code(src)
    case Ana(src) => 0xA0 + Code(src)
    case Ora(src) => 0xB0 + Code(src)
    case Inr(dst) => 0x04 + 8 * Code(dst)
    case Dcr(dst) => 0x05 + 8 * Code(dst)
    case Inx(w) => 0x03 + 0x10 * WideCode(w)
    case Dcx(w) => 0x0B + 0x10 * WideCode(w)
    case Jump(cond) => (match cond case Always => 0xC3 case IfNZ => 0xC2 case IfZ => 0xCA case IfNC => 0xD2 case IfC => 0xDA)
    case Call => 0xCD
    case Ret => 0xC9
    case Push(sw) => 0xC5 + 0x10 * StackCode(sw)
    case Pop(sw) => 0xC1 + 0x10 * StackCode(sw)
    case Cmp(src) => 0xB8 + Code(src)
    case Cpi => 0xFE
    case Hlt => 0x76
    case Nop => 0x00
  }

  lemma DecodeEncodeMov(dst: Operand, src: Operand)
    requires !(dst == M && src == M)
    ensures Decode(Encode(Mov(dst, src))) == Some(Mov(dst, src))
  {
  }

  lemma DecodeEncodeMvi(o: Operand)
    ensures Decode(Encode(Mvi(o))) == Some(Mvi(o))
  {
  }

  lemma DecodeEncodeInr(o: Operand)
    ensures Decode(Encode(Inr(o))) == Some(Inr(o))
  {
  }

  lemma DecodeEncodeDcr(o: Operand)
    ensures Decode(Encode(Dcr(o))) == Some(Dcr(o))
  {
  }

  lemma DecodeEncodeAdd(o: Operand)
    ensures Decode(Encode(Add(o))) == Some(Add(o))
  {
  }

  lemma DecodeEncodeAdc(o: Operand)
    ensures Decode(Encode(Adc(o))) == Some(Adc(o))
  {
  }

  lemma DecodeEncodeSub(o: Operand)
    ensures Decode(Encode(Sub(o))) == Some(Sub(o))
  {
  }

  lemma DecodeEncodeAna(o: Operand)
    ensures Decode(Encode(Ana(o))) == Some(Ana(o))
  {
  }

  lemma DecodeEncodeOra(o: Operand)
    ensures Decode(Encode(Ora(o))) == Some(Ora(o))
  {
  }

  lemma DecodeEncodeCmp(o: Operand)
    requires o == R(A) || o == R(B)
    ensures Decode(Encode(Cmp(o))) == Some(Cmp(o))
  {
  }

  lemma DecodeEncodeLxi(x: Wide)
    ensures Decode(Encode(Lxi(x))) == Some(Lxi(x))
  {
  }

  lemma DecodeEncodeInx(x: Wide)
    ensures Decode(Encode(Inx(x))) == Some(Inx(x))
  {
  }

  lemma DecodeEncodeDcx(x: Wide)
    ensures Decode(Encode(Dcx(x))) == Some(Dcx(x))
  {
  }

  lemma DecodeEncodePush(x: StackWord)
    ensures Decode(Encode(Push(x))) == Some(Push(x))
  {
  }

  lemma DecodeEncodePop(x: StackWord)
    ensures Decode(Encode(Pop(x))) == Some(Pop(x))
  {
  }

  lemma DecodeEncodeJump(x: Cond)
    ensures Decode(Encode(Jump(x))) == Some(Jump(x))
  {
  }

  /** Every implemented instruction's 8085 encoding is a table entry that
      decodes back to that instruction. */
  lemma DecodeEncode(i: Instr)
    requires Implemented(i)
    ensures Decode(Encode(i)) == Some(i)
  {
    match i
    case Mov(dst, src) => DecodeEncodeMov(dst, src);
    case Mvi(o) => DecodeEncodeMvi(o);
    case Inr(o) => DecodeEncodeInr(o);
    case Dcr(o) => DecodeEncodeDcr(o);
    case Add(o) => DecodeEncodeAdd(o);
    case Adc(o) => DecodeEncodeAdc(o);
    case Sub(o) => DecodeEncodeSub(o);
    case Ana(o) => DecodeEncodeAna(o);
    case Ora(o) => DecodeEncodeOra(o);
    case Cmp(o) => DecodeEncodeCmp(o);
    case Lxi(x) => DecodeEncodeLxi(x);
    case Inx(x) => DecodeEncodeInx(x);
    case Dcx(x) => DecodeEncodeDcx(x);
    case Push(x) => DecodeEncodePush(x);
    case Pop(x) => DecodeEncodePop(x);
    case Jump(x) => DecodeEncodeJump(x);
    case _ => DecodeEncodeFixed(i);
  }

  lemma DecodeEncodeFixed(i: Instr)
    requires i.Lda? || i.Sta? || i.Lhld? || i.Shld? || i.Adi? || i.Call?
             || i.Ret? || i.Cpi? || i.Hlt? || i.Nop?
    ensures Decode(Encode(i)) == Some(i)
  {
  }

  lemma EncodeDecode00(op: byte)
    requires 0x00 <= op < 0x10 && Decode(op).Some?
    ensures Implemented(Decode(op).value) && Encode(Decode(op).value) == op
  {
  }

  lemma EncodeDecode10(op: byte)
    requires 0x10 <= op < 0x20 && Decode(op).Some?
    ensures Implemented(Decode(op).value) && Encode(Decode(op).value) == op
  {
  }

  lemma EncodeDecode20(op: byte)
    requires 0x20 <= op < 0x30 && Decode(op).Some?
    ensures Implemented(Decode(op).value) && Encode(Decode(op).value) == op
  {
  }

  lemma EncodeDecode30(op: byte)
    requires 0x30 <= op < 0x40 && Decode(op).Some?
    ensures Implemented(Decode(op).value) && Encode(Decode(op).value) == op
  {
  }

  lemma EncodeDecode40(op: byte)
    requires 0x40 <= op < 0x50 && Decode(op).Some?
    ensures Implemented(Decode(op).value) && Encode(Decode(op).value) == op
  {
  }

  lemma EncodeDecode50(op: byte)
    requires 0x50 <= op < 0x60 && Decode(op).Some?
    ensures Implemented(Decode(op).value) && Encode(Decode(op).value) == op
  {
  }

  lemma EncodeDecode60(op: byte)
    requires 0x60 <= op < 0x70 && Decode(op).Some?
    ensures Implemented(Decode(op).value) && Encode(Decode(op).value) == op
  {
  }

  lemma EncodeDecode70(op: byte)
    requires 0x70 <= op < 0x80 && Decode(op).Some?
    ensures Implemented(Decode(op).value) && Encode(Decode(op).value) == op
  {
  }

  lemma EncodeDecode80(op: byte)
    requires 0x80 <= op < 0x90 && Decode(op).Some?
    ensures Implemented(Decode(op).value) && Encode(Decode(op).value) == op
  {
  }

  lemma EncodeDecode90(op: byte)
    requires 0x90 <= op < 0xA0 && Decode(op).Some?
    ensures Implemented(Decode(op).value) && Encode(Decode(op).value) == op
  {
  }

  lemma EncodeDecodeA0(op: byte)
    requires 0xA0 <= op < 0xB0 && Decode(op).Some?
    ensures Implemented(Decode(op).value) && Encode(Decode(op).value) == op
  {
  }

  lemma EncodeDecodeB0(op: byte)
    requires 0xB0 <= op < 0xC0 && Decode(op).Some?
    ensures Implemented(Decode(op).value) && Encode(Decode(op).value) == op
  {
  }

  lemma EncodeDecodeC0(op: byte)
    requires 0xC0 <= op < 0xD0 && Decode(op).Some?
    ensures Implemented(Decode(op).value) && Encode(Decode(op).value) == op
  {
  }

  lemma EncodeDecodeD0(op: byte)
    requires 0xD0 <= op < 0xE0 && Decode(op).Some?
    ensures Implemented(Decode(op).value) && Encode(Decode(op).value) == op
  {
  }

  lemma EncodeDecodeE0(op: byte)
    requires 0xE0 <= op < 0xF0 && Decode(op).Some?
    ensures Implemented(Decode(op).value) && Encode(Decode(op).value) == op
  {
  }

  lemma EncodeDecodeF0(op: byte)
    requires 0xF0 <= op < 0x100 && Decode(op).Some?
    ensures Implemented(Decode(op).value) && Encode(Decode(op).value) == op
  {
  }

  /** Every table entry is the 8085 encoding of an implemented
      instruction. */
  lemma EncodeDecode(op: byte)
    requires Decode(op).Some?
    ensures Implemented(Decode(op).value) && Encode(Decode(op).value) == op
  {
    if op < 0x10 {
      EncodeDecode00(op);
    } else if op < 0x20 {
      EncodeDecode10(op);
    } else if op < 0x30 {
      EncodeDecode20(op);
    } else if op < 0x40 {
      EncodeDecode30(op);
    } else if op < 0x50 {
      EncodeDecode40(op);
    } else if op < 0x60 {
      EncodeDecode50(op);
    } else if op < 0x70 {
      EncodeDecode60(op);
    } else if op < 0x80 {
      EncodeDecode70(op);
    } else if op < 0x90 {
      EncodeDecode80(op);
    } else if op < 0xA0 {
      EncodeDecode90(op);
    } else if op < 0xB0 {
      EncodeDecodeA0(op);
    } else if op < 0xC0 {
      EncodeDecodeB0(op);
    } else if op < 0xD0 {
      EncodeDecodeC0(op);
    } else if op < 0xE0 {
      EncodeDecodeD0(op);
    } else if op < 0xF0 {
      EncodeDecodeE0(op);
    } else {
      EncodeDecodeF0(op);
    }
  }

  /** The table and the encoding agree in both directions: a byte decodes
      to an instruction exactly when it is that instruction's encoding. */
  lemma DecodeIsInverseOfEncode(op: byte, i: Instr)
    ensures Decode(op) == Some(i) <==> Implemented(i) && Encode(i) == op
  {
    if Decode(op) == Some(i) {
      EncodeDecode(op);
    }
    if Implemented(i) && Encode(i) == op {
      DecodeEncode(i);
    }
  }
}

=== FILE: programs.dfy ===
/** Whole programs: source text through both assembler passes, loaded into
    memory and run on the processor. */
module Programs {
  import opened Wrappers
  import opened Text
  import opened Assembler
  import opened AsmTables
  import opened Bits
  import opened Memory
  import opened State
  import opened Opcodes
  import opened CPU
  import CpuLemmas

  /** A line the stripping in either pass leaves as it is. */
  predicate TrimmedLine(s: string)
  {
    s != [] && Trimmed(s)
  }

  /** A one-line program without surrounding whitespace is its only source
      line. */
  lemma OneSourceLine(text: string)
    requires TrimmedLine(text) && '\n' !in text
    ensures SourceLines(text) == [text]
  {
    StripTrimmed(text);
  }

  /** `name:body` splits at its colon into the label and the instruction. */
  lemma LabelSplit(name: string, body: string)
    requires ':' !in name
    ensures Before(name + ":" + body, ':') == name
    ensures After(name + ":" + body, ':') == body
  {
    var line := name + ":" + body;
    var r := Before(line, ':');
    assert line[|name|] == ':';
    assert r == name;
  }

  /** Pass one on a single labelled line binds the label to the origin and
      keeps the instruction, sized by its estimate. */
  lemma ScanLabelledLine(d: Dialect, name: string, body: string, origin: int)
    requires TrimmedLine(name) && TrimmedLine(body)
    requires ':' !in name && ';' !in name + ":" + body
    ensures Kept(body)
    ensures Scan(d, [name + ":" + body], origin)
      == Listing(map[name := origin], origin + Estimate(d, body), [body])
  {
    var line := name + ":" + body;
    assert [line][..0] == [];
    StripTrimmed(line);
    LabelSplit(name, body);
    StripTrimmed(name);
    StripTrimmed(body);
    assert Uncomment(line) == line;
  }

  /** A jump to a label, written `JMP name`, assembles to the jump's
      opcode and the label's address. */
  lemma JumpLine(d: Dialect, labels: map<string, int>, m: string, target: string)
    requires IsWord(m) && IsWord(target)
    requires m in ADDRESS_MNEMONICS && d.opcodes(m).Some? && m !in d.immediates && target in labels
    ensures Kept(m + " " + target)
    ensures EmitLine(d, labels, m + " " + target) == Ok([d.opcodes(m).value] + LittleEndian(labels[target]))
  {
    var line := m + " " + target;
    assert Join([m, target], ' ') == line;
    FieldsJoin([m, target]);
    assert Mnemonic(line) == m;
    AddressOperand(d, labels, line);
  }

  /** An address operand that names no label is read by `int()`: the line
      assembles to the opcode and the number, low byte first, or fails as a
      bad number naming the operand. */
  lemma NumericAddressLine(d: Dialect, labels: map<string, int>, m: string, operand: string)
    requires IsWord(m) && IsWord(operand)
    requires m in ADDRESS_MNEMONICS && d.opcodes(m).Some? && m !in d.immediates && operand !in labels
    ensures Kept(m + " " + operand)
    ensures Number(operand).Ok? ==>
      EmitLine(d, labels, m + " " + operand) == Ok([d.opcodes(m).value] + LittleEndian(Number(operand).value))
    ensures Number(operand).Err? ==> EmitLine(d, labels, m + " " + operand) == Err(BadNumber(operand))
  {
    OperandLine(d, labels, m, operand);
    assert m != "LXI";
  }

  /** The digits of a numeral hold no whitespace. */
  lemma DigitsHaveNoSpace(s: string, base: nat)
    requires AllDigits(s, base)
    ensures NoSpace(s)
  {
    forall k | 0 <= k < |s|
      ensures !IsSpace(s[k])
    {
      DigitIsPlain(s[k]);
    }
  }

  /** Any integer written out, sign and digits, holds no whitespace. */
  lemma ShowIntHasNoSpace(n: int, base: nat)
    requires base == 10 || base == 16
    ensures NoSpace(ShowInt(n, base))
  {
    var digits := ShowNat(if n < 0 then -n else n, base);
    DigitsHaveNoSpace(digits, base);
    if n < 0 {
      assert NoSpace("-") by { assert !IsSpace('-'); }
      NoSpaceAppend("-", digits);
    }
  }

  /** `#` and the hexadecimal digits of any integer form one word. */
  lemma HexIsWord(n: int)
    ensures IsWord("#" + ShowInt(n, 16))
  {
    ShowIntHasNoSpace(n, 16);
    assert NoSpace("#") by { assert !IsSpace('#'); }
    NoSpaceAppend("#", ShowInt(n, 16));
  }

  /** Two strings without whitespace make one. */
  lemma NoSpaceAppend(a: string, b: string)
    requires NoSpace(a) && NoSpace(b)
    ensures NoSpace(a + b)
  {
    forall k | 0 <= k < |a + b|
      ensures !IsSpace((a + b)[k])
    {
      if k < |a| {
        assert (a + b)[k] == a[k];
      } else {
        assert (a + b)[k] == b[k - |a|];
      }
    }
  }

  /** `m #h`, where h is any integer written in hexadecimal, assembles to
      the opcode and that integer, low byte first, unless a label has the
      operand's exact name. */
  lemma HexAddressLine(d: Dialect, labels: map<string, int>, m: string, n: int)
    requires IsWord(m) && m in ADDRESS_MNEMONICS && d.opcodes(m).Some? && m !in d.immediates
    requires "#" + ShowInt(n, 16) !in labels
    ensures EmitLine(d, labels, m + " " + ("#" + ShowInt(n, 16))) == Ok([d.opcodes(m).value] + LittleEndian(n))
  {
    HexIsWord(n);
    NumberReadsHex(n);
    NumericAddressLine(d, labels, m, "#" + ShowInt(n, 16));
  }

  /** `m n`, where n is any integer written in decimal, assembles to the
      opcode and n, low byte first, unless a label has the operand's exact
      name. */
  lemma DecimalAddressLine(d: Dialect, labels: map<string, int>, m: string, n: int)
    requires IsWord(m) && m in ADDRESS_MNEMONICS && d.opcodes(m).Some? && m !in d.immediates
    requires ShowInt(n, 10) !in labels
    ensures EmitLine(d, labels, m + " " + ShowInt(n, 10)) == Ok([d.opcodes(m).value] + LittleEndian(n))
  {
    DecimalIsWord(n);
    NumberReadsDecimal(n);
    NumericAddressLine(d, labels, m, ShowInt(n, 10));
  }

  /** `LDA #2050` assembles to 3A 50 20 when no label is called `#2050`. */
  lemma LdaHexLine(labels: map<string, int>)
    requires "#2050" !in labels
    ensures EmitLine(SRC_DIALECT, labels, "LDA #2050") == Ok([0x3A, 0x50, 0x20])
  {
    LdaKey();
    HexDigits2050();
    var line := "LDA" + " " + ("#" + ShowInt(0x2050, 16));
    HexAddressLine(SRC_DIALECT, labels, "LDA", 0x2050);
    assert EmitLine(SRC_DIALECT, labels, line) == Ok([0x3A] + [0x50, 0x20]);
    assert [0x3A] + [0x50, 0x20] == [0x3A, 0x50, 0x20];
  }

  /** LDA is a single word, an address mnemonic, with opcode 0x3A in the
      larger table. */
  lemma LdaKey()
    ensures IsWord("LDA") && SRC_DIALECT.opcodes("LDA") == Some(0x3A)
    ensures "LDA" in ADDRESS_MNEMONICS && "LDA" !in SRC_DIALECT.immediates
  {
    assert !IsSpace('L') && !IsSpace('D') && !IsSpace('A');
  }

  /** The operand and the line of `LDA #2050`, spelled out. */
  lemma HexDigits2050()
    ensures "#" + ShowInt(0x2050, 16) == "#2050"
    ensures "LDA" + " " + ("#" + ShowInt(0x2050, 16)) == "LDA #2050"
    ensures LittleEndian(0x2050) == [0x50, 0x20]
  {
    assert ShowNat(0x2, 16) == "2";
    assert ShowNat(0x20, 16) == ShowNat(0x2, 16) + [DigitChar(0)];
    assert ShowNat(0x205, 16) == ShowNat(0x20, 16) + [DigitChar(5)];
    assert ShowNat(0x2050, 16) == ShowNat(0x205, 16) + [DigitChar(0)];
  }

  /** `name:JMP name`, alone in a program, assembles to a jump to the
      origin. */
  lemma SelfJump(d: Dialect, name: string, m: string, origin: int)
    requires TrimmedLine(name) && NoSpace(name) && ':' !in name && ';' !in name && '\n' !in name
    requires IsWord(m) && ';' !in m && '\n' !in m
    requires m in ADDRESS_MNEMONICS && d.opcodes(m).Some? && m !in d.immediates
    ensures AssembleAt(d, name + ":" + m + " " + name, origin) == Ok([d.opcodes(m).value] + LittleEndian(origin))
  {
    var body := m + " " + name;
    var text := name + ":" + body;
    SelfJumpText(name, m);
    SelfJumpScan(d, name, body, origin);
    var p := Scan(d, SourceLines(text), origin);
    JumpLine(d, p.labels, m, name);
    EmitOneLine(d, p.labels, body);
  }

  /** The text of `name:m name` as a label and its body. */
  lemma SelfJumpText(name: string, m: string)
    requires TrimmedLine(name) && NoSpace(name) && ';' !in name && '\n' !in name
    requires IsWord(m) && ';' !in m && '\n' !in m
    ensures TrimmedLine(m + " " + name)
    ensures name + ":" + m + " " + name == name + ":" + (m + " " + name)
    ensures ';' !in name + ":" + (m + " " + name) && '\n' !in name + ":" + (m + " " + name)
  {
    assert !IsSpace(':') && IsSpace(' ');
  }

  /** Pass one over `name:body`, alone in a program, binds the name to the
      origin and keeps the body. */
  lemma SelfJumpScan(d: Dialect, name: string, body: string, origin: int)
    requires TrimmedLine(name) && TrimmedLine(body)
    requires ':' !in name && ';' !in name + ":" + body && '\n' !in name + ":" + body
    ensures Kept(body)
    ensures var p := Scan(d, SourceLines(name + ":" + body), origin);
      p.labels == map[name := origin] && p.lines == [body]
  {
    OneSourceLine(name + ":" + body);
    ScanLabelledLine(d, name, body, origin);
  }

  /** Pass two over a single line is that line's code. */
  lemma EmitOneLine(d: Dialect, labels: map<string, int>, line: string)
    requires Kept(line)
    ensures EmitLines(d, labels, [line]) == EmitLine(d, labels, line)
  {
    assert [line][..0] == [];
    assert EmitLines(d, labels, []) == Ok([]);
    if EmitLine(d, labels, line).Ok? {
      assert [] + EmitLine(d, labels, line).value == EmitLine(d, labels, line).value;
    }
  }

  /** A label name pass one reads back unchanged. */
  predicate PlainName(name: string)
  {
    IsWord(name) && ':' !in name && ';' !in name
  }

  /** `name:JMP name`, the smallest program with a label: an endless
      loop. */
  function SelfLoop(name: string): string
  {
    name + ":" + "JMP" + " " + name
  }

  /** The loop assembles, for labels counted from `origin`, to JMP and
      the origin, low byte first. */
  lemma LoopAssembles(name: string, origin: int)
    requires PlainName(name)
    ensures AssembleAt(SRC_DIALECT, SelfLoop(name), origin) == Ok([0xC3] + LittleEndian(origin))
  {
    assert IsSpace('\n');
    assert SRC_DIALECT.opcodes("JMP") == Some(0xC3);
    SelfJump(SRC_DIALECT, name, "JMP", origin);
  }

  /** The machine `load_program` and `CPU()` give for `code` at the
      default address, if the load succeeds. */
  function Loaded(code: seq<int>): (r: Result<Machine, MemFault>)
  {
    match LoadProgram(Blank(), code, DEFAULT_LOAD_ADDRESS)
    case Ok(m) => Ok(Machine(Init(), m))
    case Err(f) => Err(f)
  }

  /** Three bytes load at 0x8000 onto a fresh processor. */
  lemma LoadedThree(code: seq<int>)
    requires |code| == 3 && forall i :: 0 <= i < 3 ==> IsByte(code[i])
    ensures Loaded(code).Ok?
    ensures var s := Loaded(code).value;
      && s.cpu == Init()
      && s.mem[0x8000] == code[0] && s.mem[0x8001] == code[1] && s.mem[0x8002] == code[2]
  {
  }

  /** An unconditional JMP at 0x8000 sends PC to the address in the two
      bytes after it, low byte first. */
  lemma JumpFromLoadAddress(s: Machine)
    requires CpuLemmas.At(s, Jump(Always)) && s.cpu.pc == 0x8000
    ensures Step(s).Continue?
    ensures Step(s).next.cpu.pc == s.mem[0x8001] as int + 0x100 * s.mem[0x8002] as int
  {
    CpuLemmas.StepRunsHandler(s, Jump(Always));
    var t := Advance(s, 1);
    assert t.cpu.pc == 0x8001;
    CpuLemmas.JumpTakesTargetIffCondition(t, Always);
    assert CpuLemmas.OperandByte(t, 0) == s.mem[0x8001] && CpuLemmas.OperandByte(t, 1) == s.mem[0x8002];
  }

  /** A loaded JMP runs first and sends PC to its operand. */
  lemma LoadedJump(code: seq<int>, origin: int)
    requires code == [0xC3] + LittleEndian(origin)
    ensures Loaded(code).Ok?
    ensures var s := Loaded(code).value;
      && s.cpu.pc == 0x8000 && Step(s).Continue? && Step(s).next.cpu.pc == origin % 0x1_0000
  {
    LoadedThree(code);
    var s := Loaded(code).value;
    assert Encode(Jump(Always)) == 0xC3;
    JumpFromLoadAddress(s);
  }

  /** As written, labels count from 0 but the program is loaded at 0x8000:
      the loop assembles to a jump to 0x0000, so its first step leaves the
      program instead of returning to the JMP at 0x8000. */
  lemma LoopLeavesProgram(name: string)
    requires PlainName(name)
    ensures Assemble(SRC_DIALECT, SelfLoop(name)) == Ok([0xC3, 0x00, 0x00])
    ensures var code := Assemble(SRC_DIALECT, SelfLoop(name)).value;
      && Loaded(code).Ok?
      && var s := Loaded(code).value;
      && s.cpu.pc == 0x8000 && Step(s).Continue? && Step(s).next.cpu.pc == 0x0000
  {
    LoopAssembles(name, 0);
    var code := Assemble(SRC_DIALECT, SelfLoop(name)).value;
    LoadedJump(code, 0);
    ZeroAddressBytes();
  }

  /** Address 0 as the two operand bytes of a JMP. */
  lemma ZeroAddressBytes()
    ensures [0xC3] + LittleEndian(0) == [0xC3, 0x00, 0x00]
  {
    assert LittleEndian(0) == [0x00, 0x00];
  }

  /** The load address as the two operand bytes of a JMP. */
  lemma LoadAddressBytes()
    ensures [0xC3] + LittleEndian(DEFAULT_LOAD_ADDRESS) == [0xC3, 0x00, 0x80]
  {
    assert 0x8000 / 0x100 == 0x80;
  }

  /** With labels counted from the load address, the loop jumps back to
      its own JMP. */
  lemma LoopStaysInPlace(name: string)
    requires PlainName(name)
    ensures AssembleAt(SRC_DIALECT, SelfLoop(name), DEFAULT_LOAD_ADDRESS) == Ok([0xC3, 0x00, 0x80])
    ensures var code := AssembleAt(SRC_DIALECT, SelfLoop(name), DEFAULT_LOAD_ADDRESS).value;
      && Loaded(code).Ok?
      && var s := Loaded(code).value;
      && s.cpu.pc == 0x8000 && Step(s).Continue? && Step(s).next.cpu.pc == 0x8000
  {
    LoopAssembles(name, DEFAULT_LOAD_ADDRESS);
    var code := AssembleAt(SRC_DIALECT, SelfLoop(name), DEFAULT_LOAD_ADDRESS).value;
    LoadedJump(code, DEFAULT_LOAD_ADDRESS);
    LoadAddressBytes();
  }

  /** Two words separated by a space are the line's two fields. */
  lemma TwoFields(m: string, operand: string)
    requires IsWord(m) && IsWord(operand)
    ensures Kept(m + " " + operand)
    ensures Fields(m + " " + operand) == [m, operand] && Mnemonic(m + " " + operand) == m
  {
    assert Join([m, operand], ' ') == m + " " + operand;
    FieldsJoin([m, operand]);
  }

  /** Three words are three fields: pass two emits nothing for the line,
      whatever pass one estimated for it. */
  lemma ThreeFieldsDropped(d: Dialect, labels: map<string, int>, m: string, a: string, b: string)
    requires IsWord(m) && IsWord(a) && IsWord(b)
    ensures Kept(m + " " + a + " " + b)
    ensures EmitLine(d, labels, m + " " + a + " " + b) == Ok([])
  {
    var line := m + " " + a + " " + b;
    assert [m, a, b][1..] == [a, b];
    assert Join([a, b], ' ') == a + " " + b;
    assert Join([m, a, b], ' ') == line;
    FieldsJoin([m, a, b]);
  }

  /** A line of one word is its own single field and mnemonic: pass two
      emits that word's opcode, or nothing when the table lacks it, even for
      a mnemonic like JMP that pass one sizes at three bytes. */
  lemma BareLine(d: Dialect, labels: map<string, int>, m: string)
    requires IsWord(m)
    ensures Kept(m)
    ensures EmitLine(d, labels, m) == Ok(if d.opcodes(m).Some? then [d.opcodes(m).value] else [])
  {
    assert Join([m], ' ') == m;
    FieldsJoin([m]);
  }

  /** `HLT` alone on a line assembles to the single byte 0x76. */
  lemma HltLine(labels: map<string, int>)
    ensures Kept("HLT")
    ensures EmitLine(SRC_DIALECT, labels, "HLT") == Ok([0x76])
  {
    HltKey();
    BareLine(SRC_DIALECT, labels, "HLT");
  }

  /** HLT is a single word with its 8085 opcode in the larger table. */
  lemma HltKey()
    ensures IsWord("HLT") && SRC_DIALECT.opcodes("HLT") == Some(0x76)
  {
    assert !IsSpace('H') && !IsSpace('L') && !IsSpace('T');
  }

  /** So is ADI. */
  lemma AdiKey()
    ensures IsWord("ADI") && SRC_DIALECT.opcodes("ADI") == Some(0xC6)
  {
    assert !IsSpace('A') && !IsSpace('D') && !IsSpace('I');
  }

  /** `ADI n`, `CPI n`, `SUI n`: an immediate other than MVI assembles to
      its opcode followed by the number exactly as read, with no masking to
      a byte; a mnemonic missing from the table or an unreadable number
      raises. */
  lemma ImmediateLine(d: Dialect, labels: map<string, int>, m: string, operand: string)
    requires IsWord(m) && IsWord(operand) && m in d.immediates && m != "MVI"
    ensures Kept(m + " " + operand)
    ensures EmitLine(d, labels, m + " " + operand) ==
      if d.opcodes(m).None? then Err(UnknownMnemonic(m))
      else if Number(operand).Err? then Err(BadNumber(operand))
      else Ok([d.opcodes(m).value, Number(operand).value])
  {
    OperandLine(d, labels, m, operand);
  }

  /** A number printed in decimal is a single word: digits, after a minus
      sign when it is negative. */
  lemma DecimalIsWord(n: int)
    ensures IsWord(ShowInt(n, 10))
  {
    var digits := ShowNat(if n < 0 then -n else n, 10);
    var s := ShowInt(n, 10);
    forall k | 0 <= k < |s|
      ensures !IsSpace(s[k])
    {
      if n >= 0 {
        DigitIsPlain(digits[k]);
      } else if k > 0 {
        assert s[k] == digits[k - 1];
        DigitIsPlain(digits[k - 1]);
      }
    }
  }

  /** `ADI n` with `n` outside 0..255 assembles to 0xC6 followed by `n`
      itself, and a program holding it cannot be loaded: the value reaches
      `load_program` unmasked and is refused there. */
  lemma AdiUnmasked(labels: map<string, int>, n: int)
    requires !IsByte(n)
    ensures Kept("ADI" + " " + ShowInt(n, 10))
    ensures EmitLine(SRC_DIALECT, labels, "ADI" + " " + ShowInt(n, 10)) == Ok([0xC6, n])
    ensures Loaded([0xC6, n]).Err?
  {
    AdiKey();
    DecimalIsWord(n);
    NumberReadsDecimal(n);
    ImmediateLine(SRC_DIALECT, labels, "ADI", ShowInt(n, 10));
    assert !IsByte([0xC6, n][1]);
  }

  /** In the smaller variant `SUI n` is sized as one byte, and pass two
      emits nothing for it: SUI is not in its table. */
  lemma Src1DropsSui(labels: map<string, int>, operand: string)
    requires IsWord(operand)
    ensures Kept("SUI" + " " + operand)
    ensures Estimate(SRC1_DIALECT, "SUI" + " " + operand) == 1
    ensures EmitLine(SRC1_DIALECT, labels, "SUI" + " " + operand) == Ok([])
  {
    TwoFields("SUI", operand);
    Src1HasNoSui("SUI" + " " + operand);
  }

  /** No key of the smaller variant's table begins with SUI. */
  lemma Src1HasNoSui(key: string)
    requires |key| >= 3 && key[..3] == "SUI"
    ensures Src1Opcode(key).None?
  {
    assert key[0] == 'S' && key[1] == 'U' && key[2] == 'I';
  }

  /** `reg,value` with no comma or whitespace in either half splits into
      the register and the value. */
  lemma RegisterOperand(reg: string, value: string)
    requires IsWord(reg) && IsWord(value) && ',' !in reg && ',' !in value
    ensures IsWord(reg + "," + value)
    ensures Split(reg + "," + value, ',') == [reg, value]
    ensures Strip(reg) == reg && Strip(value) == value
  {
    var operand := reg + "," + value;
    assert !IsSpace(',');
    assert forall k :: 0 <= k < |operand| ==> !IsSpace(operand[k]) by {
      forall k | 0 <= k < |operand|
        ensures !IsSpace(operand[k])
      {
        if k < |reg| { assert operand[k] == reg[k]; }
        else if k > |reg| { assert operand[k] == value[k - |reg| - 1]; }
      }
    }
    assert [reg, value][1..] == [value];
    assert Join([reg, value], ',') == operand;
    SplitJoin([reg, value], ',');
    StripTrimmed(reg);
    StripTrimmed(value);
  }

  /** MVI and LXI are single words. */
  lemma RegisterMnemonics()
    ensures IsWord("MVI") && IsWord("LXI")
  {
    assert !IsSpace('M') && !IsSpace('V') && !IsSpace('I');
    assert !IsSpace('L') && !IsSpace('X');
  }

  /** A line of a mnemonic and one operand is pass two's operand case. */
  lemma OperandLine(d: Dialect, labels: map<string, int>, m: string, operand: string)
    requires IsWord(m) && IsWord(operand)
    ensures Kept(m + " " + operand)
    ensures EmitLine(d, labels, m + " " + operand) == EmitOperand(d, labels, m, operand)
  {
    TwoFields(m, operand);
  }

  /** `MVI r,value` assembles to the opcode of `MVI r` and the value, when
      both are known. */
  lemma MviLine(d: Dialect, labels: map<string, int>, reg: string, value: string)
    requires IsWord(reg) && IsWord(value) && ',' !in reg && ',' !in value
    requires "MVI" in d.immediates && d.opcodes("MVI" + " " + reg).Some? && Number(value).Ok?
    ensures Kept("MVI" + " " + (reg + "," + value))
    ensures EmitLine(d, labels, "MVI" + " " + (reg + "," + value))
      == Ok([d.opcodes("MVI" + " " + reg).value, Number(value).value])
  {
    var operand := reg + "," + value;
    RegisterOperand(reg, value);
    RegisterMnemonics();
    OperandLine(d, labels, "MVI", operand);
    WithRegister(d, "MVI", reg, value, false);
    assert EmitOperand(d, labels, "MVI", operand) == EmitImmediate(d, "MVI", operand);
    assert EmitImmediate(d, "MVI", operand) == EmitWithRegister(d, "MVI", operand, false);
    TwoBytes(d.opcodes("MVI" + " " + reg).value, Number(value).value);
  }

  lemma TwoBytes(op: int, v: int)
    ensures [op] + [v] == [op, v]
  {
  }

  /** `LXI rp,value` assembles to the opcode of `LXI rp` and the value,
      low byte first. */
  lemma LxiLine(d: Dialect, labels: map<string, int>, pair: string, value: string)
    requires IsWord(pair) && IsWord(value) && ',' !in pair && ',' !in value
    requires "LXI" !in d.immediates && d.opcodes("LXI" + " " + pair).Some? && Number(value).Ok?
    ensures Kept("LXI" + " " + (pair + "," + value))
    ensures EmitLine(d, labels, "LXI" + " " + (pair + "," + value))
      == Ok([d.opcodes("LXI" + " " + pair).value] + LittleEndian(Number(value).value))
  {
    var operand := pair + "," + value;
    RegisterOperand(pair, value);
    RegisterMnemonics();
    OperandLine(d, labels, "LXI", operand);
    WithRegister(d, "LXI", pair, value, true);
    assert EmitOperand(d, labels, "LXI", operand) == EmitWithRegister(d, "LXI", operand, true);
  }

  /** The register-and-value forms, once the operand is known to split
      cleanly. */
  lemma WithRegister(d: Dialect, m: string, reg: string, value: string, wide: bool)
    requires Split(reg + "," + value, ',') == [reg, value]
    requires Strip(reg) == reg && Strip(value) == value
    requires d.opcodes(m + " " + reg).Some? && Number(value).Ok?
    ensures EmitWithRegister(d, m, reg + "," + value, wide)
      == Ok([d.opcodes(m + " " + reg).value]
            + (if wide then LittleEndian(Number(value).value) else [Number(value).value]))
  {
    assert RegisterKey(m, reg + "," + value) == m + " " + reg;
  }

  /** A register operand, as in `MOV A,B` or `ADD C`, names its whole
      entry: the line is that entry's opcode, or nothing when the table
      lacks it. */
  lemma RegisterLine(d: Dialect, labels: map<string, int>, m: string, operand: string)
    requires IsWord(m) && IsWord(operand)
    requires m !in d.immediates && m != "LXI" && m !in ADDRESS_MNEMONICS
    ensures Kept(m + " " + operand)
    ensures EmitLine(d, labels, m + " " + operand)
      == Ok(if d.opcodes(m + " " + operand).Some? then [d.opcodes(m + " " + operand).value] else [])
  {
    TwoFields(m, operand);
  }

  /** The smaller table moves only into A, B and C. */
  lemma Src1MovTargets(key: string)
    requires |key| >= 5 && key[..4] == "MOV" + " "
    requires key[4] != 'A' && key[4] != 'B' && key[4] != 'C'
    ensures Src1Opcode(key).None?
  {
    assert key[0] == 'M' && key[1] == 'O' && key[2] == 'V' && key[3] == ' ';
  }

  /** In the smaller variant `MOV D,A` and every other move into a
      register past C assembles to nothing. */
  lemma Src1MovOnlyToABC(labels: map<string, int>, operand: string)
    requires IsWord(operand)
    requires operand[0] != 'A' && operand[0] != 'B' && operand[0] != 'C'
    ensures Kept("MOV" + " " + operand)
    ensures EmitLine(SRC1_DIALECT, labels, "MOV" + " " + operand) == Ok([])
  {
    assert IsWord("MOV") by { assert !IsSpace('M') && !IsSpace('O') && !IsSpace('V'); }
    var key := "MOV" + " " + operand;
    assert key[..4] == "MOV" + " " && key[4] == operand[0];
    Src1MovTargets(key);
    RegisterLine(SRC1_DIALECT, labels, "MOV", operand);
  }

  /** The smaller table has no INX or DCX entries. */
  lemma Src1HasNoPairCounting(key: string)
    requires |key| >= 3 && (key[..3] == "INX" || key[..3] == "DCX")
    ensures Src1Opcode(key).None?
  {
    assert key[1] == 'N' || key[1] == 'C';
    assert key[2] == 'X';
  }

  /** In the smaller variant `INX rp` and `DCX rp` assemble to nothing. */
  lemma Src1DropsPairCounting(labels: map<string, int>, m: string, pair: string)
    requires (m == "INX" || m == "DCX") && IsWord(pair)
    ensures Kept(m + " " + pair)
    ensures EmitLine(SRC1_DIALECT, labels, m + " " + pair) == Ok([])
  {
    assert IsWord(m) by { assert !IsSpace(m[0]) && !IsSpace(m[1]) && !IsSpace('X'); }
    var key := m + " " + pair;
    assert key[..3] == m;
    Src1HasNoPairCounting(key);
    RegisterLine(SRC1_DIALECT, labels, m, pair);
  }
}

=== FILE: state.dfy ===
/** The processor state: seven 8-bit registers, the program counter, the
    stack pointer, the five flags and the control bits, plus the machine
    (processor and memory together) that one instruction transforms. */
module State {
  import opened Bits
  import opened ALU
  import opened Memory

  datatype Reg = A | B | C | D | E | H | L

  /** The three register pairs, named by their high register. */
  datatype Pair = BC | DE | HL

  /** The stack pointer is a plain integer: `push_stack` and `pop_stack`
      move it by two without masking, so it can leave [0, 0xFFFF]. */
  datatype Cpu = Cpu(
    a: byte, b: byte, c: byte, d: byte, e: byte, h: byte, l: byte,
    pc: u16, sp: int, flags: Flags, halted: bool, interruptEnabled: bool)
  {
    function Get(r: Reg): byte
    {
      match r
      case A => a
      case B => b
      case C => c
      case D => d
      case E => e
      case H => h
      case L => l
    }

    function Set(r: Reg, v: byte): (s: Cpu)
      ensures s.Get(r) == v
      ensures forall q :: q != r ==> s.Get(q) == Get(q)
      ensures s.pc == pc && s.sp == sp && s.flags == flags
      ensures s.halted == halted && s.interruptEnabled == interruptEnabled
    {
      match r
      case A => this.(a := v)
      case B => this.(b := v)
      case C => this.(c := v)
      case D => this.(d := v)
      case E => this.(e := v)
      case H => this.(h := v)
      case L => this.(l := v)
    }

    /** `get_register_pair`: high register in bits 15..8, low in 7..0. */
    function GetPair(p: Pair): (v: u16)
    {
      Get(High(p)) as int * 0x100 + Get(Low(p)) as int
    }

    /** `set_register_pair`: bits 15..8 of `v` to the high register and
        bits 7..0 to the low one; higher bits of `v` are dropped. */
    function SetPair(p: Pair, v: int): (s: Cpu)
      ensures s.Get(High(p)) == (v / 0x100) % 0x100
      ensures s.Get(Low(p)) == v % 0x100
      ensures forall q :: q != High(p) && q != Low(p) ==> s.Get(q) == Get(q)
      ensures s.pc == pc && s.sp == sp && s.flags == flags
      ensures s.halted == halted && s.interruptEnabled == interruptEnabled
    {
      Set(High(p), (v / 0x100) % 0x100).Set(Low(p), v % 0x100)
    }
  }

  function High(p: Pair): Reg
  {
    match p
    case BC => B
    case DE => D
    case HL => H
  }

  function Low(p: Pair): Reg
  {
    match p
    case BC => C
    case DE => E
    case HL => L
  }

  /** The processor together with the memory it runs against. */
  datatype Machine = Machine(cpu: Cpu, mem: Mem)

  /** `CPU.__init__`: registers zero, flags clear, PC at the conventional
      program origin 0x8000, SP at the top of memory, running. */
  function Init(): (s: Cpu)
    ensures forall r :: s.Get(r) == 0
    ensures s.pc == 0x8000 && s.sp == 0xFFFF
    ensures !s.flags.s && !s.flags.z && !s.flags.ac && !s.flags.p && !s.flags.cy
    ensures !s.halted && !s.interruptEnabled
  {
    Cpu(0, 0, 0, 0, 0, 0, 0, 0x8000, 0xFFFF,
        Flags(s := false, z := false, ac := false, p := false, cy := false), false, false)
  }

  /** A register pair written and read back yields the value's low sixteen
      bits, and writing back what was read changes nothing. */
  lemma PairRoundTrip(s: Cpu, p: Pair, v: int)
    ensures s.SetPair(p, v).GetPair(p) == v % 0x1_0000
    ensures s.SetPair(p, s.GetPair(p)) == s
  {
    LittleEndianSplit(v);
    var w := s.GetPair(p);
    assert (w / 0x100) % 0x100 == s.Get(High(p));
    assert w % 0x100 == s.Get(Low(p));
  }
}

=== FILE: tables.dfy ===
/** The opcode tables of the two assembler variants, and how they relate
    to each other and to the processor's own opcode table. */
module AsmTables {
  import opened Wrappers
  import Opcodes
  import opened Assembler

  /** `Src/Core/Assembler.py`'s `opcodes` dictionary, entry for entry. */
  function SrcOpcode(key: string): Option<int>
  {
    match key
    case "MOV A,A" => Some(0x7F)
    case "MOV A,B" => Some(0x78)
    case "MOV A,C" => Some(0x79)
    case "MOV A,D" => Some(0x7A)
    case "MOV A,E" => Some(0x7B)
    case "MOV A,H" => Some(0x7C)
    case "MOV A,L" => Some(0x7D)
    case "MOV A,M" => Some(0x7E)
    case "MOV B,A" => Some(0x47)
    case "MOV B,B" => Some(0x40)
    case "MOV B,C" => Some(0x41)
    case "MOV B,D" => Some(0x42)
    case "MOV B,E" => Some(0x43)
    case "MOV B,H" => Some(0x44)
    case "MOV B,L" => Some(0x45)
    case "MOV B,M" => Some(0x46)
    case "MOV C,A" => Some(0x4F)
    case "MOV C,B" => Some(0x48)
    case "MOV C,C" => Some(0x49)
    case "MOV C,D" => Some(0x4A)
    case "MOV C,E" => Some(0x4B)
    case "MOV C,H" => Some(0x4C)
    case "MOV C,L" => Some(0x4D)
    case "MOV C,M" => Some(0x4E)
    case "MOV D,A" => Some(0x57)
    case "MOV D,B" => Some(0x50)
    case "MOV D,C" => Some(0x51)
    case "MOV D,D" => Some(0x52)
    case "MOV D,E" => Some(0x53)
    case "MOV D,H" => Some(0x54)
    case "MOV D,L" => Some(0x55)
    case "MOV D,M" => Some(0x56)
    case "MOV E,A" => Some(0x5F)
    case "MOV E,B" => Some(0x58)
    case "MOV E,C" => Some(0x59)
    case "MOV E,D" => Some(0x5A)
    case "MOV E,E" => Some(0x5B)
    case "MOV E,H" => Some(0x5C)
    case "MOV E,L" => Some(0x5D)
    case "MOV E,M" => Some(0x5E)
    case "MOV H,A" => Some(0x67)
    case "MOV H,B" => Some(0x60)
    case "MOV H,C" => Some(0x61)
    case "MOV H,D" => Some(0x62)
    case "MOV H,E" => Some(0x63)
    case "MOV H,H" => Some(0x64)
    case "MOV H,L" => Some(0x65)
    case "MOV H,M" => Some(0x66)
    case "MOV L,A" => Some(0x6F)
    case "MOV L,B" => Some(0x68)
    case "MOV L,C" => Some(0x69)
    case "MOV L,D" => Some(0x6A)
    case "MOV L,E" => Some(0x6B)
    case "MOV L,H" => Some(0x6C)
    case "MOV L,L" => Some(0x6D)
    case "MOV L,M" => Some(0x6E)
    case "MOV M,A" => Some(0x77)
    case "MOV M,B" => Some(0x70)
    case "MOV M,C" => Some(0x71)
    case "MOV M,D" => Some(0x72)
    case "MOV M,E" => Some(0x73)
    case "MOV M,H" => Some(0x74)
    case "MOV M,L" => Some(0x75)
    case "MVI A" => Some(0x3E)
    case "MVI B" => Some(0x06)
    case "MVI C" => Some(0x0E)
    case "MVI D" => Some(0x16)
    case "MVI E" => Some(0x1E)
    case "MVI H" => Some(0x26)
    case "MVI L" => Some(0x2E)
    case "MVI M" => Some(0x36)
    case "LXI B" => Some(0x01)
    case "LXI D" => Some(0x11)
    case "LXI H" => Some(0x21)
    case "LXI SP" => Some(0x31)
    case "LDA" => Some(0x3A)
    case "STA" => Some(0x32)
    case "LHLD" => Some(0x2A)
    case "SHLD" => Some(0x22)
    case "ADD A" => Some(0x87)
    case "ADD B" => Some(0x80)
    case "ADD C" => Some(0x81)
    case "ADD D" => Some(0x82)
    case "ADD E" => Some(0x83)
    case "ADD H" => Some(0x84)
    case "ADD L" => Some(0x85)
    case "ADD M" => Some(0x86)
    case "ADI" => Some(0xC6)
    case "ADC A" => Some(0x8F)
    case "ADC B" => Some(0x88)
    case "ADC C" => Some(0x89)
    case "ADC D" => Some(0x8A)
    case "ADC E" => Some(0x8B)
    case "ADC H" => Some(0x8C)
    case "ADC L" => Some(0x8D)
    case "ADC M" => Some(0x8E)
    case "SUB A" => Some(0x97)
    case "SUB B" => Some(0x90)
    case "SUB C" => Some(0x91)
    case "SUB D" => Some(0x92)
    case "SUB E" => Some(0x93)
    case "SUB H" => Some(0x94)
    case "SUB L" => Some(0x95)
    case "SUB M" => Some(0x96)
    case "ANA A" => Some(0xA7)
    case "ANA B" => Some(0xA0)
    case "ANA C" => Some(0xA1)
    case "ANA D" => Some(0xA2)
    case "ANA E" => Some(0xA3)
    case "ANA H" => Some(0xA4)
    case "ANA L" => Some(0xA5)
    case "ANA M" => Some(0xA6)
    case "ORA A" => Some(0xB7)
    case "ORA B" => Some(0xB0)
    case "ORA C" => Some(0xB1)
    case "ORA D" => Some(0xB2)
    case "ORA E" => Some(0xB3)
    case "ORA H" => Some(0xB4)
    case "ORA L" => Some(0xB5)
    case "ORA M" => Some(0xB6)
    case "INR A" => Some(0x3C)
    case "INR B" => Some(0x04)
    case "INR C" => Some(0x0C)
    case "INR D" => Some(0x14)
    case "INR E" => Some(0x1C)
    case "INR H" => Some(0x24)
    case "INR L" => Some(0x2C)
    case "INR M" => Some(0x34)
    case "INX B" => Some(0x03)
    case "INX D" => Some(0x13)
    case "INX H" => Some(0x23)
    case "INX SP" => Some(0x33)
    case "DCR A" => Some(0x3D)
    case "DCR B" => Some(0x05)
    case "DCR C" => Some(0x0D)
    case "DCR D" => Some(0x15)
    case "DCR E" => Some(0x1D)
    case "DCR H" => Some(0x25)
    case "DCR L" => Some(0x2D)
    case "DCR M" => Some(0x35)
    case "DCX B" => Some(0x0B)
    case "DCX D" => Some(0x1B)
    case "DCX H" => Some(0x2B)
    case "DCX SP" => Some(0x3B)
    case "JMP" => Some(0xC3)
    case "JZ" => Some(0xCA)
    case "JNZ" => Some(0xC2)
    case "JC" => Some(0xDA)
    case "JNC" => Some(0xD2)
    case "CALL" => Some(0xCD)
    case "RET" => Some(0xC9)
    case "PUSH B" => Some(0xC5)
    case "PUSH D" => Some(0xD5)
    case "PUSH H" => Some(0xE5)
    case "PUSH PSW" => Some(0xF5)
    case "POP B" => Some(0xC1)
    case "POP D" => Some(0xD1)
    case "POP H" => Some(0xE1)
    case "POP PSW" => Some(0xF1)
    case "CMP A" => Some(0xBF)
    case "CMP B" => Some(0xB8)
    case "CMP C" => Some(0xB9)
    case "CMP D" => Some(0xBA)
    case "CMP E" => Some(0xBB)
    case "CMP H" => Some(0xBC)
    case "CMP L" => Some(0xBD)
    case "CMP M" => Some(0xBE)
    case "CPI" => Some(0xFE)
    case "HLT" => Some(0x76)
    case "NOP" => Some(0x00)
    case "SUI" => Some(0xD6)
    case "SBB A" => Some(0x9F)
    case "SBB B" => Some(0x98)
    case "SBB C" => Some(0x99)
    case "SBB D" => Some(0x9A)
    case "SBB E" => Some(0x9B)
    case "SBB H" => Some(0x9C)
    case "SBB L" => Some(0x9D)
    case "SBB M" => Some(0x9E)
    case "XRA A" => Some(0xAF)
    case "XRA B" => Some(0xA8)
    case "XRA C" => Some(0xA9)
    case "XRA D" => Some(0xAA)
    case "XRA E" => Some(0xAB)
    case "XRA H" => Some(0xAC)
    case "XRA L" => Some(0xAD)
    case "XRA M" => Some(0xAE)
    case "RLC" => Some(0x07)
    case "RRC" => Some(0x0F)
    case "RAL" => Some(0x17)
    case "RAR" => Some(0x1F)
    case "DAA" => Some(0x27)
    case "CMA" => Some(0x2F)
    case "STC" => Some(0x37)
    case "CMC" => Some(0x3F)
    case "EI" => Some(0xFB)
    case "DI" => Some(0xF3)
    case "RIM" => Some(0x20)
    case "SIM" => Some(0x30)
    case _ => None
  }

  /** `Src1/Core/Assembler.py`'s smaller `opcodes` dictionary, entry for entry. */
  function Src1Opcode(key: string): Option<int>
  {
    match key
    case "MOV A,A" => Some(0x7F)
    case "MOV A,B" => Some(0x78)
    case "MOV A,C" => Some(0x79)
    case "MOV A,D" => Some(0x7A)
    case "MOV A,E" => Some(0x7B)
    case "MOV A,H" => Some(0x7C)
    case "MOV A,L" => Some(0x7D)
    case "MOV A,M" => Some(0x7E)
    case "MOV B,A" => Some(0x47)
    case "MOV B,B" => Some(0x40)
    case "MOV B,C" => Some(0x41)
    case "MOV B,D" => Some(0x42)
    case "MOV B,E" => Some(0x43)
    case "MOV B,H" => Some(0x44)
    case "MOV B,L" => Some(0x45)
    case "MOV B,M" => Some(0x46)
    case "MOV C,A" => Some(0x4F)
    case "MOV C,B" => Some(0x48)
    case "MOV C,C" => Some(0x49)
    case "MOV C,D" => Some(0x4A)
    case "MOV C,E" => Some(0x4B)
    case "MOV C,H" => Some(0x4C)
    case "MOV C,L" => Some(0x4D)
    case "MOV C,M" => Some(0x4E)
    case "MVI A" => Some(0x3E)
    case "MVI B" => Some(0x06)
    case "MVI C" => Some(0x0E)
    case "MVI D" => Some(0x16)
    case "MVI E" => Some(0x1E)
    case "MVI H" => Some(0x26)
    case "MVI L" => Some(0x2E)
    case "MVI M" => Some(0x36)
    case "LXI B" => Some(0x01)
    case "LXI D" => Some(0x11)
    case "LXI H" => Some(0x21)
    case "LXI SP" => Some(0x31)
    case "LDA" => Some(0x3A)
    case "STA" => Some(0x32)
    case "LHLD" => Some(0x2A)
    case "SHLD" => Some(0x22)
    case "ADD A" => Some(0x87)
    case "ADD B" => Some(0x80)
    case "ADD C" => Some(0x81)
    case "ADD D" => Some(0x82)
    case "ADD E" => Some(0x83)
    case "ADD H" => Some(0x84)
    case "ADD L" => Some(0x85)
    case "ADD M" => Some(0x86)
    case "ADI" => Some(0xC6)
    case "ADC A" => Some(0x8F)
    case "ADC B" => Some(0x88)
    case "ADC C" => Some(0x89)
    case "ADC D" => Some(0x8A)
    case "ADC E" => Some(0x8B)
    case "ADC H" => Some(0x8C)
    case "ADC L" => Some(0x8D)
    case "ADC M" => Some(0x8E)
    case "SUB A" => Some(0x97)
    case "SUB B" => Some(0x90)
    case "SUB C" => Some(0x91)
    case "SUB D" => Some(0x92)
    case "SUB E" => Some(0x93)
    case "SUB H" => Some(0x94)
    case "SUB L" => Some(0x95)
    case "SUB M" => Some(0x96)
    case "ANA A" => Some(0xA7)
    case "ANA B" => Some(0xA0)
    case "ANA C" => Some(0xA1)
    case "ANA D" => Some(0xA2)
    case "ANA E" => Some(0xA3)
    case "ANA H" => Some(0xA4)
    case "ANA L" => Some(0xA5)
    case "ANA M" => Some(0xA6)
    case "ORA A" => Some(0xB7)
    case "ORA B" => Some(0xB0)
    case "ORA C" => Some(0xB1)
    case "ORA D" => Some(0xB2)
    case "ORA E" => Some(0xB3)
    case "ORA H" => Some(0xB4)
    case "ORA L" => Some(0xB5)
    case "ORA M" => Some(0xB6)
    case "INR A" => Some(0x3C)
    case "INR B" => Some(0x04)
    case "INR C" => Some(0x0C)
    case "INR D" => Some(0x14)
    case "INR E" => Some(0x1C)
    case "INR H" => Some(0x24)
    case "INR L" => Some(0x2C)
    case "INR M" => Some(0x34)
    case "DCR A" => Some(0x3D)
    case "DCR B" => Some(0x05)
    case "DCR C" => Some(0x0D)
    case "DCR D" => Some(0x15)
    case "DCR E" => Some(0x1D)
    case "DCR H" => Some(0x25)
    case "DCR L" => Some(0x2D)
    case "DCR M" => Some(0x35)
    case "JMP" => Some(0xC3)
    case "JZ" => Some(0xCA)
    case "JNZ" => Some(0xC2)
    case "JC" => Some(0xDA)
    case "JNC" => Some(0xD2)
    case "CALL" => Some(0xCD)
    case "RET" => Some(0xC9)
    case "PUSH B" => Some(0xC5)
    case "PUSH D" => Some(0xD5)
    case "PUSH H" => Some(0xE5)
    case "PUSH PSW" => Some(0xF5)
    case "POP B" => Some(0xC1)
    case "POP D" => Some(0xD1)
    case "POP H" => Some(0xE1)
    case "POP PSW" => Some(0xF1)
    case "CMP A" => Some(0xBF)
    case "CMP B" => Some(0xB8)
    case "CPI" => Some(0xFE)
    case "HLT" => Some(0x76)
    case "NOP" => Some(0x00)
    case _ => None
  }

  /** The larger variant: SUI counts as a two-byte immediate. */
  const SRC_DIALECT: Dialect := Dialect(SrcOpcode, ["MVI", "ADI", "CPI", "SUI"])

  /** The smaller variant: SUI is not among the immediates. */
  const SRC1_DIALECT: Dialect := Dialect(Src1Opcode, ["MVI", "ADI", "CPI"])

  /** What the smaller table holds for a key, and that the larger table
      agrees and the processor has a handler for the opcode. */
  predicate Src1Entry(key: string)
  {
    Src1Opcode(key).Some? && SrcOpcode(key) == Src1Opcode(key)
    && 0 <= Src1Opcode(key).value < 0x100 && Opcodes.Decode(Src1Opcode(key).value).Some?
  }

  /** The smaller table's keys for the moves into A. */
  const SRC1_MOVES_TO_A: set<string> := {
      "MOV A,A", "MOV A,B", "MOV A,C", "MOV A,D", "MOV A,E", "MOV A,H", "MOV A,L", "MOV A,M"
    }

  /** The smaller table's keys for the moves into B. */
  const SRC1_MOVES_TO_B: set<string> := {
      "MOV B,A", "MOV B,B", "MOV B,C", "MOV B,D", "MOV B,E", "MOV B,H", "MOV B,L", "MOV B,M"
    }

  /** The smaller table's keys for the moves into C. */
  const SRC1_MOVES_TO_C: set<string> := {
      "MOV C,A", "MOV C,B", "MOV C,C", "MOV C,D", "MOV C,E", "MOV C,H", "MOV C,L", "MOV C,M"
    }

  /** The smaller table's keys for MVI. */
  const SRC1_IMMEDIATES: set<string> := {
      "MVI A", "MVI B", "MVI C", "MVI D", "MVI E", "MVI H", "MVI L", "MVI M"
    }

  /** The smaller table's keys for the pair and direct loads and stores. */
  const SRC1_WORDS: set<string> := {
      "LXI B", "LXI D", "LXI H", "LXI SP", "LDA", "STA", "LHLD", "SHLD"
    }

  /** The smaller table's keys for ADD and ADI. */
  const SRC1_ADDS: set<string> := {
      "ADD A", "ADD B", "ADD C", "ADD D", "ADD E", "ADD H", "ADD L", "ADD M",
      "ADI"
    }

  /** The smaller table's keys for ADC. */
  const SRC1_CARRY_ADDS: set<string> := {
      "ADC A", "ADC B", "ADC C", "ADC D", "ADC E", "ADC H", "ADC L", "ADC M"
    }

  /** The smaller table's keys for SUB. */
  const SRC1_SUBTRACTS: set<string> := {
      "SUB A", "SUB B", "SUB C", "SUB D", "SUB E", "SUB H", "SUB L", "SUB M"
    }

  /** The smaller table's keys for ANA. */
  const SRC1_ANDS: set<string> := {
      "ANA A", "ANA B", "ANA C", "ANA D", "ANA E", "ANA H", "ANA L", "ANA M"
    }

  /** The smaller table's keys for ORA. */
  const SRC1_ORS: set<string> := {
      "ORA A", "ORA B", "ORA C", "ORA D", "ORA E", "ORA H", "ORA L", "ORA M"
    }

  /** The smaller table's keys for INR. */
  const SRC1_INCREMENTS: set<string> := {
      "INR A", "INR B", "INR C", "INR D", "INR E", "INR H", "INR L", "INR M"
    }

  /** The smaller table's keys for DCR. */
  const SRC1_DECREMENTS: set<string> := {
      "DCR A", "DCR B", "DCR C", "DCR D", "DCR E", "DCR H", "DCR L", "DCR M"
    }

  /** The smaller table's keys for the jumps, CALL and RET. */
  const SRC1_BRANCHES: set<string> := {
      "JMP", "JZ", "JNZ", "JC", "JNC", "CALL", "RET"
    }

  /** The smaller table's keys for PUSH and POP. */
  const SRC1_STACK: set<string> := {
      "PUSH B", "PUSH D", "PUSH H", "PUSH PSW", "POP B", "POP D", "POP H", "POP PSW"
    }

  /** The smaller table's keys for the compares, HLT and NOP. */
  const SRC1_OTHERS: set<string> := {
      "CMP A", "CMP B", "CPI", "HLT", "NOP"
    }

  /** `MOV A,A`: the same opcode in both tables, and the CPU runs it. */
  lemma Src1MovAA()
    ensures Src1Entry("MOV A,A")
  {
  }

  /** `MOV A,B`: the same opcode in both tables, and the CPU runs it. */
  lemma Src1MovAB()
    ensures Src1Entry("MOV A,B")
  {
  }

  /** `MOV A,C`: the same opcode in both tables, and the CPU runs it. */
  lemma Src1MovAC()
    ensures Src1Entry("MOV A,C")
  {
  }

  /** `MOV A,D`: the same opcode in both tables, and the CPU runs it. */
  lemma Src1MovAD()
    ensures Src1Entry("MOV A,D")
  {
  }

  /** `MOV A,E`: the same opcode in both tables, and the CPU runs it. */
  lemma Src1MovAE()
    ensures Src1Entry("MOV A,E")
  {
  }

  /** `MOV A,H`: the same opcode in both tables, and the CPU runs it. */
  lemma Src1MovAH()
    ensures Src1Entry("MOV A,H")
  {
  }

  /** `MOV A,L`: the same opcode in both tables, and the CPU runs it. */
  lemma Src1MovAL()
    ensures Src1Entry("MOV A,L")
  {
  }

  /** `MOV A,M`: the same opcode in both tables, and the CPU runs it. */
  lemma Src1MovAM()
    ensures Src1Entry("MOV A,M")
  {
  }

  /** `MOV B,A`: the same opcode in both tables, and the CPU runs it. */
  lemma Src1MovBA()
    ensures Src1Entry("MOV B,A")
  {
  }

  /** `MOV B,B`: the same opcode in both tables, and the CPU runs it. */
  lemma Src1MovBB()
    ensures Src1Entry("MOV B,B")
  {
  }

  /** `MOV B,C`: the same opcode in both tables, and the CPU runs it. */
  lemma Src1MovBC()
    ensures Src1Entry("MOV B,C")
  {
  }

  /** `MOV B,D`: the same opcode in both tables, and the CPU runs it. */
  lemma Src1MovBD()
    ensures Src1Entry("MOV B,D")
  {
  }

  /** `MOV B,E`: the same opcode in both tables, and the CPU runs it. */
  lemma Src1MovBE()
    ensures Src1Entry("MOV B,E")
  {
  }

  /** `MOV B,H`: the same opcode in both tables, and the CPU runs it. */
  lemma Src1MovBH()
    ensures Src1Entry("MOV B,H")
  {
  }

  /** `MOV B,L`: the same opcode in both tables, and the CPU runs it. */
  lemma Src1MovBL()
    ensures Src1Entry("MOV B,L")
  {
  }

  /** `MOV B,M`: the same opcode in both tables, and the CPU runs it. */
  lemma Src1MovBM()
    ensures Src1Entry("MOV B,M")
  {
  }

  /** `MOV C,A`: the same opcode in both tables, and the CPU runs it. */
  lemma Src1MovCA()
    ensures Src1Entry("MOV C,A")
  {
  }

  /** `MOV C,B`: the same opcode in both tables, and the CPU runs it. */
  lemma Src1MovCB()
    ensures Src1Entry("MOV C,B")
  {
  }

  /** `MOV C,C`: the same opcode in both tables, and the CPU runs it. */
  lemma Src1MovCC()
    ensures Src1Entry("MOV C,C")
  {
  }

  /** `MOV C,D`: the same opcode in both tables, and the CPU runs it. */
  lemma Src1MovCD()
    ensures Src1Entry("MOV C,D")
  {
  }

  /** `MOV C,E`: the same opcode in both tables, and the CPU runs it. */
  lemma Src1MovCE()
    ensures Src1Entry("MOV C,E")
  {
  }

  /** `MOV C,H`: the same opcode in both tables, and the CPU runs it. */
  lemma Src1MovCH()
    ensures Src1Entry("MOV C,H")
  {
  }

  /** `MOV C,L`: the same opcode in both tables, and the CPU runs it. */
  lemma Src1MovCL()
    ensures Src1Entry("MOV C,L")
  {
  }

  /** `MOV C,M`: the same opcode in both tables, and the CPU runs it. */
  lemma Src1MovCM()
    ensures Src1Entry("MOV C,M")
  {
  }

  /** `MVI A`: the same opcode in both tables, and the CPU runs it. */
  lemma Src1MviA()
    ensures Src1Entry("MVI A")
  {
  }

  /** `MVI B`: the same opcode in both tables, and the CPU runs it. */
  lemma Src1MviB()
    ensures Src1Entry("MVI B")
  {
  }

  /** `MVI C`: the same opcode in both tables, and the CPU runs it. */
  lemma Src1MviC()
    ensures Src1Entry("MVI C")
  {
  }

  /** `MVI D`: the same opcode in both tables, and the CPU runs it. */
  lemma Src1MviD()
    ensures Src1Entry("MVI D")
  {
  }

  /** `MVI E`: the same opcode in both tables, and the CPU runs it. */
  lemma Src1MviE()
    ensures Src1Entry("MVI E")
  {
  }

  /** `MVI H`: the same opcode in both tables, and the CPU runs it. */
  lemma Src1MviH()
    ensures Src1Entry("MVI H")
  {
  }

  /** `MVI L`: the same opcode in both tables, and the CPU runs it. */
  lemma Src1MviL()
    ensures Src1Entry("MVI L")
  {
  }

  /** `MVI M`: the same opcode in both tables, and the CPU runs it. */
  lemma Src1MviM()
    ensures Src1Entry("MVI M")
  {
  }

  /** `LXI B`: the same opcode in both tables, and the CPU runs it. */
  lemma Src1LxiB()
    ensures Src1Entry("LXI B")
  {
  }

  /** `LXI D`: the same opcode in both tables, and the CPU runs it. */
  lemma Src1LxiD()
    ensures Src1Entry("LXI D")
  {
  }

  /** `LXI H`: the same opcode in both tables, and the CPU runs it. */
  lemma Src1LxiH()
    ensures Src1Entry("LXI H")
  {
  }

  /** `LXI SP`: the same opcode in both tables, and the CPU runs it. */
  lemma Src1LxiSp()
    ensures Src1Entry("LXI SP")
  {
  }

  /** `LDA`: the same opcode in both tables, and the CPU runs it. */
  lemma Src1Lda()
    ensures Src1Entry("LDA")
  {
  }

  /** `STA`: the same opcode in both tables, and the CPU runs it. */
  lemma Src1Sta()
    ensures Src1Entry("STA")
  {
  }

  /** `LHLD`: the same opcode in both tables, and the CPU runs it. */
  lemma Src1Lhld()
    ensures Src1Entry("LHLD")
  {
  }

  /** `SHLD`: the same opcode in both tables, and the CPU runs it. */
  lemma Src1Shld()
    ensures Src1Entry("SHLD")
  {
  }

  /** `ADD A`: the same opcode in both tables, and the CPU runs it. */
  lemma Src1AddA()
    ensures Src1Entry("ADD A")
  {
  }

  /** `ADD B`: the same opcode in both tables, and the CPU runs it. */
  lemma Src1AddB()
    ensures Src1Entry("ADD B")
  {
  }

  /** `ADD C`: the same opcode in both tables, and the CPU runs it. */
  lemma Src1AddC()
    ensures Src1Entry("ADD C")
  {
  }

  /** `ADD D`: the same opcode in both tables, and the CPU runs it. */
  lemma Src1AddD()
    ensures Src1Entry("ADD D")
  {
  }

  /** `ADD E`: the same opcode in both tables, and the CPU runs it. */
  lemma Src1AddE()
    ensures Src1Entry("ADD E")
  {
  }

  /** `ADD H`: the same opcode in both tables, and the CPU runs it. */
  lemma Src1AddH()
    ensures Src1Entry("ADD H")
  {
  }

  /** `ADD L`: the same opcode in both tables, and the CPU runs it. */
  lemma Src1AddL()
    ensures Src1Entry("ADD L")
  {
  }

  /** `ADD M`: the same opcode in both tables, and the CPU runs it. */
  lemma Src1AddM()
    ensures Src1Entry("ADD M")
  {
  }

  /** `ADI`: the same opcode in both tables, and the CPU runs it. */
  lemma Src1Adi()
    ensures Src1Entry("ADI")
  {
  }

  /** `ADC A`: the same opcode in both tables, and the CPU runs it. */
  lemma Src1AdcA()
    ensures Src1Entry("ADC A")
  {
  }

  /** `ADC B`: the same opcode in both tables, and the CPU runs it. */
  lemma Src1AdcB()
    ensures Src1Entry("ADC B")
  {
  }

  /** `ADC C`: the same opcode in both tables, and the CPU runs it. */
  lemma Src1AdcC()
    ensures Src1Entry("ADC C")
  {
  }

  /** `ADC D`: the same opcode in both tables, and the CPU runs it. */
  lemma Src1AdcD()
    ensures Src1Entry("ADC D")
  {
  }

  /** `ADC E`: the same opcode in both tables, and the CPU runs it. */
  lemma Src1AdcE()
    ensures Src1Entry("ADC E")
  {
  }

  /** `ADC H`: the same opcode in both tables, and the CPU runs it. */
  lemma Src1AdcH()
    ensures Src1Entry("ADC H")
  {
  }

  /** `ADC L`: the same opcode in both tables, and the CPU runs it. */
  lemma Src1AdcL()
    ensures Src1Entry("ADC L")
  {
  }

  /** `ADC M`: the same opcode in both tables, and the CPU runs it. */
  lemma Src1AdcM()
    ensures Src1Entry("ADC M")
  {
  }

  /** `SUB A`: the same opcode in both tables, and the CPU runs it. */
  lemma Src1SubA()
    ensures Src1Entry("SUB A")
  {
  }

  /** `SUB B`: the same opcode in both tables, and the CPU runs it. */
  lemma Src1SubB()
    ensures Src1Entry("SUB B")
  {
  }

  /** `SUB C`: the same opcode in both tables, and the CPU runs it. */
  lemma Src1SubC()
    ensures Src1Entry("SUB C")
  {
  }

  /** `SUB D`: the same opcode in both tables, and the CPU runs it. */
  lemma Src1SubD()
    ensures Src1Entry("SUB D")
  {
  }

  /** `SUB E`: the same opcode in both tables, and the CPU runs it. */
  lemma Src1SubE()
    ensures Src1Entry("SUB E")
  {
  }

  /** `SUB H`: the same opcode in both tables, and the CPU runs it. */
  lemma Src1SubH()
    ensures Src1Entry("SUB H")
  {
  }

  /** `SUB L`: the same opcode in both tables, and the CPU runs it. */
  lemma Src1SubL()
    ensures Src1Entry("SUB L")
  {
  }

  /** `SUB M`: the same opcode in both tables, and the CPU runs it. */
  lemma Src1SubM()
    ensures Src1Entry("SUB M")
  {
  }

  /** `ANA A`: the same opcode in both tables, and the CPU runs it. */
  lemma Src1AnaA()
    ensures Src1Entry("ANA A")
  {
  }

  /** `ANA B`: the same opcode in both tables, and the CPU runs it. */
  lemma Src1AnaB()
    ensures Src1Entry("ANA B")
  {
  }

  /** `ANA C`: the same opcode in both tables, and the CPU runs it. */
  lemma Src1AnaC()
    ensures Src1Entry("ANA C")
  {
  }

  /** `ANA D`: the same opcode in both tables, and the CPU runs it. */
  lemma Src1AnaD()
    ensures Src1Entry("ANA D")
  {
  }

  /** `ANA E`: the same opcode in both tables, and the CPU runs it. */
  lemma Src1AnaE()
    ensures Src1Entry("ANA E")
  {
  }

  /** `ANA H`: the same opcode in both tables, and the CPU runs it. */
  lemma Src1AnaH()
    ensures Src1Entry("ANA H")
  {
  }

  /** `ANA L`: the same opcode in both tables, and the CPU runs it. */
  lemma Src1AnaL()
    ensures Src1Entry("ANA L")
  {
  }

  /** `ANA M`: the same opcode in both tables, and the CPU runs it. */
  lemma Src1AnaM()
    ensures Src1Entry("ANA M")
  {
  }

  /** `ORA A`: the same opcode in both tables, and the CPU runs it. */
  lemma Src1OraA()
    ensures Src1Entry("ORA A")
  {
  }

  /** `ORA B`: the same opcode in both tables, and the CPU runs it. */
  lemma Src1OraB()
    ensures Src1Entry("ORA B")
  {
  }

  /** `ORA C`: the same opcode in both tables, and the CPU runs it. */
  lemma Src1OraC()
    ensures Src1Entry("ORA C")
  {
  }

  /** `ORA D`: the same opcode in both tables, and the CPU runs it. */
  lemma Src1OraD()
    ensures Src1Entry("ORA D")
  {
  }

  /** `ORA E`: the same opcode in both tables, and the CPU runs it. */
  lemma Src1OraE()
    ensures Src1Entry("ORA E")
  {
  }

  /** `ORA H`: the same opcode in both tables, and the CPU runs it. */
  lemma Src1OraH()
    ensures Src1Entry("ORA H")
  {
  }

  /** `ORA L`: the same opcode in both tables, and the CPU runs it. */
  lemma Src1OraL()
    ensures Src1Entry("ORA L")
  {
  }

  /** `ORA M`: the same opcode in both tables, and the CPU runs it. */
  lemma Src1OraM()
    ensures Src1Entry("ORA M")
  {
  }

  /** `INR A`: the same opcode in both tables, and the CPU runs it. */
  lemma Src1InrA()
    ensures Src1Entry("INR A")
  {
  }

  /** `INR B`: the same opcode in both tables, and the CPU runs it. */
  lemma Src1InrB()
    ensures Src1Entry("INR B")
  {
  }

  /** `INR C`: the same opcode in both tables, and the CPU runs it. */
  lemma Src1InrC()
    ensures Src1Entry("INR C")
  {
  }

  /** `INR D`: the same opcode in both tables, and the CPU runs it. */
  lemma Src1InrD()
    ensures Src1Entry("INR D")
  {
  }

  /** `INR E`: the same opcode in both tables, and the CPU runs it. */
  lemma Src1InrE()
    ensures Src1Entry("INR E")
  {
  }

  /** `INR H`: the same opcode in both tables, and the CPU runs it. */
  lemma Src1InrH()
    ensures Src1Entry("INR H")
  {
  }

  /** `INR L`: the same opcode in both tables, and the CPU runs it. */
  lemma Src1InrL()
    ensures Src1Entry("INR L")
  {
  }

  /** `INR M`: the same opcode in both tables, and the CPU runs it. */
  lemma Src1InrM()
    ensures Src1Entry("INR M")
  {
  }

  /** `DCR A`: the same opcode in both tables, and the CPU runs it. */
  lemma Src1DcrA()
    ensures Src1Entry("DCR A")
  {
  }

  /** `DCR B`: the same opcode in both tables, and the CPU runs it. */
  lemma Src1DcrB()
    ensures Src1Entry("DCR B")
  {
  }

  /** `DCR C`: the same opcode in both tables, and the CPU runs it. */
  lemma Src1DcrC()
    ensures Src1Entry("DCR C")
  {
  }

  /** `DCR D`: the same opcode in both tables, and the CPU runs it. */
  lemma Src1DcrD()
    ensures Src1Entry("DCR D")
  {
  }

  /** `DCR E`: the same opcode in both tables, and the CPU runs it. */
  lemma Src1DcrE()
    ensures Src1Entry("DCR E")
  {
  }

  /** `DCR H`: the same opcode in both tables, and the CPU runs it. */
  lemma Src1DcrH()
    ensures Src1Entry("DCR H")
  {
  }

  /** `DCR L`: the same opcode in both tables, and the CPU runs it. */
  lemma Src1DcrL()
    ensures Src1Entry("DCR L")
  {
  }

  /** `DCR M`: the same opcode in both tables, and the CPU runs it. */
  lemma Src1DcrM()
    ensures Src1Entry("DCR M")
  {
  }

  /** `JMP`: the same opcode in both tables, and the CPU runs it. */
  lemma Src1Jmp()
    ensures Src1Entry("JMP")
  {
  }

  /** `JZ`: the same opcode in both tables, and the CPU runs it. */
  lemma Src1Jz()
    ensures Src1Entry("JZ")
  {
  }

  /** `JNZ`: the same opcode in both tables, and the CPU runs it. */
  lemma Src1Jnz()
    ensures Src1Entry("JNZ")
  {
  }

  /** `JC`: the same opcode in both tables, and the CPU runs it. */
  lemma Src1Jc()
    ensures Src1Entry("JC")
  {
  }

  /** `JNC`: the same opcode in both tables, and the CPU runs it. */
  lemma Src1Jnc()
    ensures Src1Entry("JNC")
  {
  }

  /** `CALL`: the same opcode in both tables, and the CPU runs it. */
  lemma Src1Call()
    ensures Src1Entry("CALL")
  {
  }

  /** `RET`: the same opcode in both tables, and the CPU runs it. */
  lemma Src1Ret()
    ensures Src1Entry("RET")
  {
  }

  /** `PUSH B`: the same opcode in both tables, and the CPU runs it. */
  lemma Src1PushB()
    ensures Src1Entry("PUSH B")
  {
  }

  /** `PUSH D`: the same opcode in both tables, and the CPU runs it. */
  lemma Src1PushD()
    ensures Src1Entry("PUSH D")
  {
  }

  /** `PUSH H`: the same opcode in both tables, and the CPU runs it. */
  lemma Src1PushH()
    ensures Src1Entry("PUSH H")
  {
  }

  /** `PUSH PSW`: the same opcode in both tables, and the CPU runs it. */
  lemma Src1PushPsw()
    ensures Src1Entry("PUSH PSW")
  {
  }

  /** `POP B`: the same opcode in both tables, and the CPU runs it. */
  lemma Src1PopB()
    ensures Src1Entry("POP B")
  {
  }

  /** `POP D`: the same opcode in both tables, and the CPU runs it. */
  lemma Src1PopD()
    ensures Src1Entry("POP D")
  {
  }

  /** `POP H`: the same opcode in both tables, and the CPU runs it. */
  lemma Src1PopH()
    ensures Src1Entry("POP H")
  {
  }

  /** `POP PSW`: the same opcode in both tables, and the CPU runs it. */
  lemma Src1PopPsw()
    ensures Src1Entry("POP PSW")
  {
  }

  /** `CMP A`: the same opcode in both tables, and the CPU runs it. */
  lemma Src1CmpA()
    ensures Src1Entry("CMP A")
  {
  }

  /** `CMP B`: the same opcode in both tables, and the CPU runs it. */
  lemma Src1CmpB()
    ensures Src1Entry("CMP B")
  {
  }

  /** `CPI`: the same opcode in both tables, and the CPU runs it. */
  lemma Src1Cpi()
    ensures Src1Entry("CPI")
  {
  }

  /** `HLT`: the same opcode in both tables, and the CPU runs it. */
  lemma Src1Hlt()
    ensures Src1Entry("HLT")
  {
  }

  /** `NOP`: the same opcode in both tables, and the CPU runs it. */
  lemma Src1Nop()
    ensures Src1Entry("NOP")
  {
  }

  lemma Src1MovesToA(key: string)
    requires key in SRC1_MOVES_TO_A
    ensures Src1Entry(key)
  {
    Src1MovAA();
    Src1MovAB();
    Src1MovAC();
    Src1MovAD();
    Src1MovAE();
    Src1MovAH();
    Src1MovAL();
    Src1MovAM();
  }

  lemma Src1MovesToB(key: string)
    requires key in SRC1_MOVES_TO_B
    ensures Src1Entry(key)
  {
    Src1MovBA();
    Src1MovBB();
    Src1MovBC();
    Src1MovBD();
    Src1MovBE();
    Src1MovBH();
    Src1MovBL();
    Src1MovBM();
  }

  lemma Src1MovesToC(key: string)
    requires key in SRC1_MOVES_TO_C
    ensures Src1Entry(key)
  {
    Src1MovCA();
    Src1MovCB();
    Src1MovCC();
    Src1MovCD();
    Src1MovCE();
    Src1MovCH();
    Src1MovCL();
    Src1MovCM();
  }

  lemma Src1Immediates(key: string)
    requires key in SRC1_IMMEDIATES
    ensures Src1Entry(key)
  {
    Src1MviA();
    Src1MviB();
    Src1MviC();
    Src1MviD();
    Src1MviE();
    Src1MviH();
    Src1MviL();
    Src1MviM();
  }

  lemma Src1Words(key: string)
    requires key in SRC1_WORDS
    ensures Src1Entry(key)
  {
    Src1LxiB();
    Src1LxiD();
    Src1LxiH();
    Src1LxiSp();
    Src1Lda();
    Src1Sta();
    Src1Lhld();
    Src1Shld();
  }

  lemma Src1Adds(key: string)
    requires key in SRC1_ADDS
    ensures Src1Entry(key)
  {
    Src1AddA();
    Src1AddB();
    Src1AddC();
    Src1AddD();
    Src1AddE();
    Src1AddH();
    Src1AddL();
    Src1AddM();
    Src1Adi();
  }

  lemma Src1CarryAdds(key: string)
    requires key in SRC1_CARRY_ADDS
    ensures Src1Entry(key)
  {
    Src1AdcA();
    Src1AdcB();
    Src1AdcC();
    Src1AdcD();
    Src1AdcE();
    Src1AdcH();
    Src1AdcL();
    Src1AdcM();
  }

  lemma Src1Subtracts(key: string)
    requires key in SRC1_SUBTRACTS
    ensures Src1Entry(key)
  {
    Src1SubA();
    Src1SubB();
    Src1SubC();
    Src1SubD();
    Src1SubE();
    Src1SubH();
    Src1SubL();
    Src1SubM();
  }

  lemma Src1Ands(key: string)
    requires key in SRC1_ANDS
    ensures Src1Entry(key)
  {
    Src1AnaA();
    Src1AnaB();
    Src1AnaC();
    Src1AnaD();
    Src1AnaE();
    Src1AnaH();
    Src1AnaL();
    Src1AnaM();
  }

  lemma Src1Ors(key: string)
    requires key in SRC1_ORS
    ensures Src1Entry(key)
  {
    Src1OraA();
    Src1OraB();
    Src1OraC();
    Src1OraD();
    Src1OraE();
    Src1OraH();
    Src1OraL();
    Src1OraM();
  }

  lemma Src1Increments(key: string)
    requires key in SRC1_INCREMENTS
    ensures Src1Entry(key)
  {
    Src1InrA();
    Src1InrB();
    Src1InrC();
    Src1InrD();
    Src1InrE();
    Src1InrH();
    Src1InrL();
    Src1InrM();
  }

  lemma Src1Decrements(key: string)
    requires key in SRC1_DECREMENTS
    ensures Src1Entry(key)
  {
    Src1DcrA();
    Src1DcrB();
    Src1DcrC();
    Src1DcrD();
    Src1DcrE();
    Src1DcrH();
    Src1DcrL();
    Src1DcrM();
  }

  lemma Src1Branches(key: string)
    requires key in SRC1_BRANCHES
    ensures Src1Entry(key)
  {
    Src1Jmp();
    Src1Jz();
    Src1Jnz();
    Src1Jc();
    Src1Jnc();
    Src1Call();
    Src1Ret();
  }

  lemma Src1Stack(key: string)
    requires key in SRC1_STACK
    ensures Src1Entry(key)
  {
    Src1PushB();
    Src1PushD();
    Src1PushH();
    Src1PushPsw();
    Src1PopB();
    Src1PopD();
    Src1PopH();
    Src1PopPsw();
  }

  lemma Src1Others(key: string)
    requires key in SRC1_OTHERS
    ensures Src1Entry(key)
  {
    Src1CmpA();
    Src1CmpB();
    Src1Cpi();
    Src1Hlt();
    Src1Nop();
  }

  /** Every key of the smaller table is in the larger one with the same
      opcode, and the processor has a handler for that opcode. */
  lemma Src1IsSubTable(key: string)
    ensures Src1Opcode(key).Some? ==> Src1Entry(key)
  {
    if key in SRC1_MOVES_TO_A {
      Src1MovesToA(key);
    } else if key in SRC1_MOVES_TO_B {
      Src1MovesToB(key);
    } else if key in SRC1_MOVES_TO_C {
      Src1MovesToC(key);
    } else if key in SRC1_IMMEDIATES {
      Src1Immediates(key);
    } else if key in SRC1_WORDS {
      Src1Words(key);
    } else if key in SRC1_ADDS {
      Src1Adds(key);
    } else if key in SRC1_CARRY_ADDS {
      Src1CarryAdds(key);
    } else if key in SRC1_SUBTRACTS {
      Src1Subtracts(key);
    } else if key in SRC1_ANDS {
      Src1Ands(key);
    } else if key in SRC1_ORS {
      Src1Ors(key);
    } else if key in SRC1_INCREMENTS {
      Src1Increments(key);
    } else if key in SRC1_DECREMENTS {
      Src1Decrements(key);
    } else if key in SRC1_BRANCHES {
      Src1Branches(key);
    } else if key in SRC1_STACK {
      Src1Stack(key);
    } else if key in SRC1_OTHERS {
      Src1Others(key);
    }
  }

  /** SUI and its neighbours in the larger table assemble to opcodes the
      processor has no handler for. */
  lemma UnwiredEntries()
    ensures SrcOpcode("SUI") == Some(0xD6) && Opcodes.Decode(0xD6).None?
    ensures SrcOpcode("SBB B") == Some(0x98) && Opcodes.Decode(0x98).None?
    ensures SrcOpcode("XRA A") == Some(0xAF) && Opcodes.Decode(0xAF).None?
    ensures SrcOpcode("CMP C") == Some(0xB9) && Opcodes.Decode(0xB9).None?
    ensures SrcOpcode("STC") == Some(0x37) && Opcodes.Decode(0x37).None?
  {
    UnwiredSui();
    UnwiredSbbB();
    UnwiredXraA();
    UnwiredCmpC();
    UnwiredStc();
  }

  lemma UnwiredSui()
    ensures SrcOpcode("SUI") == Some(0xD6) && Opcodes.Decode(0xD6).None?
  {
  }

  lemma UnwiredSbbB()
    ensures SrcOpcode("SBB B") == Some(0x98) && Opcodes.Decode(0x98).None?
  {
  }

  lemma UnwiredXraA()
    ensures SrcOpcode("XRA A") == Some(0xAF) && Opcodes.Decode(0xAF).None?
  {
  }

  lemma UnwiredCmpC()
    ensures SrcOpcode("CMP C") == Some(0xB9) && Opcodes.Decode(0xB9).None?
  {
  }

  lemma UnwiredStc()
    ensures SrcOpcode("STC") == Some(0x37) && Opcodes.Decode(0x37).None?
  {
  }
}

=== FILE: text.dfy ===
/** The parts of Python's `str` the assembler relies on: whitespace,
    `strip()`, `split(sep)`, `split()` and `int(text, base)`, on strings
    modelled as sequences of characters. */
module Text {
  import opened Wrappers

  /** The characters `str.isspace()` accepts: what `strip()` removes and
      what `split()` with no argument splits on. */
  const WHITESPACE: set<char> := {
      '\U{20}', '\U{9}', '\U{A}', '\U{B}', '\U{C}', '\U{D}', '\U{1C}', '\U{1D}',
      '\U{1E}', '\U{1F}', '\U{85}', '\U{A0}', '\U{1680}', '\U{2000}', '\U{2001}', '\U{2002}',
      '\U{2003}', '\U{2004}', '\U{2005}', '\U{2006}', '\U{2007}', '\U{2008}', '\U{2009}', '\U{200A}',
      '\U{2028}', '\U{2029}', '\U{202F}', '\U{205F}', '\U{3000}'
    }

  predicate IsSpace(c: char)
  {
    c in WHITESPACE
  }

  predicate NoSpace(s: string)
  {
    forall k :: 0 <= k < |s| ==> !IsSpace(s[k])
  }

  /** A word: non-empty and free of whitespace, so `split()` keeps it
      whole. */
  predicate IsWord(w: string)
  {
    w != [] && NoSpace(w)
  }

  /** The characters of `s` that are not whitespace, in order. */
  function Visible(s: string): (r: string)
    ensures NoSpace(r)
  {
    if s == [] then []
    else (if IsSpace(s[0]) then [] else [s[0]]) + Visible(s[1..])
  }

  lemma {:induction false} VisibleAppend(a: string, b: string)
    ensures Visible(a + b) == Visible(a) + Visible(b)
    decreases |a|
  {
    if a != [] {
      assert (a + b)[1..] == a[1..] + b;
      VisibleAppend(a[1..], b);
    } else {
      assert a + b == b;
    }
  }

  lemma {:induction false} VisibleOfNoSpace(s: string)
    requires NoSpace(s)
    ensures Visible(s) == s
    decreases |s|
  {
    if s != [] {
      VisibleOfNoSpace(s[1..]);
      assert s == [s[0]] + s[1..];
    }
  }

  /** A string of nothing but whitespace has no visible character. */
  lemma {:induction false} BlankIsInvisible(s: string)
    requires forall k :: 0 <= k < |s| ==> IsSpace(s[k])
    ensures Visible(s) == []
    decreases |s|
  {
    if s != [] {
      BlankIsInvisible(s[1..]);
    }
  }

  /** `s.lstrip()`: the longest suffix of `s` that does not start with
      whitespace; everything dropped is whitespace. */
  function TrimLeft(s: string): (r: string)
    ensures |r| <= |s| && r == s[|s| - |r|..]
    ensures forall k :: 0 <= k < |s| - |r| ==> IsSpace(s[k])
    ensures r == [] || !IsSpace(r[0])
    ensures Visible(r) == Visible(s)
  {
    if |s| > 0 && IsSpace(s[0]) then
      var r := TrimLeft(s[1..]);
      DropLeadingSpace(s, r);
      r
    else s
  }

  /** One step of `TrimLeft`: a leading space dropped before the rest is
      trimmed is still a dropped space. */
  lemma DropLeadingSpace(s: string, r: string)
    requires |s| > 0 && IsSpace(s[0])
    requires |r| <= |s| - 1 && r == s[1..][|s| - 1 - |r|..]
    requires forall k :: 0 <= k < |s| - 1 - |r| ==> IsSpace(s[1..][k])
    requires Visible(r) == Visible(s[1..])
    ensures r == s[|s| - |r|..]
    ensures forall k :: 0 <= k < |s| - |r| ==> IsSpace(s[k])
    ensures Visible(r) == Visible(s)
  {
    assert s[1..][|s| - 1 - |r|..] == s[|s| - |r|..];
    forall k | 0 < k < |s| - |r|
      ensures IsSpace(s[k])
    {
      assert s[k] == s[1..][k - 1];
    }
  }

  /** `s.rstrip()`: the longest prefix of `s` that does not end with
      whitespace; everything dropped is whitespace. */
  function TrimRight(s: string): (r: string)
    ensures |r| <= |s| && r == s[..|r|]
    ensures forall k :: |r| <= k < |s| ==> IsSpace(s[k])
    ensures r == [] || !IsSpace(r[|r| - 1])
    ensures Visible(r) == Visible(s)
  {
    if |s| > 0 && IsSpace(s[|s| - 1]) then
      var t := s[..|s| - 1];
      var r := TrimRight(t);
      DropTrailingSpace(s, t, r);
      r
    else s
  }

  /** One step of `TrimRight`: a trailing space dropped before the rest is
      trimmed is still a dropped space. */
  lemma DropTrailingSpace(s: string, t: string, r: string)
    requires |s| > 0 && IsSpace(s[|s| - 1]) && t == s[..|s| - 1]
    requires |r| <= |t| && r == t[..|r|]
    requires forall k :: |r| <= k < |t| ==> IsSpace(t[k])
    requires Visible(r) == Visible(t)
    ensures r == s[..|r|]
    ensures forall k :: |r| <= k < |s| ==> IsSpace(s[k])
    ensures Visible(r) == Visible(s)
  {
    assert t[..|r|] == s[..|r|];
    forall k | |r| <= k < |t|
      ensures IsSpace(s[k])
    {
      assert s[k] == t[k];
    }
    TrailingSpaceInvisible(s);
  }

  /** A trailing space contributes nothing visible. */
  lemma TrailingSpaceInvisible(s: string)
    requires |s| > 0 && IsSpace(s[|s| - 1])
    ensures Visible(s) == Visible(s[..|s| - 1])
  {
    assert s == s[..|s| - 1] + [s[|s| - 1]];
    VisibleAppend(s[..|s| - 1], [s[|s| - 1]]);
  }

  /** `s.strip()`: neither end of the result is whitespace, and no
      character other than whitespace is lost. */
  function Strip(s: string): (r: string)
    ensures r == [] || (!IsSpace(r[0]) && !IsSpace(r[|r| - 1]))
    ensures |r| <= |s|
    ensures Visible(r) == Visible(s)
  {
    TrimRight(TrimLeft(s))
  }

  /** `strip()` of a string of whitespace is empty. */
  lemma StripBlank(s: string)
    requires forall k :: 0 <= k < |s| ==> IsSpace(s[k])
    ensures Strip(s) == []
  {
    BlankIsInvisible(s);
    InvisibleStartsBlank(Strip(s));
  }

  /** A string with nothing visible is empty or starts with whitespace. */
  lemma InvisibleStartsBlank(s: string)
    ensures Visible(s) == [] ==> s == [] || IsSpace(s[0])
  {
  }

  /** A string with no whitespace at either end is its own `strip()`, so
      stripping twice is stripping once. */
  lemma StripTrimmed(s: string)
    requires Trimmed(s)
    ensures Strip(s) == s
  {
  }

  lemma StripIdempotent(s: string)
    ensures Strip(Strip(s)) == Strip(s)
  {
    StripTrimmed(Strip(s));
  }

  /** Nothing but whitespace. */
  predicate AllSpace(s: string)
  {
    forall k :: 0 <= k < |s| ==> IsSpace(s[k])
  }

  /** Neither end of `m` is whitespace. */
  predicate Trimmed(m: string)
  {
    m == [] || (!IsSpace(m[0]) && !IsSpace(m[|m| - 1]))
  }

  /** The whitespace `strip()` removes from the front of `s`. */
  function Lead(s: string): string
  {
    s[..|s| - |TrimLeft(s)|]
  }

  /** The whitespace `strip()` removes from the back of `s`. */
  function Trail(s: string): string
  {
    TrimLeft(s)[|Strip(s)|..]
  }

  /** `strip()` keeps one contiguous piece of `s`: what it cuts off on
      either side is whitespace and nothing else. */
  lemma StripSplits(s: string)
    ensures AllSpace(Lead(s)) && AllSpace(Trail(s))
    ensures s == Lead(s) + Strip(s) + Trail(s)
  {
    CutsAreBlank(s, TrimLeft(s), Strip(s));
  }

  /** Cutting whitespace off the left of `s` (leaving `l`) and then off the
      right (leaving `r`) splits `s` into blank margins around `r`. */
  lemma CutsAreBlank(s: string, l: string, r: string)
    requires |l| <= |s| && l == s[|s| - |l|..]
    requires forall k :: 0 <= k < |s| - |l| ==> IsSpace(s[k])
    requires |r| <= |l| && r == l[..|r|]
    requires forall k :: |r| <= k < |l| ==> IsSpace(l[k])
    ensures AllSpace(s[..|s| - |l|]) && AllSpace(l[|r|..])
    ensures s == s[..|s| - |l|] + r + l[|r|..]
  {
    var i := |s| - |l|;
    forall k | 0 <= k < i
      ensures IsSpace(s[..i][k])
    {
      assert s[..i][k] == s[k];
    }
    forall k | 0 <= k < |l| - |r|
      ensures IsSpace(l[|r|..][k])
    {
      assert l[|r|..][k] == l[|r| + k];
    }
    assert l == r + l[|r|..];
    assert s == s[..i] + l;
  }

  /** `lstrip()` removes exactly a blank prefix in front of a piece that
      does not start with whitespace. */
  lemma {:induction false} TrimLeftBlank(a: string, t: string)
    requires AllSpace(a) && (t == [] || !IsSpace(t[0]))
    ensures TrimLeft(a + t) == t
    decreases |a|
  {
    if a == [] {
      assert a + t == t;
    } else {
      assert IsSpace(a[0]);
      assert (a + t)[1..] == a[1..] + t;
      TrimLeftBlank(a[1..], t);
    }
  }

  /** `rstrip()` removes exactly a blank suffix behind a piece that does
      not end with whitespace. */
  lemma {:induction false} TrimRightBlank(m: string, b: string)
    requires AllSpace(b) && (m == [] || !IsSpace(m[|m| - 1]))
    ensures TrimRight(m + b) == m
    decreases |b|
  {
    if b == [] {
      assert m + b == m;
    } else {
      var c := b[..|b| - 1];
      assert IsSpace(b[|b| - 1]);
      assert (m + b)[..|m + b| - 1] == m + c;
      TrimRightBlank(m, c);
    }
  }

  /** The converse of `StripSplits`: whatever blank margins surround a
      trimmed piece, `strip()` returns that piece. */
  lemma StripUnique(a: string, m: string, b: string)
    requires AllSpace(a) && AllSpace(b) && Trimmed(m)
    ensures Strip(a + m + b) == m
  {
    if m == [] {
      assert a + m + b == a + b;
      assert AllSpace(a + b) by {
        forall k | 0 <= k < |a + b|
          ensures IsSpace((a + b)[k])
        {
          if k < |a| { assert (a + b)[k] == a[k]; } else { assert (a + b)[k] == b[k - |a|]; }
        }
      }
      StripBlank(a + b);
    } else {
      assert a + m + b == a + (m + b);
      TrimLeftBlank(a, m + b);
      TrimRightBlank(m, b);
    }
  }

  /** Position of the first `c` in `s`. */
  function IndexOf(s: string, c: char): (k: nat)
    requires c in s
    ensures k < |s| && s[k] == c && c !in s[..k]
  {
    if s[0] == c then 0
    else
      var k := IndexOf(s[1..], c);
      assert s[..k + 1] == [s[0]] + s[1..][..k];
      k + 1
  }

  /** The inverse of `Split`: the parts glued back together with `sep`. */
  function Join(parts: seq<string>, sep: char): string
    requires |parts| >= 1
  {
    if |parts| == 1 then parts[0]
    else parts[0] + [sep] + Join(parts[1..], sep)
  }

  /** `s.split(sep)` for a one-character separator: the pieces between the
      separators, which glue back to `s`; there is one piece more than
      there are separators, so a single piece means `sep` is absent. */
  function Split(s: string, sep: char): (parts: seq<string>)
    ensures |parts| >= 1
    ensures |parts| == 1 <==> sep !in s
    ensures forall i :: 0 <= i < |parts| ==> sep !in parts[i]
    ensures Join(parts, sep) == s
    decreases |s|
  {
    if sep !in s then [s]
    else
      var k := IndexOf(s, sep);
      var rest := Split(s[k + 1..], sep);
      var parts := [s[..k]] + rest;
      assert parts[1..] == rest;
      assert s == s[..k] + [sep] + s[k + 1..];
      parts
  }

  /** Splitting the joined parts gives the parts back, as long as none of
      them contains the separator. */
  lemma {:induction false} SplitJoin(parts: seq<string>, sep: char)
    requires |parts| >= 1
    requires forall i :: 0 <= i < |parts| ==> sep !in parts[i]
    ensures Split(Join(parts, sep), sep) == parts
    decreases |parts|
  {
    var s := Join(parts, sep);
    if |parts| > 1 {
      var p := parts[0];
      var rest := Join(parts[1..], sep);
      assert s == p + [sep] + rest;
      assert s[|p|] == sep;
      assert s[..|p|] == p;
      var k := IndexOf(s, sep);
      assert k == |p|;
      assert s[..k] == p;
      assert s[k + 1..] == rest;
      SplitJoin(parts[1..], sep);
      assert parts == [p] + parts[1..];
    }
  }

  /** `s.split(sep)[0]`: everything before the first `sep`, or all of `s`. */
  function Before(s: string, sep: char): (r: string)
    ensures |r| <= |s| && sep !in r && r == s[..|r|]
    ensures sep in s ==> |r| < |s| && s[|r|] == sep
    ensures sep !in s ==> r == s
  {
    var parts := Split(s, sep);
    if |parts| == 1 then parts[0]
    else
      assert s == parts[0] + [sep] + Join(parts[1..], sep);
      parts[0]
  }

  /** `s.split(sep, 1)[1]`: everything after the first `sep`. */
  function After(s: string, sep: char): (r: string)
    requires sep in s
    ensures s == Before(s, sep) + [sep] + r
  {
    s[|Before(s, sep)| + 1..]
  }

  /** The longest prefix of `s` free of whitespace. */
  function Word(s: string): (w: string)
    ensures |w| <= |s| && w == s[..|w|] && NoSpace(w)
    ensures |w| == |s| || IsSpace(s[|w|])
  {
    if s == [] || IsSpace(s[0]) then []
    else
      var w := Word(s[1..]);
      assert [s[0]] + w == s[..|w| + 1];
      [s[0]] + w
  }

  /** Two prefixes of `s` free of whitespace and each stopped by the end of
      `s` or by whitespace are the same prefix. */
  lemma WordUnique(s: string, p: string)
    requires |p| <= |s| && p == s[..|p|] && NoSpace(p)
    requires |p| == |s| || IsSpace(s[|p|])
    ensures Word(s) == p
  {
    var w := Word(s);
    assert |w| == |p|;
  }

  function Concat(words: seq<string>): string
  {
    if words == [] then [] else words[0] + Concat(words[1..])
  }

  /** `s.split()`: the maximal runs of non-whitespace characters, each of
      them non-empty and free of whitespace. */
  function Fields(s: string): (r: seq<string>)
    ensures Words(r)
    decreases |s|
  {
    if s == [] then []
    else if IsSpace(s[0]) then Fields(s[1..])
    else
      var w := Word(s);
      var tail := Fields(s[|w|..]);
      var r := [w] + tail;
      assert forall i :: 1 <= i < |r| ==> r[i] == tail[i - 1];
      r
  }

  /** The fields hold exactly the visible characters of the string, in
      order: `split()` loses nothing but whitespace. */
  lemma {:induction false} FieldsVisible(s: string)
    ensures Concat(Fields(s)) == Visible(s)
    decreases |s|
  {
    if s != [] {
      if IsSpace(s[0]) {
        FieldsVisible(s[1..]);
      } else {
        var w := Word(s);
        var rest := s[|w|..];
        var tail := Fields(rest);
        assert Fields(s) == [w] + tail;
        assert ([w] + tail)[1..] == tail;
        FieldsVisible(rest);
        assert s == w + rest;
        VisibleAppend(w, rest);
        VisibleOfNoSpace(w);
      }
    }
  }

  /** `split()` inverts joining non-empty, whitespace-free words with single
      spaces. */
  lemma {:induction false} FieldsJoin(words: seq<string>)
    requires |words| >= 1
    requires Words(words)
    ensures Fields(Join(words, ' ')) == words
    decreases |words|
  {
    var s := Join(words, ' ');
    var w := words[0];
    if |words| == 1 {
      WordUnique(s, w);
      assert s[|w|..] == [];
    } else {
      var rest := Join(words[1..], ' ');
      assert s == w + [' '] + rest;
      assert s[0] == w[0];
      assert s[..|w|] == w;
      assert IsSpace(s[|w|]);
      WordUnique(s, w);
      var tail := s[|w|..];
      assert tail == [' '] + rest;
      assert tail[1..] == rest;
      assert Fields(tail) == Fields(rest);
      FieldsJoin(words[1..]);
      assert Fields(s) == [w] + Fields(tail);
      assert words == [w] + words[1..];
    }
  }

  /** `gaps[0] + words[0] + gaps[1] + ... + words[n - 1] + gaps[n]`. */
  function Interleave(gaps: seq<string>, words: seq<string>): string
    requires |gaps| == |words| + 1
  {
    if words == [] then gaps[0]
    else gaps[0] + words[0] + Interleave(gaps[1..], words[1..])
  }

  /** Gaps between fields: all whitespace, and those strictly between two
      fields hold at least one whitespace character. */
  predicate Separators(gaps: seq<string>)
  {
    && (forall i :: 0 <= i < |gaps| ==> AllSpace(gaps[i]))
    && (forall i :: 0 < i < |gaps| - 1 ==> gaps[i] != [])
  }

  /** Every element is a word, as every field is. */
  predicate Words(words: seq<string>)
  {
    forall i :: 0 <= i < |words| ==> IsWord(words[i])
  }

  /** The whitespace around and between the fields of `s`: gluing it back
      in between the fields rebuilds `s`, so `split()` drops nothing but
      whitespace and keeps the fields in order. */
  function Gaps(s: string): (g: seq<string>)
    ensures |g| == |Fields(s)| + 1 && Separators(g)
    ensures Interleave(g, Fields(s)) == s
    ensures s != [] && IsSpace(s[0]) ==> g[0] != []
    decreases |s|
  {
    if s == [] then [[]]
    else if IsSpace(s[0]) then
      var g := Gaps(s[1..]);
      GapsAfterSpace(s, g);
      [[s[0]] + g[0]] + g[1..]
    else
      var w := Word(s);
      var g := Gaps(s[|w|..]);
      GapsAfterWord(s, w, g);
      [[]] + g
  }

  /** `Gaps` of a string starting with whitespace: that character joins
      the first gap of the rest. */
  lemma GapsAfterSpace(s: string, g: seq<string>)
    requires s != [] && IsSpace(s[0])
    requires |g| == |Fields(s[1..])| + 1 && Separators(g)
    requires Interleave(g, Fields(s[1..])) == s[1..]
    ensures |[[s[0]] + g[0]] + g[1..]| == |Fields(s)| + 1
    ensures Separators([[s[0]] + g[0]] + g[1..])
    ensures Interleave([[s[0]] + g[0]] + g[1..], Fields(s)) == s
  {
    assert Fields(s) == Fields(s[1..]);
    SpaceJoinsFirstGap(s[0], g);
    InterleaveWiderFirstGap([s[0]], g, Fields(s));
    assert s == [s[0]] + s[1..];
  }

  /** Separators stay separators when whitespace joins the first gap. */
  lemma SpaceJoinsFirstGap(c: char, g: seq<string>)
    requires IsSpace(c) && |g| >= 1 && Separators(g)
    ensures Separators([[c] + g[0]] + g[1..])
  {
    var h := [[c] + g[0]] + g[1..];
    forall k | 0 <= k < |h[0]|
      ensures IsSpace(h[0][k])
    {
      if k > 0 { assert h[0][k] == g[0][k - 1]; }
    }
    assert forall i :: 0 < i < |h| ==> h[i] == g[i];
  }

  /** Widening the first gap by `x` puts `x` in front. */
  lemma InterleaveWiderFirstGap(x: string, g: seq<string>, words: seq<string>)
    requires |g| == |words| + 1
    ensures Interleave([x + g[0]] + g[1..], words) == x + Interleave(g, words)
  {
    var h := [x + g[0]] + g[1..];
    assert h[1..] == g[1..];
    if words != [] {
      assert (x + g[0]) + words[0] + Interleave(g[1..], words[1..])
          == x + (g[0] + words[0] + Interleave(g[1..], words[1..]));
    }
  }

  /** `Gaps` of a string starting with a field: an empty first gap, then
      the gaps of what follows the field. */
  lemma GapsAfterWord(s: string, w: string, g: seq<string>)
    requires s != [] && !IsSpace(s[0]) && w == Word(s)
    requires |g| == |Fields(s[|w|..])| + 1 && Separators(g)
    requires Interleave(g, Fields(s[|w|..])) == s[|w|..]
    requires s[|w|..] != [] && IsSpace(s[|w|..][0]) ==> g[0] != []
    ensures |[[]] + g| == |Fields(s)| + 1
    ensures Separators([[]] + g)
    ensures Interleave([[]] + g, Fields(s)) == s
  {
    var rest := s[|w|..];
    var f := Fields(rest);
    assert Fields(s) == [w] + f;
    if f != [] {
      assert rest != [] && rest[0] == s[|w|];
    }
    EmptyGapFirst(g, f != []);
    InterleaveAfterWord(w, g, f);
    assert s == w + rest;
  }

  /** A field behind an empty first gap comes first. */
  lemma InterleaveAfterWord(w: string, g: seq<string>, words: seq<string>)
    requires |g| == |words| + 1
    ensures Interleave([[]] + g, [w] + words) == w + Interleave(g, words)
  {
    assert ([w] + words)[1..] == words && ([[]] + g)[1..] == g;
    assert [] + w == w;
  }

  /** An empty gap in front of separators is still separators, as long as
      the old first gap is non-empty whenever it now lies between fields. */
  lemma EmptyGapFirst(g: seq<string>, inner: bool)
    requires Separators(g) && |g| >= 1 && (|g| >= 2 ==> inner)
    requires inner ==> g[0] != []
    ensures Separators([[]] + g)
  {
    assert forall i :: 0 < i < |g| + 1 ==> ([[]] + g)[i] == g[i - 1];
  }

  /** Whitespace in front of a string does not change its fields. */
  lemma {:induction false} FieldsSkipBlank(a: string, t: string)
    requires AllSpace(a)
    ensures Fields(a + t) == Fields(t)
    decreases |a|
  {
    if a == [] {
      assert a + t == t;
    } else {
      assert (a + t)[0] == a[0];
      assert (a + t)[1..] == a[1..] + t;
      assert AllSpace(a[1..]) by {
        forall k | 0 <= k < |a| - 1
          ensures IsSpace(a[1..][k])
        {
          assert a[1..][k] == a[k + 1];
        }
      }
      FieldsSkipBlank(a[1..], t);
    }
  }

  /** A word followed by the end or by whitespace is the first field. */
  lemma FieldsTakeWord(w: string, t: string)
    requires IsWord(w) && (t == [] || IsSpace(t[0]))
    ensures Fields(w + t) == [w] + Fields(t)
  {
    var s := w + t;
    assert s[..|w|] == w && s[0] == w[0];
    if t != [] {
      assert s[|w|] == t[0];
    }
    WordUnique(s, w);
    assert s[|w|..] == t;
  }

  /** Text that begins with a blank gap, non-empty when a word follows,
      is empty or begins with whitespace. */
  lemma InterleaveStart(g: seq<string>, words: seq<string>)
    requires |g| == |words| + 1 && AllSpace(g[0])
    requires words != [] ==> g[0] != []
    ensures Interleave(g, words) == [] || IsSpace(Interleave(g, words)[0])
  {
    if g[0] != [] {
      assert Interleave(g, words)[0] == g[0][0];
    }
  }

  /** The converse of `Gaps`: however words are laid out between blank
      separators, `split()` returns exactly those words. */
  lemma {:induction false} FieldsOfInterleave(gaps: seq<string>, words: seq<string>)
    requires |gaps| == |words| + 1 && Separators(gaps) && Words(words)
    ensures Fields(Interleave(gaps, words)) == words
    decreases |words|
  {
    if words == [] {
      FieldsSkipBlank(gaps[0], []);
      assert gaps[0] + [] == gaps[0];
    } else {
      var g, ws := gaps[1..], words[1..];
      assert forall i :: 0 <= i < |g| ==> g[i] == gaps[i + 1];
      assert forall i :: 0 <= i < |ws| ==> ws[i] == words[i + 1];
      FieldsOfInterleave(g, ws);
      var t := Interleave(g, ws);
      InterleaveStart(g, ws);
      FieldsTakeWord(words[0], t);
      assert gaps[0] + words[0] + t == gaps[0] + (words[0] + t);
      FieldsSkipBlank(gaps[0], words[0] + t);
      assert words == [words[0]] + ws;
    }
  }

  /** A line with a visible character has a first field. */
  lemma FieldsOfVisible(s: string)
    requires Visible(s) != []
    ensures |Fields(s)| >= 1
  {
    FieldsVisible(s);
  }

  /** Value of a digit in bases up to 16 (either letter case), -1 for any
      other character. */
  function DigitValue(c: char): (d: int)
    ensures -1 <= d < 16
  {
    if '0' <= c <= '9' then c as int - '0' as int
    else if 'a' <= c <= 'f' then c as int - 'a' as int + 10
    else if 'A' <= c <= 'F' then c as int - 'A' as int + 10
    else -1
  }

  predicate AllDigits(s: string, base: nat)
  {
    forall k :: 0 <= k < |s| ==> 0 <= DigitValue(s[k]) < base
  }

  /** Positional value of a digit string, most significant digit first. */
  function DigitsValue(s: string, base: nat): nat
    requires AllDigits(s, base)
  {
    if s == [] then 0
    else DigitsValue(s[..|s| - 1], base) * base + DigitValue(s[|s| - 1])
  }

  /** `int(text, base)` for base 10 and 16: surrounding whitespace is
      ignored; anything `Numeral` does not accept is a ValueError, here
      `None`. */
  function ParseInt(text: string, base: nat): (r: Option<int>)
    requires base == 10 || base == 16
  {
    Numeral(Strip(text), base)
  }

  /** An optional sign, then (base 16 only) an optional `0x` prefix, then
      at least one digit. */
  function Numeral(s: string, base: nat): (r: Option<int>)
    requires base == 10 || base == 16
  {
    var signed := |s| > 0 && (s[0] == '-' || s[0] == '+');
    var unsigned := if signed then s[1..] else s;
    var digits :=
      if base == 16 && |unsigned| >= 2 && unsigned[0] == '0' && (unsigned[1] == 'x' || unsigned[1] == 'X')
      then unsigned[2..] else unsigned;
    if digits != [] && AllDigits(digits, base) then
      var v: int := DigitsValue(digits, base);
      Some(if signed && s[0] == '-' then -v else v)
    else None
  }

  function DigitChar(d: nat): (c: char)
    requires d < 16
    ensures DigitValue(c) == d
  {
    "0123456789ABCDEF"[d]
  }

  /** The numeral of `n` in `base`, most significant digit first. */
  function ShowNat(n: nat, base: nat): (s: string)
    requires base == 10 || base == 16
    ensures s != [] && AllDigits(s, base)
    ensures DigitsValue(s, base) == n
  {
    if n < base then
      var s := [DigitChar(n)];
      assert s[..0] == [];
      s
    else
      var hi := ShowNat(n / base, base);
      var s := hi + [DigitChar(n % base)];
      assert s[..|s| - 1] == hi;
      s
  }

  /** Python's `str(n)` (base 10) or `format(n, 'X')` with a minus sign. */
  function ShowInt(n: int, base: nat): string
    requires base == 10 || base == 16
  {
    if n < 0 then "-" + ShowNat(-n, base) else ShowNat(n, base)
  }

  /** A digit is neither whitespace, nor a sign, nor the `x` of a prefix. */
  lemma DigitIsPlain(c: char)
    requires DigitValue(c) >= 0
    ensures !IsSpace(c) && c != '-' && c != '+' && c != 'x' && c != 'X'
  {
  }

  /** `int` reads back what the printer writes, for every integer. */
  lemma ParseShow(n: int, base: nat)
    requires base == 10 || base == 16
    ensures ParseInt(ShowInt(n, base), base) == Some(n)
  {
    var m := if n < 0 then -n else n;
    var digits := ShowNat(m, base);
    var s := ShowInt(n, base);
    DigitIsPlain(digits[0]);
    DigitIsPlain(digits[|digits| - 1]);
    if n < 0 {
      assert s == "-" + digits;
    } else {
      assert s == digits;
    }
    assert s[|s| - 1] == digits[|digits| - 1];
    StripTrimmed(s);
    NumeralShow(n, base);
  }

  lemma NumeralShow(n: int, base: nat)
    requires base == 10 || base == 16
    ensures Numeral(ShowInt(n, base), base) == Some(n)
  {
    var m := if n < 0 then -n else n;
    var digits := ShowNat(m, base);
    var s := ShowInt(n, base);
    DigitIsPlain(digits[0]);
    if |digits| >= 2 {
      DigitIsPlain(digits[1]);
    }
    if n < 0 {
      assert s == "-" + digits;
      assert s[1..] == digits;
    } else {
      assert s == digits;
    }
  }
}

=== FILE: wrappers.dfy ===
/** Failure-carrying result types shared by every module of the model. */
module Wrappers {

  /** An optional value: the source's dictionary lookups that may miss. */
  datatype Option<+T> = None | Some(value: T)

  /** The outcome of an operation that may raise: `Ok` carries the value,
      `Err` carries what the raised exception reports. */
  datatype Result<+T, +E> = Ok(value: T) | Err(error: E)
}
